=== FILE: README.md ===
# cosmodoc data decoders in Dafny

This project models the data-extraction scripts of cosmodoc, a documentation
site for the DOS game *Cosmo's Cosmic Adventure*. The scripts read the game's
resource files and C source and turn them into tables for the site. The
model covers:

- **Record layouts** (`Defs`): the map header with its five bit-fields, actor
  placements, sprite info headers and entries with segmented offsets, sound
  headers and entries, the fixed file manifests, and group-entry name
  normalisation.
- **Map decoder** (`MapDecoder`): one summary row per map file and five
  cross-reference indices, with their keys sorted.
- **Sprite decoder** (`SpriteDecoder`): the header-table scan, frame spans and
  rows grouped by sprite type.
- **Sound decoder** (`SoundDecoder`): the FF FF terminator scan, the game-index
  counter and the length estimate.
- **Music decoder** (`MusicDecoder`): the count of 4-byte records and the sum
  of their waits.
- **Actor table** (`ActorDecoder`): the `case t:` label search over the game's
  C source, the hunt for a `CreateActor(...)` call, and the normalisation of
  the call's arguments.
- **Font table** (`Font`).
- **Weight renumbering** (`Renumber`): the weight line in the `+++` front
  matter, the group reports, and the stride renumbering.
- **Image manifest** (`ImageManifest`): entry and version parsing, and the
  `.svg` to `-{ver}.png` name substitution.

The helper modules are `Wrappers` (Option, Result and the exceptions),
`Bytes` (little-endian reads, and zero-filled reads past the end of a file),
`Strings` (ASCII case, search, `replace`, `int()`, `strip()`) and
`SortedKeys`.

Files are byte sequences (`seq<byte>`); a directory is a map from file name
to bytes; a text file is its list of lines. An exception the scripts raise
becomes an `Err` carrying the exception's kind.

Where the scripts would loop forever, the operation has a precondition
stating that the loop ends. This applies to the sprite header scan on a
header that never meets its own offsets, and to a frame span reaching past
the end of the file. Running off the end of the line list in the actor hunt
is Python's `IndexError`, modelled as `Err(IndexOutOfRange)`.

The sprite header scan is modelled as the code does it. The loop ends when
the read cursor reaches an offset that was already recorded, not when a
recorded value repeats. `SpriteDecoder.ScanStopsOnCursorNotOnRepeat` shows a
file where the two readings differ.

`height_tiles` is `int(0x8000 / width)` with float division. For 16-bit
widths this equals integer division, because the exact quotient is never
closer than 1/65535 to the next integer. The model uses integer division.

## Model

| member | source | states |
|---|---|---|
| Defs.UnpackWord | scripts/datalib/defs.py:26-36 | the header word splits into backdrop (bits 0-4), rain (5), hscroll (6), vscroll (7), palette animation (8-10) and music (11-15); each field fits its width and the fields re-pack to the word |
| Defs.UnpackPacked | scripts/datalib/defs.py:26-36 | packing in-range fields gives a 16-bit word that unpacks to the same fields |
| Defs.DecodeMapHeader | scripts/datalib/defs.py:26-36 | the six header bytes are the packed word, then the width, then the actor size, little-endian |
| Defs.MapHeaderRoundTrip | scripts/datalib/defs.py:26-36 | decoding an encoded header gives back every field |
| Defs.MapHeaderBytesRoundTrip | scripts/datalib/defs.py:26-36 | encoding a decoded header gives back the six bytes |
| Defs.HeightTiles | scripts/datalib/defs.py:38-40 | zero width is a ZeroDivisionError; otherwise the height is the largest h with h * width <= 0x8000 |
| Defs.NumActors | scripts/datalib/defs.py:42-44 | n actors with 3n <= actor words < 3n + 3 |
| Defs.DecodeActor | scripts/datalib/defs.py:47-52 | type, x and y are the three little-endian words of the record |
| Defs.IsPlayer | scripts/datalib/defs.py:54-56 | an actor is the player exactly when its type is 0 |
| Defs.IsPlatform | scripts/datalib/defs.py:58-60 | an actor is a platform exactly when its type is 1 |
| Defs.IsFountain | scripts/datalib/defs.py:62-64 | an actor is a fountain exactly when its type lies in 2..5 |
| Defs.IsLight | scripts/datalib/defs.py:66-68 | an actor is a light exactly when its type lies in 6..8 |
| Defs.CategoriesDisjoint | scripts/datalib/defs.py:54-68 | player, platform, fountain and light are pairwise exclusive |
| Defs.RealType | scripts/datalib/defs.py:70-74 | defined exactly for types >= 31, and then type - 31 |
| Defs.InfoOffsetBytes | scripts/datalib/defs.py:82-84 | the byte offset is twice the stored word count: even, below 0x20000 |
| Defs.DecodeInfoEntry | scripts/datalib/defs.py:87-92 | height, width, then a 32-bit frame offset |
| Defs.InfoEntryRoundTrip | scripts/datalib/defs.py:87-92 | the eight bytes hold exactly these three fields |
| Defs.FixedOffset | scripts/datalib/defs.py:94-102 | the fixed offset x - (x >> 16) is at most x, equals x exactly below 0x10000, and loses at most 0xFFFF |
| Defs.FixedOffsetMonotone | scripts/datalib/defs.py:94-102 | the correction never reorders offsets |
| Defs.SegmentBoundaryCoincides | scripts/datalib/defs.py:96-102 | offsets 0xFFFF and 0x10000 land on the same byte: segments are 0xFFFF bytes long |
| Defs.DecodeSoundHeader | scripts/datalib/defs.py:105-112 | 4-byte magic, size, count and one more word, then 6 characters, each cut at its first NUL |
| Defs.DecodeSoundEntry | scripts/datalib/defs.py:115-121 | 16-bit offset, 8-bit priority and rate, 12-byte name cut at its first NUL |
| Defs.SoundEntryRoundTrip | scripts/datalib/defs.py:115-121 | an entry whose name has no NUL is decoded from its encoding unchanged |
| Defs.NormalizeGroupentName | scripts/datalib/defs.py:138-139 | the normalised name has no lower-case letter and is never longer than the file name |
| Defs.NormalizeStem | scripts/datalib/defs.py:138-139 | an upper-case, dot-free stem with ".MNI" normalises back to the stem |
| Defs.ManifestNameNormalizes | scripts/datalib/defs.py:138-139 | every manifest-shaped name normalises to its name without ".MNI" |
| Defs.FileIterator | scripts/datalib/defs.py:128-135 | one path per manifest name, in manifest order, whose basename is that name |
| Defs.MapManifestWellFormed | scripts/datalib/defs.py:5-11 | each of the 37 map files is an upper-case alphanumeric stem plus ".MNI" |
| Defs.MusicManifestWellFormed | scripts/datalib/defs.py:13-17 | each of the 19 music files is an upper-case alphanumeric stem plus ".MNI" |
| Defs.SoundManifestWellFormed | scripts/datalib/defs.py:19 | each of the 3 sound files is an upper-case alphanumeric stem plus ".MNI" |
| Bytes.CString | scripts/datalib/defs.py:105-121 | a `c_char` array field reads as its bytes up to the first NUL: a NUL-free prefix followed by a NUL or the end |
| Bytes.ReadPadded | scripts/datalib/map.py:96-104 | `readinto` of a fresh record: the file's bytes where they exist, zeros past the end |
| Bytes.RecordStep | scripts/datalib/sound.py:92-94 | reading record k at the cursor reads the bytes at start + size * k and moves the cursor to record k + 1 |
| MapDecoder.AddName | scripts/datalib/map.py:55-68 | the name is listed under the key once; every other key's list is untouched; lists stay duplicate-free |
| MapDecoder.AddNameIdempotent | scripts/datalib/map.py:61-62 | adding a name twice is the same as adding it once |
| MapDecoder.CategoryCountsBounded | scripts/datalib/map.py:46-49 | the four category counts together never exceed the actor count |
| MapDecoder.IndexActors | scripts/datalib/map.py:53-59 | every real type files the map under type - 31 in the actor index, every other type under itself in the special index, and nothing filed before is lost |
| MapDecoder.IndexActorsExact | scripts/datalib/map.py:53-59 | nothing else is filed: a listed name was there before, or is this map under one of its actors' keys |
| MapDecoder.Insert | scripts/datalib/map.py:34-68 | fails exactly on zero width; otherwise one row is appended with the header fields, the actor count, each category's count of actors and the tile size; the map is added under its backdrop, music and palette animation with every other key untouched, and under its actors' keys and nowhere else |
| MapDecoder.SortedKeysOf | scripts/datalib/map.py:81-85 | the index's keys, strictly ascending, each once |
| MapDecoder.ToDict | scripts/datalib/map.py:70-87 | the table and indices unchanged, and each index's keys sorted ascending |
| MapDecoder.ReadActors | scripts/datalib/map.py:100-104 | n records read one after another, each the zero-padded 6 bytes at its position |
| MapDecoder.DecodeMapFile | scripts/datalib/map.py:96-106 | header, then num_actors records, then every remaining byte as tiles |
| MapDecoder.LoadMap | scripts/datalib/map.py:93-108 | one manifest iteration succeeds exactly when the map's width is not zero (otherwise ZeroDivision); the appended row describes the decoded file and the five indices file it as `insert` does |
| MapDecoder.ParseMaps | scripts/datalib/map.py:90-110 | succeeds exactly when every file exists and decodes, otherwise fails with FileNotFound or ZeroDivision of the first file that does not; row i describes file i under its normalised name; each of the five indices equals the reference `Expected`: under every key, exactly the maps showing it, in manifest order, each once |
| MapDecoder.ParseMapData | scripts/datalib/map.py:90-110 | over the fixed map manifest: the first failing file decides the error; row i describes `MAP_FILES[i]` and is named without ".MNI"; every index equals the reference `Expected` over the whole manifest |
| MapDecoder.RecordedKept | scripts/datalib/map.py:46-68 | a later `insert` keeps an earlier map's row and keeps its name in every index list it was in |
| MapDecoder.Expected | scripts/datalib/map.py:53-68 | the reference index list of one key: the names of the maps showing it, in first-seen order, without duplicates |
| MapDecoder.ExpectedMembers | scripts/datalib/map.py:53-68 | a name is listed under a key exactly when some loaded map with that name shows the key |
| MapDecoder.ExpectedOrder | scripts/datalib/map.py:53-68 | of two listed names, the earlier one belongs to a map earlier in the manifest |
| MapDecoder.FiledSteps | scripts/datalib/map.py:53-59 | the actor loop of `insert` appends the map's name exactly under the keys its actors show, where it is not yet listed |
| MapDecoder.IndicesExpectedStep | scripts/datalib/map.py:93-108 | one more loaded map keeps every index equal to the reference one |
| SpriteDecoder.ScanHeaders | scripts/datalib/sprite.py:57-64 | the recorded offsets are the header reads, up to the first cursor position that equals a recorded offset |
| SpriteDecoder.ScanStopsOnCursorNotOnRepeat | scripts/datalib/sprite.py:58-64 | on 03 00 03 00 02 00 the scan records 6, 6, 4 and stops only when the cursor reaches 6 |
| SpriteDecoder.NextAbove | scripts/datalib/sprite.py:68-71 | the least recorded offset above o, or none exactly when no offset is larger |
| SpriteDecoder.FrameCount | scripts/datalib/sprite.py:75-82 | the loop reads ceil((stop - pos) / 8) entries |
| SpriteDecoder.ReadFrames | scripts/datalib/sprite.py:73-82 | frame j is the entry at offset + 8j |
| SpriteDecoder.MakeRow | scripts/datalib/sprite.py:34-41 | type, frame, width and height copied; the offset corrected, never larger, unchanged exactly below 0x10000 |
| SpriteDecoder.TypeRows | scripts/datalib/sprite.py:75-82 | one row per frame, numbered from 0, all of type t |
| SpriteDecoder.GroupsFrom | scripts/datalib/sprite.py:45 | the non-empty groups from type t on |
| SpriteDecoder.ToDict | scripts/datalib/sprite.py:43-48 | the non-empty groups, in strictly ascending type order |
| SpriteDecoder.GroupsAscending | scripts/datalib/sprite.py:45 | groups come out in strictly ascending type order |
| SpriteDecoder.TypeGroup | scripts/datalib/sprite.py:66-82 | the span from a type's offset to the next larger offset (or end of file), read as frame rows |
| SpriteDecoder.BuildTable | scripts/datalib/sprite.py:66-82 | one group per header entry, in header order, every row under its own type |
| SpriteDecoder.ParseSpriteData | scripts/datalib/sprite.py:51-84 | the header scan ends at its first stop, and each type's rows are the entries of its span |
| SoundDecoder.FindDataSize | scripts/datalib/sound.py:60-74 | bytes read in 2-byte chunks up to and including the first FF FF chunk, or to the end of the file |
| SoundDecoder.FindDataSizeUnique | scripts/datalib/sound.py:60-74 | any size meeting that description is the one the scan returns |
| SoundDecoder.FindDataSizeExamples | scripts/datalib/sound.py:66-72 | 01 02 FF FF has size 4; 01 02 03 has size 3 |
| SoundDecoder.LengthMs | scripts/datalib/sound.py:41-46 | zero for sizes up to 4, above 10 ms for anything larger |
| SoundDecoder.LengthMonotone | scripts/datalib/sound.py:41-46 | a longer sound never has a shorter length |
| SoundDecoder.Visible | scripts/datalib/sound.py:32-33 | the game loads entries 0 to 22 of a file, and only 0 to 18 of SOUNDS3 |
| SoundDecoder.Insert | scripts/datalib/sound.py:29-57 | one row appended; a loaded entry (below 23, below 19 in SOUNDS3) takes the next game index, any other none |
| SoundDecoder.InsertCounted | scripts/datalib/sound.py:32-37 | the indices handed out stay 1, 2, …, counter |
| SoundDecoder.ParseSoundFile | scripts/datalib/sound.py:88-96 | num_sounds rows after the earlier ones, row j describing the j-th 16-byte record after the header and carrying a game index exactly when the game loads entry j |
| SoundDecoder.ParseSoundData | scripts/datalib/sound.py:84-98 | succeeds exactly when the three files exist, otherwise fails with FileNotFound of the first missing one; each file's rows form one block after the blocks of the files before it, entry j at offset j with a game index exactly when loaded; the indices handed out are 1, 2, … in table order |
| MusicDecoder.Wait | scripts/datalib/music.py:71 | bytes 2-3 of a record little-endian; a short slice reads what is there, an empty one 0 |
| MusicDecoder.CountRecords | scripts/datalib/music.py:63-75 | writes is the byte count divided by 4 rounded up; cycles is the sum of every record's wait, at most 0xFFFF per record |
| MusicDecoder.CyclesIgnoreLowBytes | scripts/datalib/music.py:68-71 | bytes 0 and 1 of a record never change the cycles |
| MusicDecoder.TrailingFragment | scripts/datalib/music.py:64-73 | a trailing fragment adds one record, whose wait is its third byte or 0 |
| MusicDecoder.SplitSeconds | scripts/datalib/music.py:37-44 | whole minutes and a remainder in [0, 60) that add back to the seconds |
| MusicDecoder.SplitSecondsExample | scripts/datalib/music.py:37-44 | a concrete split of seconds into whole minutes and the remainder |
| MusicDecoder.SplitSecondsUnique | scripts/datalib/music.py:41-42 | that split is the only one with a remainder in [0, 60) |
| MusicDecoder.CyclesToDuration | scripts/datalib/music.py:37-44 | the split of cycles / MUSIC_RATE_HZ seconds |
| MusicDecoder.ParseMusic | scripts/datalib/music.py:54-79 | succeeds exactly when every file exists, otherwise fails with FileNotFound of the first missing one; one row per file, in order |
| MusicDecoder.ParseMusicData | scripts/datalib/music.py:54-79 | over the fixed music manifest: FileNotFound of the first missing file, otherwise each row describes its file and is named by it without ".MNI" |
| ActorDecoder.SplitFields | scripts/datalib/actor.py:7-10 | n non-empty fields, each ended by the first following separator |
| ActorDecoder.SplitJoin | scripts/datalib/actor.py:7-10 | the splitter recovers the arguments of any call whose fields hold no separator |
| ActorDecoder.Extract | scripts/datalib/actor.py:100 | a found call has 13 arguments and the line contains `CreateActor(` |
| ActorDecoder.ExtractCall | scripts/datalib/actor.py:100-102 | a line holding a well-formed call yields exactly that call's arguments |
| ActorDecoder.Scan | scripts/datalib/actor.py:91-92 | one classified line per line of the file |
| ActorDecoder.ScanAt | scripts/datalib/actor.py:97-100 | line i of the scan is line i classified |
| ActorDecoder.Hunt | scripts/datalib/actor.py:94-104 | a found call has 13 arguments; the only error is IndexError |
| ActorDecoder.HuntSpec | scripts/datalib/actor.py:94-104 | the hunt decides on the first line holding `break;` or a call, with `break;` first; it is an IndexError exactly when no such line remains |
| ActorDecoder.LabelSearch | scripts/datalib/actor.py:109-116 | a found call has 13 arguments |
| ActorDecoder.LabelSearchSpec | scripts/datalib/actor.py:109-116 | no row exactly when no label line's hunt decides; otherwise the first such line's hunt is the answer |
| ActorDecoder.PrettifyXypos | scripts/datalib/actor.py:54-73 | the random position gives the fixed description; anything else is non-empty, lower case and without spaces |
| ActorDecoder.PrettifyClean | scripts/datalib/actor.py:54-73 | text already clean comes back unchanged in both modes |
| ActorDecoder.PrettifyRewritesXpos | scripts/datalib/actor.py:53-73 | one `xpos` in lower-case, blank-free text is deleted in absolute mode (leaving "0" for nothing) and becomes `x` otherwise; the rest is kept |
| ActorDecoder.PrettifyRewritesYpos | scripts/datalib/actor.py:53-73 | the same for one `ypos`, which becomes `y` |
| ActorDecoder.PrettifyDropsBlank | scripts/datalib/actor.py:53-73 | a single blank is dropped in both modes, leaving "0" for nothing |
| ActorDecoder.PrettifyModes | scripts/datalib/actor.py:61-71 | "XPOS" gives "0" in absolute mode and "x" otherwise |
| ActorDecoder.PrettifySinglePass | scripts/datalib/actor.py:62-63 | `replace` makes one pass: "xxpospos" comes out as "xpos" |
| ActorDecoder.PrettifyData | scripts/datalib/actor.py:75-80 | the word `type` in any case gives the actor type; anything else the relative prettified text |
| ActorDecoder.DataArgs | scripts/datalib/actor.py:46-50 | data1..data5 are the last five arguments through `prettify_data` |
| ActorDecoder.FirstError | scripts/datalib/actor.py:38-44 | a failing conversion is a ValueError |
| ActorDecoder.BuildRow | scripts/datalib/actor.py:35-51 | a row exactly when every `int()` succeeds, holding the converted values, the tick function verbatim and the data arguments; otherwise ValueError |
| ActorDecoder.RandomShiftFails | scripts/datalib/actor.py:39-59 | a random x shift never converts, so such a call builds no row |
| ActorDecoder.TypeStep | scripts/datalib/actor.py:109-116 | one type: an error exactly when its search or conversion fails, a row exactly when a call is found |
| ActorDecoder.TypeLoop | scripts/datalib/actor.py:108-116 | the first error ends the loop; otherwise the rows found, one per type that has one, in type order |
| ActorDecoder.ParseScan | scripts/datalib/actor.py:106-118 | the same over the classified lines |
| ActorDecoder.ParseActorData | scripts/datalib/actor.py:90-118 | succeeds exactly when every type's search and conversion succeeds; one row per type with a call, ascending |
| Font.RangeCode | scripts/datalib/font.py:45-50 | an ASCII code exactly for indices 10..94, within 32..90 or 97..122 |
| Font.FontEntry | scripts/datalib/font.py:40-71 | an entry exactly for indices below 100, else the "huh?" RuntimeError; offset is 40 * index; literal exactly for one-character glyphs |
| Font.GenerateFontTable | scripts/datalib/font.py:18-75 | 100 rows, row i being entry i |
| Font.SpecialWins | scripts/datalib/font.py:30-44 | index 25 is the pound sign with CP437 code 156, though its range code would be `/` |
| Font.RangeGlyph | scripts/datalib/font.py:45-50 | a non-special index in the runs is the one character of its ASCII code |
| Font.SymbolGlyphs | scripts/datalib/font.py:54-63 | the arrows carry CP437 codes 24, 25, 27, 26 and are single characters |
| Font.NamedGlyphs | scripts/datalib/font.py:19-36 | the named special glyphs have no code and are not literal |
| Font.GlyphOf | scripts/datalib/font.py:45-50 | a found glyph index is below 100 |
| Font.GlyphOfRoundTrip | scripts/datalib/font.py:45-50 | looking a character up and drawing that glyph gives the character and its code back |
| Font.GlyphOfInverse | scripts/datalib/font.py:45-50 | every non-special glyph in the runs is found again by its character |
| Renumber.WeightText | scripts/renumber.py:47 | the line `set_weight` writes: `weight = ` and the decimal text of the weight; WeightTextRoundTrip reads it back |
| Renumber.WeightTextRoundTrip | scripts/renumber.py:45-47 | the line `set_weight` writes matches the weight pattern with that weight |
| Renumber.NoKeyNoWeight | scripts/renumber.py:13 | a line not starting (after blanks) with w or W is no weight line |
| Renumber.MarkerIsNoWeight | scripts/renumber.py:12-13 | the fence line is no weight line |
| Renumber.WeightMatch | scripts/renumber.py:13 | a match starts, after leading blanks, with the key `weight` in any letter case |
| Renumber.Classify | scripts/renumber.py:34-41 | the fence test comes first; a weight line carries the matched weight |
| Renumber.ReadFrom | scripts/renumber.py:30-43 | a recorded line lies at or after the start of the loop |
| Renumber.ReadFromSpec | scripts/renumber.py:30-43 | the loop stops on the first weight line inside front matter, and finds nothing exactly when there is none |
| Renumber.ReadWeight | scripts/renumber.py:30-43 | a recorded weight line lies in the text, is no fence, and matches the pattern with the recorded weight |
| Renumber.ReadWeightSpec | scripts/renumber.py:30-43 | `read_weight` records the first weight line inside an odd number of fences, with its matched weight, or nothing exactly when there is none |
| Renumber.MarkersPrefix | scripts/renumber.py:33-36 | the front-matter state at a line depends only on the lines before it |
| Renumber.ArticleData.HasWeight | scripts/renumber.py:26-28 | an article has a weight exactly when `read_weight` recorded a weight line |
| Renumber.LoadArticle | scripts/renumber.py:15-21 | the article has a weight exactly when some weight line lies inside front matter |
| Renumber.SetWeight | scripts/renumber.py:45-47 | the weight line becomes `weight = N`, every other line and the path unchanged |
| Renumber.SetWeightRereads | scripts/renumber.py:30-47 | reading a renumbered article again finds the new weight on the same line |
| Renumber.WithWeightEmpty | scripts/renumber.py:59-63 | a weight is carried exactly when some article is listed under it |
| Renumber.Add | scripts/renumber.py:59-63 | the article is appended; a weighted one adds its weight to the table's keys |
| Renumber.AddTabulates | scripts/renumber.py:59-63 | adding keeps the table equal to the articles listed by weight in order added |
| Renumber.AddAllTabulates | scripts/renumber.py:59-63 | adding articles one by one builds that table |
| Renumber.TableEntry | scripts/renumber.py:57-63 | a table entry lists, in order, the articles of its weight, at least one |
| Renumber.Incompletes | scripts/renumber.py:65-68 | exactly the articles without a weight |
| Renumber.IncompletesAppend | scripts/renumber.py:65-68 | the list is built in order: the list of a concatenation is the concatenation of the lists, and one article is listed exactly when it has no weight |
| Renumber.SortedWeights | scripts/renumber.py:70-77 | the table's weights, strictly ascending |
| Renumber.Conflicts | scripts/renumber.py:70-74 | exactly the weights held by more than one article, each with its articles |
| Renumber.ConflictsAscending | scripts/renumber.py:70-74 | conflicts come out in ascending weight order |
| Renumber.ConflictsEmpty | scripts/renumber.py:70-74 | no conflicts are reported exactly when no weight is shared |
| Renumber.Usable | scripts/renumber.py:76-80 | the one article of each weight, in ascending weight order |
| Renumber.UsableComplete | scripts/renumber.py:76-80 | every weighted article is among the usable ones |
| Renumber.ApplyStride | scripts/renumber.py:116-121 | the k-th usable article gets weight 10 * (k + 1) |
| Renumber.StrideRereads | scripts/renumber.py:116-121 | every renumbered article reads back its new weight |
| Renumber.StrideKeepsOrder | scripts/renumber.py:116-121 | new weights are in the same order as the old ones |
| Renumber.Renumber | scripts/renumber.py:98-121 | SafetyStop exactly when an article lacks a weight or a weight is shared; otherwise the usable articles renumbered 10, 20, 30, … in old-weight order, each reading back its new weight |
| ImageManifest.SplitSpace | scripts/imgmake.py:26 | fields free of whitespace; inner fields non-empty; a line without whitespace is one field |
| ImageManifest.SplitJoinSpace | scripts/imgmake.py:26 | splitting single-space-joined fields gives the fields back |
| ImageManifest.ParseEntry | scripts/imgmake.py:25-31 | an error exactly when the line has a single field (a blank line too); otherwise the first field and the rest |
| ImageManifest.ParseEntryRoundTrip | scripts/imgmake.py:25-31 | a name and versions joined by spaces parse back to them |
| ImageManifest.ParseEntryNameOnly | scripts/imgmake.py:28-29 | a line without whitespace has no versions |
| ImageManifest.GroupValue | scripts/imgmake.py:40-48 | an empty digit group is None |
| ImageManifest.ParseVer | scripts/imgmake.py:34-50 | an error exactly when no `x` follows the leading digits |
| ImageManifest.SizeText | scripts/imgmake.py:35 | the text of a size has the version shape |
| ImageManifest.ParseVerRoundTrip | scripts/imgmake.py:34-50 | a size written out reads back, whatever non-digit text follows |
| ImageManifest.ParseVerNeedsX | scripts/imgmake.py:35-38 | a version without `x` is unusable |
| ImageManifest.PngName | scripts/imgmake.py:57-58 | the assert fails exactly when the name has no `.svg` suffix in any case |
| ImageManifest.SubstituteSvg | scripts/imgmake.py:57 | a name without the suffix comes back unchanged; a renamable one grows by the version plus one, keeping the stem and ending in `-ver.png` |
| ImageManifest.SubstituteChanges | scripts/imgmake.py:57-58 | the substitution changes the name exactly when the suffix is there, lengthening it by the version plus one |
| ImageManifest.PngNameShape | scripts/imgmake.py:57 | the PNG name keeps the stem and ends with `-{ver}.png`, from which the version reads back |
| ImageManifest.PngNameIgnoresCase | scripts/imgmake.py:57 | `.SVG` and other letter cases are replaced too |
| ImageManifest.CleanTarget | scripts/imgmake.py:140-141 | clean removes the PNG make writes for a drawing with the suffix, and the unchanged name otherwise |
| Strings.ReplaceAll | scripts/datalib/actor.py:61-68 | `str.replace`: every non-overlapping occurrence, scanning left to right, is replaced; replacing a pattern by itself changes nothing, and an equal-length replacement keeps the length |
| Strings.ToLower | scripts/datalib/actor.py:55 | `str.lower()` on ASCII: same length, each upper-case letter lowered and nothing else changed |
| Strings.ToUpper | scripts/datalib/defs.py:139 | `str.upper()` on ASCII: same length, each lower-case letter raised and nothing else changed |
| Strings.IsSpace | scripts/renumber.py:13 | the characters `\s` matches in ASCII: blank, tab, \n, \v, \f, \r and \x1c to \x1f |
| Strings.Strip | scripts/datalib/actor.py:38-44 | `str.strip()` as `int()` applies it: the result neither starts nor ends with whitespace, and every non-whitespace character survives into it (StripIndex) |
| Strings.ReplaceAllConcat | scripts/datalib/actor.py:61-67 | `str.replace` works piece by piece when no occurrence straddles the join |
| Strings.ReplaceOnce | scripts/datalib/actor.py:61-67 | text holding the pattern exactly once has just that occurrence replaced |
| Strings.ReplaceAllShortens | scripts/datalib/defs.py:138-139 | a replacement no longer than the pattern never lengthens the text |
| Strings.ParseInt | scripts/datalib/actor.py:38-44 | a failure is a ValueError naming the text |
| Strings.ParseIntRoundTrip | scripts/datalib/actor.py:38-44 | `int()` reads back the decimal text of a number |
| Strings.ParseIntRejects | scripts/datalib/actor.py:38-44 | a character that is neither digit, sign nor blank makes `int()` fail |
| SortedKeys.SortedBetween | scripts/datalib/map.py:81-85 | the set's members in range, strictly ascending, each once |

## Left out

- Command-line dispatch, `register_parser`/`run`, printing and JSON output
  (`json_minidumps`, `to_dict`'s empty `index`/`sort` entries).
- Real file handling: `open`, `seek`, `tell`, `os.fstat` and `readinto`
  become reads of an in-memory byte sequence. ctypes bit-field allocation is
  taken to be least significant first, as the layouts assume.
- Defs: the timing constants are exact reals. Floating-point rounding of the
  division is not modelled.
- SoundDecoder.Insert: `length_ms` is kept as an unrounded real. `round()` is
  not modelled, and neither is the UTF-8 `decode()` of the name or its error
  on invalid bytes. The name stays bytes.
- MusicDecoder.CyclesToDuration: gives minutes and seconds, not the `06.3f`
  text.
- SpriteDecoder.ParseSpriteData: requires the header scan to end and every
  non-empty span to lie within the file. On other files the Python loops
  never end.
- ActorDecoder.SplitFields: reads the thirteen lazy groups of `EXTRACTOR`
  left to right without backtracking, and this agrees with the regex on
  every line. If any split exists, the earliest-separator split has each
  separator at or before it, so it is the first one lazy backtracking
  finds. A match from a later `CreateActor(` also implies one from the
  first. What neither the regex nor the model follows is C's own argument
  list: an argument holding `, ` (a nested call, say) is cut at that
  separator, and `SplitJoin` promises a round trip only for `Splittable`
  fields. The script searches one line at a time, so the DOTALL flag never
  matters.
- Strings.ParseInt: accepts ASCII digits and the ASCII whitespace of
  `Strings.IsSpace` only. Python's `int()` also accepts underscores between
  digits, non-ASCII decimal digits and non-ASCII whitespace.
- Strings.IsSpace: holds for exactly the ASCII characters `str.isspace()`
  accepts: blank, tab, the line breaks \n, \v, \f and \r, and the
  separators \x1c to \x1f. Python's `\s`, `strip()` and `int()` also
  accept non-ASCII whitespace such as U+0085, U+00A0 and U+3000.
  - `ImageManifest.SplitSpace` inherits this.
- Strings.ToLower: maps the ASCII letters A to Z only. Python's
  `str.lower()` also lowers non-ASCII letters such as `Ä`.
  The case-insensitive `.svg` match of `ImageManifest.PngName` is limited
  to ASCII letters for the same reason.
- Strings.ToUpper: maps the ASCII letters a to z only. Python's
  `str.upper()` also raises non-ASCII letters, and some of them become
  several characters (`ß` becomes `SS`).
- Renumber.WeightMatch: reads ASCII digits only. In Python, `[\d]` matches
  every Unicode decimal digit, and `int()` reads them. The `re.I` match of
  the key folds ASCII letters only, while Python's also lets `ı` (U+0131)
  stand for `i`. Leading whitespace is that of `Strings.IsSpace`.
- Renumber.Classify: inherits the limits of `Renumber.WeightMatch`. A line
  such as `weıght = 5`, or one whose weight is written in non-ASCII digits,
  is a plain line here but a weight line in the script.
- ImageManifest.PngName: inserts the version literally. `re.sub` would
  interpret backslash escapes in the replacement text.
- The rest of `imgmake.py` is not modelled: the Inkscape, pngquant and optipng
  runs, the modification-time check, Cygwin path conversion, `pathlib` path
  joining and the manifest file loop.
- Renumber.LoadArticle: takes the article's lines as given.
  - The directory walk (`rglob`) is not modelled.
  - Skipping undecodable files is not modelled.
  - `splitlines()` separators other than the newline are not modelled.
  - `rewrite` is not modelled.
- Renumber.Renumber: returns only `SafetyStop`, not the messages naming
  incomplete or conflicting articles.
- Renumber.Usable: the `assert` of `get_usable` is its precondition. `main`
  only reaches it after ruling out conflicts.

=== FILE: actor.dfy ===
/** Actor table scanner (scripts/datalib/actor.py): the game's C source is
    read as lines; for each actor type 0..299 the first `case t:` label
    whose forward hunt reaches a `CreateActor(...)` call before a `break;`
    supplies the thirteen call arguments of that type's row. */
module ActorDecoder {
  import opened Wrappers
  import opened Strings

  const MaxActorType: nat := 300
  const ArgsCount: nat := 13

  const CallOpen: string := "CreateActor("
  const FieldSep: string := ", "
  const CallClose: string := ");"
  const BreakMark: string := "break;"
  const RandomMark: string := "gamerand"
  const RandomText: string := "random: 50-145, steps of 5"

  // ---- the call pattern ----------------------------------------------------

  /** The lazy groups of the call pattern, read left to right without
      backtracking: each of the `n` fields is the shortest non-empty text
      before the next `, `, and the last one the shortest before `);`. */
  function SplitFields(rest: string, n: nat): (r: Option<seq<string>>)
    requires n >= 1
    ensures r.Some? ==> |r.value| == n
    ensures r.Some? ==> forall i :: 0 <= i < n ==> |r.value[i]| > 0
    decreases n
  {
    var sep := if n == 1 then CallClose else FieldSep;
    match FindFrom(rest, sep, 1)
    case None => None
    case Some(j) =>
      if n == 1 then Some([rest[..j]])
      else
        match SplitFields(rest[j + 2..], n - 1)
        case None => None
        case Some(tail) => Some([rest[..j]] + tail)
  }

  /** The text a call with these arguments has between its parentheses,
      closing `);` included. */
  function JoinFields(fields: seq<string>): string
    requires |fields| >= 1
  {
    if |fields| == 1 then fields[0] + CallClose
    else fields[0] + FieldSep + JoinFields(fields[1..])
  }

  predicate Free(f: string, sep: string) {
    forall i :: 0 <= i < |f| ==> !OccursAt(f, sep, i)
  }

  /** Arguments the splitter can recover: non-empty, and none holds the
      separator that ends it. */
  predicate Splittable(fields: seq<string>) {
    forall i :: 0 <= i < |fields| ==>
      |fields[i]| > 0 && Free(fields[i], if i == |fields| - 1 then CallClose else FieldSep)
  }

  /** The search for a two-character separator with distinct characters
      stops right after a non-empty field that does not hold it. */
  lemma {:induction false} FindAfterField(f: string, sep: string, tail: string)
    requires |f| >= 1 && |sep| == 2 && sep[0] != sep[1] && Free(f, sep)
    ensures FindFrom(f + sep + tail, sep, 1) == Some(|f|)
  {
    var x := f + sep + tail;
    assert OccursAt(x, sep, |f|) by {
      assert x[|f|..|f| + 2] == sep;
    }
    forall j | 1 <= j < |f| ensures !OccursAt(x, sep, j) {
      if j + 2 <= |f| {
        assert x[j..j + 2] == f[j..j + 2];
        assert !OccursAt(f, sep, j);
      } else {
        assert x[j + 1] == sep[0];
      }
    }
  }

  /** A first field followed by `, ` is split off, and the splitter goes on
      after the separator. */
  lemma {:induction false} SplitStep(f: string, after: string, n: nat)
    requires n >= 2 && |f| >= 1 && Free(f, FieldSep)
    ensures SplitFields(f + FieldSep + after, n) ==
              match SplitFields(after, n - 1)
              case None => None
              case Some(tail) => Some([f] + tail)
  {
    var x := f + FieldSep + after;
    FindAfterField(f, FieldSep, after);
    assert x[..|f|] == f;
    assert x[|f| + 2..] == after;
  }

  /** A last field followed by `);` is split off. */
  lemma {:induction false} SplitLast(f: string, tail: string)
    requires |f| >= 1 && Free(f, CallClose)
    ensures SplitFields(f + CallClose + tail, 1) == Some([f])
  {
    var x := f + CallClose + tail;
    FindAfterField(f, CallClose, tail);
    assert x[..|f|] == f;
  }

  /** The splitter recovers the arguments of any call it can split. */
  lemma {:induction false} SplitJoin(fields: seq<string>, tail: string)
    requires |fields| >= 1 && Splittable(fields)
    ensures SplitFields(JoinFields(fields) + tail, |fields|) == Some(fields)
    decreases |fields|
  {
    var f := fields[0];
    if |fields| == 1 {
      assert JoinFields(fields) + tail == f + CallClose + tail;
      SplitLast(f, tail);
      assert fields == [f];
    } else {
      var rest := fields[1..];
      assert Splittable(rest) by {
        forall i | 0 <= i < |rest|
          ensures |rest[i]| > 0 && Free(rest[i], if i == |rest| - 1 then CallClose else FieldSep)
        {
          assert rest[i] == fields[i + 1];
        }
      }
      var after := JoinFields(rest) + tail;
      assert JoinFields(fields) + tail == f + FieldSep + after;
      assert Free(f, FieldSep);
      SplitStep(f, after, |fields|);
      SplitJoin(rest, tail);
      assert fields == [f] + rest;
    }
  }

  /** `EXTRACTOR.search(line)`: the call's arguments, read after the first
      `CreateActor(` of the line. */
  function Extract(line: string): (r: Option<seq<string>>)
    ensures r.Some? ==> |r.value| == ArgsCount && Contains(line, CallOpen)
  {
    match FindFrom(line, CallOpen, 0)
    case None => None
    case Some(p) => SplitFields(line[p + |CallOpen|..], ArgsCount)
  }

  /** A line holding a well-formed call after text without a `C` yields
      exactly that call's arguments. */
  lemma {:induction false} ExtractCall(prefix: string, fields: seq<string>, tail: string)
    requires 'C' !in prefix && |fields| == ArgsCount && Splittable(fields)
    ensures Extract(prefix + CallOpen + JoinFields(fields) + tail) == Some(fields)
  {
    var body := JoinFields(fields) + tail;
    var x := prefix + CallOpen + body;
    assert prefix + CallOpen + JoinFields(fields) + tail == x;
    assert OccursAt(x, CallOpen, |prefix|) by {
      assert x[|prefix|..|prefix| + |CallOpen|] == CallOpen;
    }
    forall j | 0 <= j < |prefix| ensures !OccursAt(x, CallOpen, j) {
      assert x[j] == prefix[j];
    }
    assert FindFrom(x, CallOpen, 0) == Some(|prefix|);
    assert x[|prefix| + |CallOpen|..] == body;
    SplitJoin(fields, tail);
  }

  // ---- the scanned file ------------------------------------------------------

  /** What the scanner needs to know about one line of the file: its text,
      whether it holds `break;`, and the call `EXTRACTOR.search` finds in
      it. Each line is classified once; the searches below read only this. */
  datatype ScannedLine = ScannedLine(text: string, hasBreak: bool, call: Option<seq<string>>)

  function ScanLine(line: string): (l: ScannedLine)
    ensures l.text == line && l.hasBreak == Contains(line, BreakMark)
    ensures l.call.Some? ==> |l.call.value| == ArgsCount
  {
    ScannedLine(line, Contains(line, BreakMark), Extract(line))
  }

  /** Every call in the scan has the thirteen arguments of the pattern. */
  predicate WellScanned(scan: seq<ScannedLine>) {
    forall i :: 0 <= i < |scan| ==> scan[i].call.Some? ==> |scan[i].call.value| == ArgsCount
  }

  /** The lines of the file, each classified. */
  function Scan(lines: seq<string>): (s: seq<ScannedLine>)
    ensures |s| == |lines| && WellScanned(s)
    ensures forall i :: 0 <= i < |s| ==> s[i].text == lines[i]
  {
    if |lines| == 0 then []
    else Scan(lines[..|lines| - 1]) + [ScanLine(lines[|lines| - 1])]
  }

  /** Line `i` of the scan is line `i` of the file, classified. */
  lemma {:induction false} ScanAt(lines: seq<string>, i: nat)
    requires i < |lines|
    ensures Scan(lines)[i] == ScanLine(lines[i])
    decreases |lines|
  {
    if i < |lines| - 1 {
      ScanAt(lines[..|lines| - 1], i);
    }
  }

  // ---- the hunt -------------------------------------------------------------

  /** A line the hunt walks past: no `break;` and no call. */
  predicate Quiet(l: ScannedLine) {
    !l.hasBreak && l.call.None?
  }

  /** What the hunt makes of the line it stops on: `break;` wins over a
      call on the same line. */
  function Outcome(l: ScannedLine): Option<seq<string>> {
    if l.hasBreak then None else l.call
  }

  /** Line `j` is the first line from `i` on that is not quiet. */
  predicate StopsAt(scan: seq<ScannedLine>, i: nat, j: nat)
    requires i <= j < |scan|
  {
    !Quiet(scan[j]) && forall k :: i <= k < j ==> Quiet(scan[k])
  }

  /** `_hunt_for_call` from line `i`. */
  function Hunt(scan: seq<ScannedLine>, i: nat): (r: Result<Option<seq<string>>>)
    requires WellScanned(scan)
    ensures r.Err? ==> r.error == IndexOutOfRange
    ensures r.Ok? && r.value.Some? ==> |r.value.value| == ArgsCount
    decreases |scan| - i
  {
    if i >= |scan| then Err(IndexOutOfRange)
    else if scan[i].hasBreak then Ok(None)
    else
      match scan[i].call
      case Some(args) => Ok(Some(args))
      case None => Hunt(scan, i + 1)
  }

  /** The hunt decides on the first line from `i` on that holds `break;`
      or a call, checking `break;` first; walking past the last line is
      Python's `IndexError`. */
  lemma {:induction false} HuntSpec(scan: seq<ScannedLine>, i: nat)
    requires WellScanned(scan)
    ensures Hunt(scan, i).Err? <==> forall k :: i <= k < |scan| ==> Quiet(scan[k])
    ensures Hunt(scan, i).Ok? ==>
              exists j :: i <= j < |scan| && StopsAt(scan, i, j) && Hunt(scan, i).value == Outcome(scan[j])
    decreases |scan| - i
  {
    if i < |scan| {
      if Quiet(scan[i]) {
        HuntSpec(scan, i + 1);
        var r := Hunt(scan, i + 1);
        assert Hunt(scan, i) == r;
        if r.Ok? {
          var j :| i + 1 <= j < |scan| && StopsAt(scan, i + 1, j) && r.value == Outcome(scan[j]);
          assert StopsAt(scan, i, j);
        } else {
          assert forall k :: i <= k < |scan| ==> Quiet(scan[k]);
        }
      } else {
        assert StopsAt(scan, i, i);
      }
    }
  }

  // ---- the label search -----------------------------------------------------

  /** The label `case t:` as the scanner writes it. */
  function Label(t: nat): string {
    "case " + NatToString(t) + ":"
  }

  /** Line `m` carries `mark` and its hunt does not come back
      empty-handed. */
  predicate Live(scan: seq<ScannedLine>, mark: string, m: nat)
    requires WellScanned(scan) && m < |scan|
  {
    Contains(scan[m].text, mark) && Hunt(scan, m) != Ok(None)
  }

  /** Line `m` is the first live line for `mark` from line `n` on. */
  predicate FirstLive(scan: seq<ScannedLine>, mark: string, n: nat, m: nat)
    requires WellScanned(scan)
  {
    n <= m < |scan| && Live(scan, mark, m) && forall k :: n <= k < m ==> !Live(scan, mark, k)
  }

  /** The inner loop of `parse_actor_data` for the label of one type, from
      line `n`. */
  function LabelSearch(scan: seq<ScannedLine>, mark: string, n: nat): (r: Result<Option<seq<string>>>)
    requires WellScanned(scan)
    ensures r.Ok? && r.value.Some? ==> |r.value.value| == ArgsCount
    decreases |scan| - n
  {
    if n >= |scan| then Ok(None)
    else if Contains(scan[n].text, mark) && Hunt(scan, n) != Ok(None) then Hunt(scan, n)
    else LabelSearch(scan, mark, n + 1)
  }

  /** The first live label line decides, by a call found or by an error;
      with no live label line the type has no row. */
  lemma {:induction false} LabelSearchSpec(scan: seq<ScannedLine>, mark: string, n: nat)
    requires WellScanned(scan)
    ensures LabelSearch(scan, mark, n) == Ok(None) <==> forall m :: n <= m < |scan| ==> !Live(scan, mark, m)
    ensures LabelSearch(scan, mark, n) != Ok(None) ==>
              exists m :: FirstLive(scan, mark, n, m) && LabelSearch(scan, mark, n) == Hunt(scan, m)
    decreases |scan| - n
  {
    if n < |scan| {
      if Live(scan, mark, n) {
        assert FirstLive(scan, mark, n, n);
      } else {
        LabelSearchSpec(scan, mark, n + 1);
        var r := LabelSearch(scan, mark, n + 1);
        assert LabelSearch(scan, mark, n) == r;
        if r != Ok(None) {
          var m :| FirstLive(scan, mark, n + 1, m) && r == Hunt(scan, m);
          assert FirstLive(scan, mark, n, m);
        } else {
          assert forall m :: n <= m < |scan| ==> !Live(scan, mark, m);
        }
      }
    }
  }

  // ---- argument normalisers ---------------------------------------------------

  /** `prettify_xypos`: lower-case; the one random position becomes a fixed
      description; otherwise `xpos`/`ypos` are deleted (absolute) or
      shortened to `x`/`y`, spaces are dropped and nothing becomes `0`. */
  function PrettifyXypos(source: string, absolute: bool): (r: string)
    ensures Contains(ToLower(source), RandomMark) ==> r == RandomText
    ensures !Contains(ToLower(source), RandomMark) ==> |r| > 0 && NoUpper(r) && ' ' !in r
  {
    var dest := ToLower(source);
    if Contains(dest, RandomMark) then RandomText
    else
      var a := if absolute then ReplaceAll(ReplaceAll(dest, "xpos", ""), "ypos", "")
               else ReplaceAll(ReplaceAll(dest, "xpos", "x"), "ypos", "y");
      var b := ReplaceAll(a, " ", "");
      assert NoUpper(b) && ' ' !in b by {
        assert NoUpper(dest);
        ReplaceAllKeepsLower(dest, "xpos", if absolute then "" else "x");
        ReplaceAllKeepsLower(ReplaceAll(dest, "xpos", if absolute then "" else "x"), "ypos", if absolute then "" else "y");
        ReplaceAllKeepsLower(a, " ", "");
        DeleteCharRemovesAll(a, ' ');
      }
      if b == "" then "0" else b
  }

  /** Text that is already clean comes back unchanged in both modes. */
  lemma {:induction false} PrettifyClean(s: string, absolute: bool)
    requires |s| > 0 && NoUpper(s) && !Contains(s, RandomMark)
    requires Free(s, "xpos") && Free(s, "ypos") && Free(s, " ")
    ensures PrettifyXypos(s, absolute) == s
  {
    assert ToLower(s) == s;
    var q1, q2 := if absolute then "" else "x", if absolute then "" else "y";
    ReplaceAllAbsent(s, "xpos", q1);
    ReplaceAllAbsent(s, "ypos", q2);
    ReplaceAllAbsent(s, " ", "");
  }

  /** Absolute mode deletes a position variable, the other mode shortens
      it, and the result is lower case without spaces. */
  lemma PrettifyModes()
    ensures PrettifyXypos("XPOS", true) == "0"
    ensures PrettifyXypos("XPOS", false) == "x"
  {
    assert ToLower("XPOS") == "xpos";
    assert ReplaceAll("xpos", "xpos", "") == "";
    assert ReplaceAll("xpos", "xpos", "x") == "x";
    assert ReplaceAll("x", " ", "") == "x";
  }

  /** Deleting `xpos` from `xxpospos` leaves the `xpos` the deletion formed. */
  lemma DeleteFormsNew()
    ensures ReplaceAll("xxpospos", "xpos", "") == "xpos"
  {
    assert ReplaceAll("pos", "xpos", "") == "pos";
    assert "xxpospos"[1..] == "xpospos";
    assert "xpospos"[4..] == "pos";
    assert ReplaceAll("xpospos", "xpos", "") == "pos";
  }

  /** `xpos` has no `ypos` and no space. */
  lemma XposStays()
    ensures ReplaceAll("xpos", "ypos", "") == "xpos"
    ensures ReplaceAll("xpos", " ", "") == "xpos"
  {
    forall i: nat ensures !OccursAt("xpos", "ypos", i) {
      if i == 0 {
        assert "xpos"[0..4][0] != "ypos"[0];
      }
    }
    forall i: nat ensures !OccursAt("xpos", " ", i) {
      if i < 4 {
        assert "xpos"[i..i + 1][0] != ' ';
      }
    }
    ReplaceAllAbsent("xpos", "ypos", "");
    ReplaceAllAbsent("xpos", " ", "");
  }

  /** The replacements make one left-to-right pass, so an occurrence formed
      by a deletion survives: `xxpospos` comes out as `xpos`. */
  lemma PrettifySinglePass()
    ensures PrettifyXypos("xxpospos", true) == "xpos"
  {
    assert ToLower("xxpospos") == "xxpospos";
    NotContainsShort("xxpospos", RandomMark);
    DeleteFormsNew();
    XposStays();
  }

  /** Text that `pat` does not occur in comes back from its replacement. */
  lemma PatternFree(s: string, pat: string, q: string)
    requires |pat| > 0 && Free(s, pat)
    ensures ReplaceAll(s, pat, q) == s
  {
    forall i: nat ensures !OccursAt(s, pat, i) {
      if i < |s| {
        assert !OccursAt(s, pat, i);
      }
    }
    ReplaceAllAbsent(s, pat, q);
  }

  /** Text without a blank comes back from deleting blanks. */
  lemma BlankFree(s: string)
    requires ' ' !in s
    ensures ReplaceAll(s, " ", "") == s
  {
    forall i: nat ensures !OccursAt(s, " ", i) {
      if i + 1 <= |s| {
        assert s[i..i + 1][0] == s[i];
      }
    }
    ReplaceAllAbsent(s, " ", "");
  }

  /** Lower-case pieces joined stay lower-case. */
  lemma {:induction false} LowerJoin(p: string, mid: string, q: string)
    requires NoUpper(p) && NoUpper(mid) && NoUpper(q)
    ensures NoUpper(p + mid + q)
  {
    var m := p + mid + q;
    forall i | 0 <= i < |m| ensures !IsUpper(m[i]) {
      if i < |p| {
        assert m[i] == p[i];
      } else if i < |p| + |mid| {
        assert m[i] == mid[i - |p|];
      } else {
        assert m[i] == q[i - |p| - |mid|];
      }
    }
  }

  /** What `PrettifyXypos` does to lower-case text without the random
      marker, spelled out step by step. */
  lemma {:induction false} PrettifySteps(s: string, absolute: bool, x': string, y': string, a1: string, a: string, b: string)
    requires NoUpper(s) && !Contains(s, RandomMark)
    requires x' == (if absolute then "" else "x") && y' == (if absolute then "" else "y")
    requires a1 == ReplaceAll(s, "xpos", x') && a == ReplaceAll(a1, "ypos", y')
    requires b == ReplaceAll(a, " ", "")
    ensures PrettifyXypos(s, absolute) == if b == "" then "0" else b
  {
    assert ToLower(s) == s;
  }

  /** One `xpos` between lower-case, blank-free text, with no `ypos`
      before or after the rewrite: absolute mode deletes it (leaving `0`
      for nothing), the other mode shortens it to `x`. */
  lemma {:induction false} PrettifyRewritesXpos(p: string, q: string, absolute: bool)
    requires NoUpper(p) && NoUpper(q) && ' ' !in p && ' ' !in q
    requires forall i: nat :: OccursAt(p + "xpos" + q, "xpos", i) ==> i == |p|
    requires Free(p + (if absolute then "" else "x") + q, "ypos")
    requires !Contains(p + "xpos" + q, RandomMark)
    ensures absolute ==> PrettifyXypos(p + "xpos" + q, absolute) == (if p + q == "" then "0" else p + q)
    ensures !absolute ==> PrettifyXypos(p + "xpos" + q, absolute) == p + "x" + q
  {
    var s := p + "xpos" + q;
    LowerJoin(p, "xpos", q);
    if absolute {
      var m := p + q;
      assert ReplaceAll(s, "xpos", "") == m by {
        ReplaceOnce(p, "xpos", q, "");
        assert p + "" + q == m;
      }
      assert ReplaceAll(m, "ypos", "") == m && ReplaceAll(m, " ", "") == m by {
        assert p + "" + q == m;
        PatternFree(m, "ypos", "");
        BlankFree(m);
      }
      assert PrettifyXypos(s, true) == if m == "" then "0" else m by {
        PrettifySteps(s, true, "", "", m, m, m);
      }
    } else {
      var m := p + "x" + q;
      assert ReplaceAll(s, "xpos", "x") == m by {
        ReplaceOnce(p, "xpos", q, "x");
      }
      assert ReplaceAll(m, "ypos", "y") == m && ReplaceAll(m, " ", "") == m by {
        PatternFree(m, "ypos", "y");
        BlankFree(m);
      }
      assert PrettifyXypos(s, false) == m by {
        PrettifySteps(s, false, "x", "y", m, m, m);
      }
    }
  }

  /** The same for one `ypos`, with no `xpos` anywhere. */
  lemma {:induction false} PrettifyRewritesYpos(p: string, q: string, absolute: bool)
    requires NoUpper(p) && NoUpper(q) && ' ' !in p && ' ' !in q
    requires forall i: nat :: OccursAt(p + "ypos" + q, "ypos", i) ==> i == |p|
    requires Free(p + "ypos" + q, "xpos")
    requires !Contains(p + "ypos" + q, RandomMark)
    ensures absolute ==> PrettifyXypos(p + "ypos" + q, absolute) == (if p + q == "" then "0" else p + q)
    ensures !absolute ==> PrettifyXypos(p + "ypos" + q, absolute) == p + "y" + q
  {
    var s := p + "ypos" + q;
    LowerJoin(p, "ypos", q);
    if absolute {
      var m := p + q;
      assert ReplaceAll(s, "xpos", "") == s by {
        PatternFree(s, "xpos", "");
      }
      assert ReplaceAll(s, "ypos", "") == m by {
        ReplaceOnce(p, "ypos", q, "");
        assert p + "" + q == m;
      }
      assert ReplaceAll(m, " ", "") == m by {
        BlankFree(m);
      }
      assert PrettifyXypos(s, true) == if m == "" then "0" else m by {
        PrettifySteps(s, true, "", "", s, m, m);
      }
    } else {
      var m := p + "y" + q;
      assert ReplaceAll(s, "xpos", "x") == s by {
        PatternFree(s, "xpos", "x");
      }
      assert ReplaceAll(s, "ypos", "y") == m by {
        ReplaceOnce(p, "ypos", q, "y");
      }
      assert ReplaceAll(m, " ", "") == m by {
        BlankFree(m);
      }
      assert PrettifyXypos(s, false) == m by {
        PrettifySteps(s, false, "x", "y", s, m, m);
      }
    }
  }

  /** A single blank between lower-case text without position variables is
      dropped in both modes. */
  lemma {:induction false} PrettifyDropsBlank(p: string, q: string, absolute: bool)
    requires NoUpper(p) && NoUpper(q) && ' ' !in p && ' ' !in q
    requires Free(p + " " + q, "xpos") && Free(p + " " + q, "ypos")
    requires !Contains(p + " " + q, RandomMark)
    ensures PrettifyXypos(p + " " + q, absolute) == (if p + q == "" then "0" else p + q)
  {
    var s := p + " " + q;
    LowerJoin(p, " ", q);
    assert ReplaceAll(s, " ", "") == p + q by {
      forall i: nat | OccursAt(s, " ", i) ensures i == |p| {
        assert s[i..i + 1][0] == s[i];
      }
      ReplaceOnce(p, " ", q, "");
      assert p + "" + q == p + q;
    }
    if absolute {
      assert ReplaceAll(s, "xpos", "") == s && ReplaceAll(s, "ypos", "") == s by {
        PatternFree(s, "xpos", "");
        PatternFree(s, "ypos", "");
      }
      assert PrettifyXypos(s, true) == if p + q == "" then "0" else p + q by {
        PrettifySteps(s, true, "", "", s, s, p + q);
      }
    } else {
      assert ReplaceAll(s, "xpos", "x") == s && ReplaceAll(s, "ypos", "y") == s by {
        PatternFree(s, "xpos", "x");
        PatternFree(s, "ypos", "y");
      }
      assert PrettifyXypos(s, false) == if p + q == "" then "0" else p + q by {
        PrettifySteps(s, false, "x", "y", s, s, p + q);
      }
    }
  }

  /** A data argument: the actor's own type for the word `type`, otherwise
      the prettified text. */
  datatype DataValue = TypeValue(actorType: nat) | Text(text: string)

  /** `prettify_data`. */
  function PrettifyData(source: string, actorType: nat): (r: DataValue)
    ensures r.TypeValue? <==> ToLower(source) == "type"
    ensures r.TypeValue? ==> r.actorType == actorType
    ensures r.Text? ==> r.text == PrettifyXypos(source, false) && |r.text| > 0
  {
    if ToLower(source) == "type" then TypeValue(actorType)
    else Text(PrettifyXypos(source, false))
  }

  // ---- rows -------------------------------------------------------------------

  /** One row of the actor table; `data` holds data1..data5 in order. */
  datatype ActorRow = ActorRow(
    actorType: nat,
    spriteType: int,
    xshiftTiles: int,
    yshiftTiles: int,
    alwaysActiveFlag: int,
    remainsActiveFlag: int,
    hasGravityFlag: int,
    ledgeEagerFlag: int,
    tickFunction: string,
    data: seq<DataValue>)

  /** Every `int()` conversion of `ActorDB.insert` succeeds: the sprite
      type, the two shifts after absolute prettifying, and the four flags. */
  predicate Numeric(args: seq<string>)
    requires |args| == ArgsCount
  {
    && ParseInt(args[0]).Ok?
    && ParseInt(PrettifyXypos(args[1], true)).Ok?
    && ParseInt(PrettifyXypos(args[2], true)).Ok?
    && ParseInt(args[3]).Ok?
    && ParseInt(args[4]).Ok?
    && ParseInt(args[5]).Ok?
    && ParseInt(args[6]).Ok?
  }

  /** The row `ActorDB.insert` builds for `actorType` from the call's
      arguments: the numbers converted by `int()`, the shifts after
      absolute prettifying, the tick function verbatim and data1..data5
      prettified. */
  predicate Converted(row: ActorRow, actorType: nat, args: seq<string>)
    requires |args| == ArgsCount
  {
    && row.actorType == actorType
    && ParseInt(args[0]) == Ok(row.spriteType)
    && ParseInt(PrettifyXypos(args[1], true)) == Ok(row.xshiftTiles)
    && ParseInt(PrettifyXypos(args[2], true)) == Ok(row.yshiftTiles)
    && ParseInt(args[3]) == Ok(row.alwaysActiveFlag)
    && ParseInt(args[4]) == Ok(row.remainsActiveFlag)
    && ParseInt(args[5]) == Ok(row.hasGravityFlag)
    && ParseInt(args[6]) == Ok(row.ledgeEagerFlag)
    && row.tickFunction == args[7]
    && row.data == DataArgs(args, actorType)
  }

  /** data1..data5: the last five arguments, each through `prettify_data`. */
  function DataArgs(args: seq<string>, actorType: nat): (d: seq<DataValue>)
    requires |args| == ArgsCount
    ensures |d| == 5 && forall i :: 0 <= i < 5 ==> d[i] == PrettifyData(args[8 + i], actorType)
  {
    [PrettifyData(args[8], actorType), PrettifyData(args[9], actorType), PrettifyData(args[10], actorType),
     PrettifyData(args[11], actorType), PrettifyData(args[12], actorType)]
  }

  /** The exception of the first conversion that fails, in the order
      Python evaluates the row's fields. */
  function FirstError(args: seq<string>): (e: Error)
    requires |args| == ArgsCount && !Numeric(args)
    ensures e.ValueError?
  {
    if ParseInt(args[0]).Err? then ParseInt(args[0]).error
    else if ParseInt(PrettifyXypos(args[1], true)).Err? then ParseInt(PrettifyXypos(args[1], true)).error
    else if ParseInt(PrettifyXypos(args[2], true)).Err? then ParseInt(PrettifyXypos(args[2], true)).error
    else if ParseInt(args[3]).Err? then ParseInt(args[3]).error
    else if ParseInt(args[4]).Err? then ParseInt(args[4]).error
    else if ParseInt(args[5]).Err? then ParseInt(args[5]).error
    else ParseInt(args[6]).error
  }

  /** `ActorDB.insert`: the row for `actorType`, or the `ValueError` of the
      first conversion that fails. */
  function BuildRow(actorType: nat, args: seq<string>): (r: Result<ActorRow>)
    requires |args| == ArgsCount
    ensures r.Ok? <==> Numeric(args)
    ensures r.Ok? ==> Converted(r.value, actorType, args)
    ensures r.Err? ==> r.error.ValueError?
  {
    if !Numeric(args) then Err(FirstError(args))
    else
      Ok(ActorRow(actorType,
                  ParseInt(args[0]).value,
                  ParseInt(PrettifyXypos(args[1], true)).value,
                  ParseInt(PrettifyXypos(args[2], true)).value,
                  ParseInt(args[3]).value, ParseInt(args[4]).value,
                  ParseInt(args[5]).value, ParseInt(args[6]).value,
                  args[7], DataArgs(args, actorType)))
  }

  /** A random x shift cannot be converted to a number, so no row can be
      built from such a call. */
  lemma {:induction false} RandomShiftFails(args: seq<string>)
    requires |args| == ArgsCount && Contains(ToLower(args[1]), RandomMark)
    ensures !Numeric(args)
  {
    ParseIntRejects(RandomText, 0);
  }

  // ---- the table ----------------------------------------------------------------

  /** The search for `t` over the whole file either fails or, when it finds
      a call, the call converts. */
  predicate Succeeds(scan: seq<ScannedLine>, t: nat)
    requires WellScanned(scan)
  {
    var f := LabelSearch(scan, Label(t), 0);
    f.Ok? && (f.value.Some? ==> Numeric(f.value.value))
  }

  /** `row` is the row the file's own label search gives its type. */
  predicate RowOf(scan: seq<ScannedLine>, row: ActorRow)
    requires WellScanned(scan)
  {
    var f := LabelSearch(scan, Label(row.actorType), 0);
    && f.Ok? && f.value.Some?
    && Converted(row, row.actorType, f.value.value)
  }

  /** Type `t` has a call in the file. */
  predicate Found(scan: seq<ScannedLine>, t: nat)
    requires WellScanned(scan)
  {
    var f := LabelSearch(scan, Label(t), 0);
    f.Ok? && f.value.Some?
  }

  /** Every type's search succeeds: the condition for the scan to finish. */
  predicate AllSucceed(scan: seq<ScannedLine>)
    requires WellScanned(scan)
  {
    forall t :: 0 <= t < MaxActorType ==> Succeeds(scan, t)
  }

  /** One pass of the type loop: the row for `t`, no row, or the error
      that ends the scan. */
  function TypeStep(scan: seq<ScannedLine>, t: nat): (r: Result<Option<ActorRow>>)
    requires WellScanned(scan)
    ensures r.Ok? <==> Succeeds(scan, t)
    ensures r.Ok? ==> (r.value.Some? <==> Found(scan, t))
    ensures r.Ok? && r.value.Some? ==> RowOf(scan, r.value.value) && r.value.value.actorType == t
  {
    var found := LabelSearch(scan, Label(t), 0);
    if found.Err? then Err(found.error)
    else if found.value.None? then Ok(None)
    else
      match BuildRow(t, found.value.value)
      case Err(e) => Err(e)
      case Ok(row) => Ok(Some(row))
  }

  /** The loop over types 0..n-1 for any per-type step whose rows carry
      their own type: the first error ends it, otherwise the rows found are
      kept in type order. */
  method TypeLoop(step: nat -> Result<Option<ActorRow>>, n: nat) returns (r: Result<seq<ActorRow>>)
    requires forall t :: 0 <= t < n && step(t).Ok? && step(t).value.Some? ==> step(t).value.value.actorType == t
    ensures r.Ok? <==> forall t :: 0 <= t < n ==> step(t).Ok?
    ensures r.Err? ==> exists t :: 0 <= t < n && step(t) == Err(r.error)
    ensures r.Ok? ==> forall i :: 0 <= i < |r.value| ==>
              r.value[i].actorType < n && step(r.value[i].actorType) == Ok(Some(r.value[i]))
    ensures r.Ok? ==> forall i, j :: 0 <= i < j < |r.value| ==> r.value[i].actorType < r.value[j].actorType
    ensures r.Ok? ==> forall t :: 0 <= t < n && step(t).value.Some? ==>
              exists i :: 0 <= i < |r.value| && r.value[i].actorType == t
  {
    var table: seq<ActorRow> := [];
    var t := 0;
    while t < n
      invariant t <= n
      invariant forall u :: 0 <= u < t ==> step(u).Ok?
      invariant forall i :: 0 <= i < |table| ==>
                  table[i].actorType < t && step(table[i].actorType) == Ok(Some(table[i]))
      invariant forall i, j :: 0 <= i < j < |table| ==> table[i].actorType < table[j].actorType
      invariant forall u :: 0 <= u < t && step(u).value.Some? ==>
                  exists i :: 0 <= i < |table| && table[i].actorType == u
    {
      var s := step(t);
      if s.Err? {
        return Err(s.error);
      }
      if s.value.Some? {
        var before := table;
        table := table + [s.value.value];
        forall u | 0 <= u <= t && step(u).value.Some?
          ensures exists i :: 0 <= i < |table| && table[i].actorType == u
        {
          if u == t {
            assert table[|before|].actorType == u;
          } else {
            var i :| 0 <= i < |before| && before[i].actorType == u;
            assert table[i] == before[i];
          }
        }
      }
      t := t + 1;
    }
    return Ok(table);
  }

  /** The type loop of `parse_actor_data` over the classified lines. */
  method ParseScan(scan: seq<ScannedLine>) returns (r: Result<seq<ActorRow>>)
    requires WellScanned(scan)
    ensures r.Ok? <==> AllSucceed(scan)
    ensures r.Ok? ==> forall i :: 0 <= i < |r.value| ==> RowOf(scan, r.value[i]) && r.value[i].actorType < MaxActorType
    ensures r.Ok? ==> forall i, j :: 0 <= i < j < |r.value| ==> r.value[i].actorType < r.value[j].actorType
    ensures r.Ok? ==> forall t :: 0 <= t < MaxActorType && Found(scan, t) ==>
              exists i :: 0 <= i < |r.value| && r.value[i].actorType == t
  {
    var step := (t: nat) => TypeStep(scan, t);
    r := TypeLoop(step, MaxActorType);
    if r.Ok? {
      forall t | 0 <= t < MaxActorType ensures Succeeds(scan, t) {
        assert step(t).Ok?;
      }
      forall i | 0 <= i < |r.value| ensures RowOf(scan, r.value[i]) && r.value[i].actorType < MaxActorType {
        assert step(r.value[i].actorType) == Ok(Some(r.value[i]));
      }
      forall t | 0 <= t < MaxActorType && Found(scan, t)
        ensures exists i :: 0 <= i < |r.value| && r.value[i].actorType == t
      {
        assert step(t).value.Some?;
      }
    } else {
      var t :| 0 <= t < MaxActorType && step(t) == Err(r.error);
      assert !Succeeds(scan, t);
    }
  }

  /** `parse_actor_data` over the lines of the C file: every type's label
      search must succeed, and the table has one row per type with a call,
      in type order. */
  method ParseActorData(lines: seq<string>) returns (r: Result<seq<ActorRow>>)
    ensures r.Ok? <==> AllSucceed(Scan(lines))
    ensures r.Ok? ==> forall i :: 0 <= i < |r.value| ==> RowOf(Scan(lines), r.value[i]) && r.value[i].actorType < MaxActorType
    ensures r.Ok? ==> forall i, j :: 0 <= i < j < |r.value| ==> r.value[i].actorType < r.value[j].actorType
    ensures r.Ok? ==> forall t :: 0 <= t < MaxActorType && Found(Scan(lines), t) ==>
              exists i :: 0 <= i < |r.value| && r.value[i].actorType == t
  {
    var scan := Scan(lines);
    r := ParseScan(scan);
  }
}

=== FILE: bytes.dfy ===
/** Byte sequences and the little-endian reads the decoders perform on them. */
module Bytes {

  newtype byte = x: int | 0 <= x < 0x100

  /** Values of a `c_uint16` field. */
  type u16 = x: int | 0 <= x < 0x1_0000

  /** Value of `s` read as an unsigned little-endian integer. */
  function LeValue(s: seq<byte>): (r: nat)
    ensures r < Pow256(|s|)
  {
    if |s| == 0 then 0 else s[0] as nat + 0x100 * LeValue(s[1..])
  }

  function Pow256(n: nat): (r: nat)
    ensures r >= 1
  {
    if n == 0 then 1 else 0x100 * Pow256(n - 1)
  }

  /** Unsigned 16-bit little-endian value at `i`. */
  function U16(r: seq<byte>, i: nat): (v: u16)
    requires i + 2 <= |r|
  {
    r[i] as nat + 0x100 * r[i + 1] as nat
  }

  /** Unsigned 32-bit little-endian value at `i`. */
  function U32(r: seq<byte>, i: nat): (v: nat)
    requires i + 4 <= |r|
    ensures v < 0x1_0000_0000
  {
    U16(r, i) + 0x1_0000 * U16(r, i + 2)
  }

  /** The cursor after reading `n` bytes at `pos`: a read stops at the end
      of the file, and a read past the end moves nothing. */
  function Advance(s: seq<byte>, pos: nat, n: nat): (p: nat)
    ensures pos <= p <= pos + n
    ensures pos + n <= |s| ==> p == pos + n
    ensures pos <= |s| ==> p <= |s|
  {
    if pos >= |s| then pos else if pos + n <= |s| then pos + n else |s|
  }

  /** The bytes a fresh, zero-initialised record of `n` bytes holds after
      reading it from position `pos`: whatever lies past the end of the file
      stays zero. */
  function ReadPadded(s: seq<byte>, pos: nat, n: nat): (r: seq<byte>)
    ensures |r| == n
    ensures pos + n <= |s| ==> r == s[pos..pos + n]
    ensures pos >= |s| ==> forall i :: 0 <= i < n ==> r[i] == 0
  {
    seq(n, i requires 0 <= i < n => if pos + i < |s| then s[pos + i] else 0)
  }

  /** The bytes of a fixed-size character field up to its first NUL. */
  function CString(s: seq<byte>): (r: seq<byte>)
    ensures |r| <= |s| && r == s[..|r|]
    ensures 0 !in r
    ensures |r| < |s| ==> s[|r|] == 0
  {
    if |s| == 0 || s[0] == 0 then [] else [s[0]] + CString(s[1..])
  }

  /** The cursor after `k` reads of `size`-byte records from `start`. */
  function RecordCursor(s: seq<byte>, start: nat, size: nat, k: nat): (p: nat)
    ensures start <= |s| ==> p <= |s|
  {
    if start + size * k <= |s| then start + size * k else if start <= |s| then |s| else start
  }

  /** Reading record `k` at the cursor reads the bytes at `start + size * k`
      (zeros once past the end), and moves the cursor to record `k + 1`. */
  lemma RecordStep(s: seq<byte>, start: nat, size: nat, k: nat)
    requires start <= |s|
    ensures Advance(s, RecordCursor(s, start, size, k), size) == RecordCursor(s, start, size, k + 1)
    ensures ReadPadded(s, RecordCursor(s, start, size, k), size) == ReadPadded(s, start + size * k, size)
  {
    var p := RecordCursor(s, start, size, k);
    assert start + size * (k + 1) == start + size * k + size;
    if p != start + size * k {
      assert p == |s|;
    }
  }
}

=== FILE: defs.dfy ===
/** Shared record layouts, derived fields, timing constants and file
    manifests of the resource decoders (scripts/datalib/defs.py). */
module Defs {
  import opened Wrappers
  import opened Bytes
  import opened Strings

  // ---- manifests -----------------------------------------------------------

  const MapFiles: seq<string> := [
    "A1.MNI", "A2.MNI", "A3.MNI", "A4.MNI", "A5.MNI", "A6.MNI", "A7.MNI",
    "A8.MNI", "A9.MNI", "A10.MNI", "A11.MNI", "BONUS1.MNI", "BONUS2.MNI",
    "B1.MNI", "B2.MNI", "B3.MNI", "B4.MNI", "B5.MNI", "B6.MNI", "B7.MNI",
    "B8.MNI", "B9.MNI", "B10.MNI", "BONUS3.MNI", "BONUS4.MNI",
    "C1.MNI", "C2.MNI", "C3.MNI", "C4.MNI", "C5.MNI", "C6.MNI", "C7.MNI",
    "C8.MNI", "C9.MNI", "C10.MNI", "BONUS5.MNI", "BONUS6.MNI"]

  const MusicFiles: seq<string> := [
    "MCAVES.MNI", "MSCARRY.MNI", "MBOSS.MNI", "MRUNAWAY.MNI", "MCIRCUS.MNI",
    "MTEKWRD.MNI", "MEASYLEV.MNI", "MROCKIT.MNI", "MHAPPY.MNI", "MDEVO.MNI",
    "MDADODA.MNI", "MBELLS.MNI", "MDRUMS.MNI", "MBANJO.MNI", "MEASY2.MNI",
    "MTECK2.MNI", "MTECK3.MNI", "MTECK4.MNI", "MZZTOP.MNI"]

  const SoundFiles: seq<string> := ["SOUNDS.MNI", "SOUNDS2.MNI", "SOUNDS3.MNI"]

  /** `names[k]` is the first manifest name with no file: opening it raises
      the FileNotFound that ends a manifest loop. */
  predicate FirstMissing(files: map<string, seq<byte>>, names: seq<string>, k: nat) {
    k < |names| && names[k] !in files && forall i :: 0 <= i < k ==> names[i] in files
  }

  // ---- timing --------------------------------------------------------------

  /** The game's timer runs slightly faster than the nominal PIT rate. */
  const ErrorRateHz: real := 1193181.818181 / 1192030.0
  const MusicRateHz: real := 560.0 * ErrorRateHz
  const SoundRateHz: real := 140.0 * ErrorRateHz

  // ---- map header ----------------------------------------------------------

  const MapHeaderSize: nat := 6

  /** Map header: five bit-fields packed into the first 16-bit word, least
      significant field first, then two more 16-bit words. */
  datatype MapHeader = MapHeader(
    backdropId: u16,          // bits 0-4
    rainFlag: u16,            // bit 5
    hscrollFlag: u16,         // bit 6
    vscrollFlag: u16,         // bit 7
    paletteAnimationId: u16,  // bits 8-10
    musicId: u16,             // bits 11-15
    widthTiles: u16,
    actorSizeWords: u16)

  /** Every bit-field within its width and both words within 16 bits. */
  predicate FieldsInRange(h: MapHeader) {
    && h.backdropId < 32 && h.rainFlag < 2 && h.hscrollFlag < 2 && h.vscrollFlag < 2
    && h.paletteAnimationId < 8 && h.musicId < 32
  }

  /** The first header word assembled from the bit-fields. */
  function PackedWord(h: MapHeader): nat {
    h.backdropId + 32 * h.rainFlag + 64 * h.hscrollFlag + 128 * h.vscrollFlag
    + 256 * h.paletteAnimationId + 2048 * h.musicId
  }

  /** Splits header word `w` into its bit-fields (shift then mask). */
  function UnpackWord(w: u16, width: u16, actorSize: u16): (h: MapHeader)
    ensures FieldsInRange(h)
    ensures PackedWord(h) == w
    ensures h.widthTiles == width && h.actorSizeWords == actorSize
  {
    var q5 := w / 32;     // w >> 5
    var q6 := q5 / 2;     // w >> 6
    var q7 := q6 / 2;     // w >> 7
    var q8 := q7 / 2;     // w >> 8
    var q11 := q8 / 8;    // w >> 11
    MapHeader(w % 32, q5 % 2, q6 % 2, q7 % 2, q8 % 8, q11, width, actorSize)
  }

  /** Unpacking a packed word gives back the fields it was built from. */
  lemma UnpackPacked(h: MapHeader)
    requires FieldsInRange(h)
    ensures PackedWord(h) < 0x1_0000
    ensures UnpackWord(PackedWord(h), h.widthTiles, h.actorSizeWords) == h
  {
    var w := PackedWord(h);
    var q5 := h.rainFlag + 2 * h.hscrollFlag + 4 * h.vscrollFlag + 8 * h.paletteAnimationId + 64 * h.musicId;
    var q6 := h.hscrollFlag + 2 * h.vscrollFlag + 4 * h.paletteAnimationId + 32 * h.musicId;
    var q7 := h.vscrollFlag + 2 * h.paletteAnimationId + 16 * h.musicId;
    var q8 := h.paletteAnimationId + 8 * h.musicId;
    assert w == h.backdropId + 32 * q5;
    assert w / 32 == q5 && w % 32 == h.backdropId;
    assert q5 / 2 == q6 && q5 % 2 == h.rainFlag;
    assert q6 / 2 == q7 && q6 % 2 == h.hscrollFlag;
    assert q7 / 2 == q8 && q7 % 2 == h.vscrollFlag;
    assert q8 / 8 == h.musicId && q8 % 8 == h.paletteAnimationId;
  }

  function DecodeMapHeader(r: seq<byte>): (h: MapHeader)
    requires |r| == MapHeaderSize
    ensures FieldsInRange(h)
    ensures PackedWord(h) == U16(r, 0)
    ensures h.widthTiles == U16(r, 2) && h.actorSizeWords == U16(r, 4)
  {
    UnpackWord(U16(r, 0), U16(r, 2), U16(r, 4))
  }

  /** `height_tiles`: the fixed map area 0x8000 divided by the width; a zero
      width raises ZeroDivisionError. */
  function HeightTiles(h: MapHeader): (r: Result<nat>)
    ensures r.Err? <==> h.widthTiles == 0
    ensures r.Ok? ==> r.value * h.widthTiles <= 0x8000 < (r.value + 1) * h.widthTiles
  {
    if h.widthTiles == 0 then Err(ZeroDivision) else Ok(0x8000 / h.widthTiles)
  }

  /** `num_actors`: actor records are three 16-bit words each. */
  function NumActors(h: MapHeader): (n: nat)
    ensures 3 * n <= h.actorSizeWords < 3 * n + 3
  {
    h.actorSizeWords / 3
  }

  // ---- actor placement -----------------------------------------------------

  const ActorRecordSize: nat := 6

  datatype ActorRecord = ActorRecord(actorType: u16, xTiles: u16, yTiles: u16)

  function DecodeActor(r: seq<byte>): (a: ActorRecord)
    requires |r| == ActorRecordSize
    ensures a.actorType == U16(r, 0) && a.xTiles == U16(r, 2) && a.yTiles == U16(r, 4)
  {
    ActorRecord(U16(r, 0), U16(r, 2), U16(r, 4))
  }

  predicate IsPlayer(a: ActorRecord) { a.actorType == 0 }
  predicate IsPlatform(a: ActorRecord) { a.actorType == 1 }
  predicate IsFountain(a: ActorRecord) { 2 <= a.actorType <= 5 }
  predicate IsLight(a: ActorRecord) { 6 <= a.actorType <= 8 }

  /** The four special categories are pairwise disjoint. */
  lemma CategoriesDisjoint(a: ActorRecord)
    ensures !(IsPlayer(a) && IsPlatform(a)) && !(IsPlayer(a) && IsFountain(a))
    ensures !(IsPlayer(a) && IsLight(a)) && !(IsPlatform(a) && IsFountain(a))
    ensures !(IsPlatform(a) && IsLight(a)) && !(IsFountain(a) && IsLight(a))
  {
  }

  const RealActorBias: nat := 31

  /** `real_type`: types from 31 up are placeable actors numbered from 0;
      anything lower raises ValueError (None here). */
  function RealType(a: ActorRecord): (r: Option<u16>)
    ensures r.Some? <==> a.actorType >= RealActorBias
    ensures r.Some? ==> r.value + RealActorBias == a.actorType
  {
    if a.actorType < RealActorBias then None else Some(a.actorType - RealActorBias)
  }

  // ---- sprite info ---------------------------------------------------------

  const InfoHeaderSize: nat := 2
  const InfoEntrySize: nat := 8

  /** `offset_bytes` of an info header entry: the stored offset counts 16-bit words. */
  function InfoOffsetBytes(r: seq<byte>): (o: nat)
    requires |r| == InfoHeaderSize
    ensures o % 2 == 0 && o / 2 == U16(r, 0)
    ensures o < 0x2_0000
  {
    2 * U16(r, 0)
  }

  datatype InfoEntry = InfoEntry(heightTiles: nat, widthTiles: nat, frameOffsetBytes: nat)

  /** Info entry: height, then width, then a 32-bit segmented offset. */
  function DecodeInfoEntry(r: seq<byte>): (e: InfoEntry)
    requires |r| == InfoEntrySize
    ensures e.heightTiles == U16(r, 0) && e.widthTiles == U16(r, 2)
    ensures e.frameOffsetBytes == U32(r, 4)
  {
    InfoEntry(U16(r, 0), U16(r, 2), U32(r, 4))
  }

  /** `frame_offset_bytes_fixed`: the high 16 bits hold a segment number,
      and the on-disk offset is the stored value minus that number. */
  function FixedOffset(x: nat): (r: nat)
    ensures r <= x
    ensures r == x <==> x < 0x1_0000
    ensures x < 0x1_0000_0000 ==> x - 0xFFFF <= r
  {
    x - x / 0x1_0000
  }

  /** The correction never reorders offsets. */
  lemma FixedOffsetMonotone(x: nat, y: nat)
    requires x <= y
    ensures FixedOffset(x) <= FixedOffset(y)
  {
    assert x / 0x1_0000 <= y / 0x1_0000;
    assert (y - x) >= y / 0x1_0000 - x / 0x1_0000 by {
      var qx, qy := x / 0x1_0000, y / 0x1_0000;
      assert x >= 0x1_0000 * qx && y < 0x1_0000 * qy + 0x1_0000;
    }
  }

  /** The last byte of segment 0 and the first byte of segment 1 land on the
      same on-disk offset: segments are 0xFFFF bytes long. */
  lemma SegmentBoundaryCoincides()
    ensures FixedOffset(0xFFFF) == FixedOffset(0x1_0000) == 0xFFFF
  {
  }

  // ---- sound ---------------------------------------------------------------

  const SoundHeaderSize: nat := 16
  const SoundEntrySize: nat := 16
  const SoundNameSize: nat := 12

  datatype SoundHeader = SoundHeader(
    magic: seq<byte>, sizeBytes: nat, numSounds: nat, data1: nat, data2: seq<byte>)

  /** Sound file header: 4-byte magic, then size, count and one more word,
      then 6 bytes of characters. */
  function DecodeSoundHeader(r: seq<byte>): (h: SoundHeader)
    requires |r| == SoundHeaderSize
    ensures h.magic == CString(r[0..4])
    ensures h.sizeBytes == U16(r, 4) && h.numSounds == U16(r, 6) && h.data1 == U16(r, 8)
    ensures h.data2 == CString(r[10..16])
  {
    SoundHeader(CString(r[0..4]), U16(r, 4), U16(r, 6), U16(r, 8), CString(r[10..16]))
  }

  datatype SoundEntry = SoundEntry(offsetBytes: nat, priority: nat, rate: nat, name: seq<byte>)

  /** Sound entry: 16-bit offset, 8-bit priority and rate, 12-byte name. */
  function DecodeSoundEntry(r: seq<byte>): (e: SoundEntry)
    requires |r| == SoundEntrySize
    ensures e.offsetBytes == U16(r, 0) && e.priority == r[2] as nat && e.rate == r[3] as nat
    ensures e.name == CString(r[4..16])
  {
    SoundEntry(U16(r, 0), r[2] as nat, r[3] as nat, CString(r[4..16]))
  }

  // ---- encoders: the inverse direction, for the round-trip lemmas ---------

  function EncodeU16(v: nat): (r: seq<byte>)
    requires v < 0x1_0000
    ensures |r| == 2 && U16(r, 0) == v
  {
    [(v % 0x100) as byte, (v / 0x100) as byte]
  }

  function EncodeU32(v: nat): (r: seq<byte>)
    requires v < 0x1_0000_0000
    ensures |r| == 4 && U32(r, 0) == v
  {
    EncodeU16(v % 0x1_0000) + EncodeU16(v / 0x1_0000)
  }

  lemma U16Encodes(r: seq<byte>, i: nat)
    requires i + 2 <= |r|
    ensures EncodeU16(U16(r, i)) == r[i..i + 2]
  {
  }

  function EncodeMapHeader(h: MapHeader): (r: seq<byte>)
    requires FieldsInRange(h)
    ensures |r| == MapHeaderSize
  {
    UnpackPacked(h);
    EncodeU16(PackedWord(h)) + EncodeU16(h.widthTiles) + EncodeU16(h.actorSizeWords)
  }

  /** Decoding an encoded header gives back every field. */
  lemma MapHeaderRoundTrip(h: MapHeader)
    requires FieldsInRange(h)
    ensures DecodeMapHeader(EncodeMapHeader(h)) == h
  {
    var r := EncodeMapHeader(h);
    UnpackPacked(h);
    assert r[0..2] == EncodeU16(PackedWord(h));
    assert r[2..4] == EncodeU16(h.widthTiles);
    assert r[4..6] == EncodeU16(h.actorSizeWords);
    assert U16(r, 0) == U16(r[0..2], 0);
    assert U16(r, 2) == U16(r[2..4], 0);
    assert U16(r, 4) == U16(r[4..6], 0);
  }

  /** Encoding a decoded header gives back the six bytes. */
  lemma MapHeaderBytesRoundTrip(r: seq<byte>)
    requires |r| == MapHeaderSize
    ensures EncodeMapHeader(DecodeMapHeader(r)) == r
  {
    var h := DecodeMapHeader(r);
    U16Encodes(r, 0);
    U16Encodes(r, 2);
    U16Encodes(r, 4);
    assert r == r[0..2] + r[2..4] + r[4..6];
  }

  function EncodeInfoEntry(e: InfoEntry): (r: seq<byte>)
    requires e.heightTiles < 0x1_0000 && e.widthTiles < 0x1_0000
    requires e.frameOffsetBytes < 0x1_0000_0000
    ensures |r| == InfoEntrySize
  {
    EncodeU16(e.heightTiles) + EncodeU16(e.widthTiles) + EncodeU32(e.frameOffsetBytes)
  }

  /** Info entry round trip: the eight bytes hold exactly these three fields. */
  lemma InfoEntryRoundTrip(e: InfoEntry)
    requires e.heightTiles < 0x1_0000 && e.widthTiles < 0x1_0000
    requires e.frameOffsetBytes < 0x1_0000_0000
    ensures DecodeInfoEntry(EncodeInfoEntry(e)) == e
  {
    var r := EncodeInfoEntry(e);
    var off := EncodeU32(e.frameOffsetBytes);
    assert r[4..8] == off;
    assert U16(r, 0) == U16(r[0..2], 0);
    assert U16(r, 2) == U16(r[2..4], 0);
    assert U32(r, 4) == U32(off, 0);
  }

  function EncodeSoundEntry(e: SoundEntry): (r: seq<byte>)
    requires e.offsetBytes < 0x1_0000 && e.priority < 0x100 && e.rate < 0x100
    requires |e.name| <= SoundNameSize
    ensures |r| == SoundEntrySize
  {
    EncodeU16(e.offsetBytes) + [e.priority as byte, e.rate as byte]
    + e.name + seq(SoundNameSize - |e.name|, _ => 0)
  }

  /** Sound entry round trip for names without NUL characters: the name is
      NUL-padded on disk and cut at the first NUL when read. */
  lemma {:induction false} SoundEntryRoundTrip(e: SoundEntry)
    requires e.offsetBytes < 0x1_0000 && e.priority < 0x100 && e.rate < 0x100
    requires |e.name| <= SoundNameSize && 0 !in e.name
    ensures DecodeSoundEntry(EncodeSoundEntry(e)) == e
  {
    var r := EncodeSoundEntry(e);
    var field := r[4..16];
    assert field == e.name + seq(SoundNameSize - |e.name|, _ => 0);
    CStringOfPadded(e.name, SoundNameSize - |e.name|);
    assert U16(r, 0) == U16(r[0..2], 0);
  }

  lemma {:induction false} CStringOfPadded(name: seq<byte>, pad: nat)
    requires 0 !in name
    ensures CString(name + seq(pad, _ => 0)) == name
    decreases |name|
  {
    var s := name + seq(pad, _ => 0);
    if |name| == 0 {
      assert s == seq(pad, _ => 0);
    } else {
      assert s[0] == name[0] && s[1..] == name[1..] + seq(pad, _ => 0);
      CStringOfPadded(name[1..], pad);
      assert name == [name[0]] + name[1..];
    }
  }

  // ---- group-entry names and file iteration ---------------------------------

  /** `normalize_groupent_name`: upper-case, then drop every ".MNI". */
  function NormalizeGroupentName(name: string): (r: string)
    ensures |r| <= |name|
    ensures forall i :: 0 <= i < |r| ==> !IsLower(r[i])
  {
    var u := ToUpper(name);
    ReplaceAllShortens(u, ".MNI", "");
    var r := ReplaceAll(u, ".MNI", "");
    assert forall i :: 0 <= i < |r| ==> !IsLower(r[i]) by {
      forall i | 0 <= i < |r| ensures !IsLower(r[i]) {
        ReplaceAllChars(u, ".MNI", "", r[i]);
      }
    }
    r
  }

  /** A dot-free, upper-case stem with ".MNI" appended normalises back to
      the stem. */
  lemma {:induction false} NormalizeStem(stem: string)
    requires '.' !in stem
    requires forall i :: 0 <= i < |stem| ==> !IsLower(stem[i])
    ensures NormalizeGroupentName(stem + ".MNI") == stem
  {
    var s := stem + ".MNI";
    assert ToUpper(s) == s;
    ReplaceSuffix(stem, ".MNI", "");
  }

  /** Replacing a pattern that occurs only as the suffix. */
  lemma {:induction false} ReplaceSuffix(a: string, p: string, q: string)
    requires |p| > 0 && p[0] !in a
    ensures ReplaceAll(a + p, p, q) == a + q
    decreases |a|
  {
    var s := a + p;
    if |a| == 0 {
      assert s == p;
      assert s[..|p|] == p;
      assert s[|p|..] == [];
    } else {
      assert s[..|p|] != p by { assert s[..|p|][0] == a[0] != p[0]; }
      assert s[1..] == a[1..] + p;
      assert a == [a[0]] + a[1..];
      calc {
        ReplaceAll(s, p, q);
        [s[0]] + ReplaceAll(a[1..] + p, p, q);
        { ReplaceSuffix(a[1..], p, q); }
        [a[0]] + (a[1..] + q);
      }
    }
  }

  predicate StemChar(c: char) { 'A' <= c <= 'Z' || '0' <= c <= '9' }

  /** Every manifest name is an upper-case alphanumeric stem plus ".MNI". */
  predicate IsManifestName(name: string) {
    && |name| > 4 && name[|name| - 4..] == ".MNI"
    && forall i :: 0 <= i < |name| - 4 ==> StemChar(name[i])
  }

  /** The name a manifest entry normalises to: the stem. */
  lemma ManifestNameNormalizes(name: string)
    requires IsManifestName(name)
    ensures NormalizeGroupentName(name) == name[..|name| - 4]
  {
    var stem := name[..|name| - 4];
    assert name == stem + ".MNI";
    assert forall i :: 0 <= i < |stem| ==> StemChar(stem[i]);
    NormalizeStem(stem);
  }

  lemma ManifestNameHasNoSlash(name: string)
    requires IsManifestName(name)
    ensures '/' !in name
  {
    assert forall i :: 0 <= i < |name| ==> name[i] != '/' by {
      forall i | 0 <= i < |name| ensures name[i] != '/' {
        if i >= |name| - 4 {
          assert name[i] == name[|name| - 4..][i - (|name| - 4)];
        }
      }
    }
  }

  function JoinPath(dir: string, name: string): string {
    dir + "/" + name
  }

  /** `os.path.basename`: what follows the last '/'. */
  function Basename(path: string): (r: string)
    ensures '/' !in r
    ensures |r| <= |path| && r == path[|path| - |r|..]
  {
    if |path| == 0 || path[|path| - 1] == '/' then ""
    else Basename(path[..|path| - 1]) + [path[|path| - 1]]
  }

  lemma {:induction false} BasenameOfJoin(dir: string, name: string)
    requires '/' !in name
    ensures Basename(JoinPath(dir, name)) == name
    decreases |name|
  {
    var p := JoinPath(dir, name);
    if |name| > 0 {
      assert p[..|p| - 1] == JoinPath(dir, name[..|name| - 1]);
      BasenameOfJoin(dir, name[..|name| - 1]);
      assert name == name[..|name| - 1] + [name[|name| - 1]];
    }
  }

  /** `map_file_iterator` and its siblings: one path per manifest name, in
      manifest order, each naming that file. */
  function FileIterator(dir: string, names: seq<string>): (paths: seq<string>)
    requires forall i :: 0 <= i < |names| ==> '/' !in names[i]
    ensures |paths| == |names|
    ensures forall i :: 0 <= i < |names| ==> Basename(paths[i]) == names[i]
  {
    if |names| == 0 then []
    else
      BasenameOfJoin(dir, names[0]);
      [JoinPath(dir, names[0])] + FileIterator(dir, names[1..])
  }

  /** Every entry of the map manifest is a well-formed manifest name. */
  lemma MapManifestWellFormed()
    ensures forall i :: 0 <= i < |MapFiles| ==> IsManifestName(MapFiles[i])
  {
    MapManifestPart1();
    MapManifestPart2();
    MapManifestPart3();
    MapManifestPart4();
    MapManifestPart5();
    MapManifestPart6();
  }

  lemma MapManifestPart1()
    ensures forall i :: 0 <= i < 6 ==> IsManifestName(MapFiles[i])
  {
    forall i | 0 <= i < 6 ensures IsManifestName(MapFiles[i]) {
      var n := MapFiles[i];
      assert n[|n| - 4..] == ".MNI";
    }
  }

  lemma MapManifestPart2()
    ensures forall i :: 6 <= i < 12 ==> IsManifestName(MapFiles[i])
  {
    forall i | 6 <= i < 12 ensures IsManifestName(MapFiles[i]) {
      var n := MapFiles[i];
      assert n[|n| - 4..] == ".MNI";
    }
  }

  lemma MapManifestPart3()
    ensures forall i :: 12 <= i < 18 ==> IsManifestName(MapFiles[i])
  {
    forall i | 12 <= i < 18 ensures IsManifestName(MapFiles[i]) {
      var n := MapFiles[i];
      assert n[|n| - 4..] == ".MNI";
    }
  }

  lemma MapManifestPart4()
    ensures forall i :: 18 <= i < 24 ==> IsManifestName(MapFiles[i])
  {
    forall i | 18 <= i < 24 ensures IsManifestName(MapFiles[i]) {
      var n := MapFiles[i];
      assert n[|n| - 4..] == ".MNI";
    }
  }

  lemma MapManifestPart5()
    ensures forall i :: 24 <= i < 30 ==> IsManifestName(MapFiles[i])
  {
    forall i | 24 <= i < 30 ensures IsManifestName(MapFiles[i]) {
      var n := MapFiles[i];
      assert n[|n| - 4..] == ".MNI";
    }
  }

  lemma MapManifestPart6()
    ensures forall i :: 30 <= i < 37 ==> IsManifestName(MapFiles[i])
  {
    forall i | 30 <= i < 37 ensures IsManifestName(MapFiles[i]) {
      var n := MapFiles[i];
      assert n[|n| - 4..] == ".MNI";
    }
  }

  /** Every entry of the music manifest is a well-formed manifest name. */
  lemma MusicManifestWellFormed()
    ensures forall i :: 0 <= i < |MusicFiles| ==> IsManifestName(MusicFiles[i])
  {
    MusicManifestPart1();
    MusicManifestPart2();
    MusicManifestPart3();
    MusicManifestPart4();
    MusicManifestPart5();
    MusicManifestPart6();
  }

  lemma MusicManifestPart1()
    ensures forall i :: 0 <= i < 3 ==> IsManifestName(MusicFiles[i])
  {
    forall i | 0 <= i < 3 ensures IsManifestName(MusicFiles[i]) {
      var n := MusicFiles[i];
      assert n[|n| - 4..] == ".MNI";
    }
  }

  lemma MusicManifestPart2()
    ensures forall i :: 3 <= i < 6 ==> IsManifestName(MusicFiles[i])
  {
    forall i | 3 <= i < 6 ensures IsManifestName(MusicFiles[i]) {
      var n := MusicFiles[i];
      assert n[|n| - 4..] == ".MNI";
    }
  }

  lemma MusicManifestPart3()
    ensures forall i :: 6 <= i < 9 ==> IsManifestName(MusicFiles[i])
  {
    forall i | 6 <= i < 9 ensures IsManifestName(MusicFiles[i]) {
      var n := MusicFiles[i];
      assert n[|n| - 4..] == ".MNI";
    }
  }

  lemma MusicManifestPart4()
    ensures forall i :: 9 <= i < 12 ==> IsManifestName(MusicFiles[i])
  {
    forall i | 9 <= i < 12 ensures IsManifestName(MusicFiles[i]) {
      var n := MusicFiles[i];
      assert n[|n| - 4..] == ".MNI";
    }
  }

  lemma MusicManifestPart5()
    ensures forall i :: 12 <= i < 15 ==> IsManifestName(MusicFiles[i])
  {
    forall i | 12 <= i < 15 ensures IsManifestName(MusicFiles[i]) {
      var n := MusicFiles[i];
      assert n[|n| - 4..] == ".MNI";
    }
  }

  lemma MusicManifestPart6()
    ensures forall i :: 15 <= i < 19 ==> IsManifestName(MusicFiles[i])
  {
    forall i | 15 <= i < 19 ensures IsManifestName(MusicFiles[i]) {
      var n := MusicFiles[i];
      assert n[|n| - 4..] == ".MNI";
    }
  }

  lemma SoundManifestWellFormed()
    ensures forall i :: 0 <= i < |SoundFiles| ==> IsManifestName(SoundFiles[i])
  {
    forall i | 0 <= i < |SoundFiles| ensures IsManifestName(SoundFiles[i]) {
      var n := SoundFiles[i];
      assert n[|n| - 4..] == ".MNI";
    }
  }
}

=== FILE: font.dfy ===
/** Font table (scripts/datalib/font.py): the 100 glyphs of the game font,
    40 bytes apart. Sixteen indices are special glyphs; the rest map onto
    two runs of ASCII. */
module Font {
  import opened Wrappers

  const GlyphCount: nat := 100
  const GlyphBytes: nat := 40
  const SolidBlack: string := "Solid Black Tile"
  const SolidGray: string := "Solid Gray Tile"
  const Pound: char := '\U{00A3}'

  /** The glyphs that are not plain ASCII, by index. */
  const Specials: map<nat, string> := map[
    0 := SolidBlack,
    1 := SolidBlack,
    2 := "\U{2191}",
    3 := "\U{2193}",
    4 := SolidBlack,
    5 := "\U{2190}",
    6 := "\U{2192}",
    7 := SolidBlack,
    8 := "Empty Health Bar, Bottom",
    9 := "Empty Health Bar, Top",
    25 := [Pound],
    95 := "Filled Health Bar, Top",
    96 := "Filled Health Bar, Bottom",
    97 := SolidGray,
    98 := SolidGray,
    99 := SolidGray]

  /** The special glyphs drawn as a one-character symbol. */
  const SymbolSpecials: set<nat> := {2, 3, 5, 6, 25}

  datatype FontRow = FontRow(index: nat, offsetBytes: nat, asciiCode: Option<nat>, character: string, literal: bool)

  /** The ASCII code of a non-special glyph, by the range it falls in. */
  function RangeCode(i: nat): (c: Option<nat>)
    ensures c.Some? <==> 10 <= i < 95
    ensures c.Some? ==> 32 <= c.value <= 90 || 97 <= c.value <= 122
  {
    if 10 <= i < 69 then Some(i + 22)
    else if 69 <= i < 95 then Some(i + 28)
    else None
  }

  /** The CP437 code that replaces the ASCII code of a symbol glyph. */
  function Cp437Override(i: nat, code: Option<nat>): Option<nat> {
    if i == 2 then Some(24)
    else if i == 3 then Some(25)
    else if i == 5 then Some(27)
    else if i == 6 then Some(26)
    else if i == 25 then Some(156)
    else code
  }

  /** One pass of the loop of `generate_font_table`; an index that is
      neither special nor in an ASCII run raises `RuntimeError`. */
  function FontEntry(i: nat): (r: Result<FontRow>)
    ensures r.Ok? <==> i < GlyphCount
    ensures r.Err? ==> r.error == RuntimeError("huh?")
    ensures r.Ok? ==> r.value.index == i && r.value.offsetBytes == GlyphBytes * i
    ensures r.Ok? ==> (r.value.literal <==> |r.value.character| == 1)
  {
    var code: Option<nat> := if i in Specials then None else RangeCode(i);
    if i !in Specials && code.None? then Err(RuntimeError("huh?"))
    else
      var ch := if i in Specials then Specials[i] else [code.value as char];
      Ok(FontRow(i, GlyphBytes * i, Cp437Override(i, code), ch, |ch| == 1))
  }

  /** `generate_font_table`: every index 0..99 is covered, so the loop never
      raises, and its rows are the entries in order. */
  method GenerateFontTable() returns (table: seq<FontRow>)
    ensures |table| == GlyphCount
    ensures forall i :: 0 <= i < GlyphCount ==> FontEntry(i) == Ok(table[i])
  {
    table := [];
    var i := 0;
    while i < GlyphCount
      invariant i <= GlyphCount && |table| == i
      invariant forall j :: 0 <= j < i ==> FontEntry(j) == Ok(table[j])
    {
      var entry := FontEntry(i);
      table := table + [entry.value];
      i := i + 1;
    }
  }

  /** A special glyph wins over the ASCII runs: index 25 is the pound sign,
      not `/`. */
  lemma SpecialWins()
    ensures FontEntry(25) == Ok(FontRow(25, 1000, Some(156), [Pound], true))
    ensures RangeCode(25) == Some(47)
  {
  }

  /** A non-special glyph in the runs carries its ASCII code and is that
      one character. */
  lemma {:induction false} RangeGlyph(i: nat)
    requires 10 <= i < 95 && i !in Specials
    ensures FontEntry(i).Ok?
    ensures FontEntry(i).value.asciiCode == Some(if i < 69 then i + 22 else i + 28)
    ensures FontEntry(i).value.character == [(if i < 69 then i + 22 else i + 28) as char]
    ensures FontEntry(i).value.literal
  {
  }

  /** The symbol glyphs carry fixed CP437 codes and one character each. */
  lemma SymbolGlyphs()
    ensures FontEntry(2).value.asciiCode == Some(24) && FontEntry(2).value.character == "\U{2191}"
    ensures FontEntry(3).value.asciiCode == Some(25) && FontEntry(3).value.character == "\U{2193}"
    ensures FontEntry(5).value.asciiCode == Some(27) && FontEntry(5).value.character == "\U{2190}"
    ensures FontEntry(6).value.asciiCode == Some(26) && FontEntry(6).value.character == "\U{2192}"
    ensures forall i :: i in SymbolSpecials ==> FontEntry(i).value.literal
  {
  }

  /** The named special glyphs have no code and are descriptions, not
      characters. */
  lemma {:induction false} NamedGlyphs(i: nat)
    requires i in Specials && i !in SymbolSpecials
    ensures FontEntry(i).Ok?
    ensures FontEntry(i).value.asciiCode == None
    ensures !FontEntry(i).value.literal
  {
  }

  /** The glyph index that draws the printable ASCII character `c`, if
      the font has one. */
  function GlyphOf(c: char): (i: Option<nat>)
    ensures i.Some? ==> i.value < GlyphCount
  {
    var n := c as int;
    if 32 <= n <= 90 && n != 47 then Some(n - 22)
    else if 97 <= n <= 122 then Some(n - 28)
    else None
  }

  /** Looking a character up and drawing the glyph gives the character
      back. */
  lemma {:induction false} GlyphOfRoundTrip(c: char)
    requires GlyphOf(c).Some?
    ensures FontEntry(GlyphOf(c).value).Ok?
    ensures FontEntry(GlyphOf(c).value).value.character == [c]
    ensures FontEntry(GlyphOf(c).value).value.asciiCode == Some(c as int)
  {
    var i := GlyphOf(c).value;
    assert i !in Specials;
  }

  /** Every literal glyph of a non-special index is found again by its
      character: the lookup is the inverse of the ASCII runs. */
  lemma {:induction false} GlyphOfInverse(i: nat)
    requires 10 <= i < 95 && i !in Specials
    ensures GlyphOf(FontEntry(i).value.character[0]) == Some(i)
  {
    RangeGlyph(i);
  }
}

=== FILE: imgmake.dfy ===
/** The image manifest of `imgmake.py`: entry lines naming an SVG drawing
    and the sizes to render it at, and the PNG names derived from them. */
module ImageManifest {
  import opened Wrappers
  import opened Strings

  // ---- splitting on whitespace runs -------------------------------------------

  /** Text without any whitespace character. */
  predicate NoSpace(s: string) {
    forall i :: 0 <= i < |s| ==> !IsSpace(s[i])
  }

  /** Index of the first whitespace character. */
  function FirstSpace(s: string): (r: Option<nat>)
    ensures r.Some? ==> r.value < |s| && IsSpace(s[r.value]) && NoSpace(s[..r.value])
    ensures r.None? ==> NoSpace(s)
  {
    if |s| == 0 then None
    else if IsSpace(s[0]) then Some(0)
    else match FirstSpace(s[1..])
      case None => None
      case Some(i) => Some(i + 1)
  }

  /** `re.split(r'\s+', s)`: the texts between maximal whitespace runs, with
      an empty field in front of a leading run and after a trailing run. */
  function SplitSpace(s: string): (r: seq<string>)
    ensures |r| >= 1
    ensures forall k :: 0 <= k < |r| ==> NoSpace(r[k])
    ensures forall k :: 0 < k < |r| - 1 ==> |r[k]| > 0
    ensures |s| > 0 && !IsSpace(s[0]) ==> |r[0]| > 0
    ensures NoSpace(s) ==> r == [s]
    decreases |s|
  {
    match FirstSpace(s)
    case None => [s]
    case Some(i) =>
      var rest := SkipSpace(s[i..]);
      assert s[i..][0] == s[i];
      [s[..i]] + SplitSpace(rest)
  }

  /** The fields joined by single spaces. */
  function JoinSpace(fs: seq<string>): (r: string)
    requires |fs| >= 1
  {
    if |fs| == 1 then fs[0] else fs[0] + " " + JoinSpace(fs[1..])
  }

  /** Fields of a manifest line: non-empty and free of whitespace. */
  predicate Fields(fs: seq<string>) {
    forall k :: 0 <= k < |fs| ==> |fs[k]| > 0 && NoSpace(fs[k])
  }

  /** The first whitespace of a field, a space and more text is that space. */
  lemma {:induction false} FirstSpaceAfterField(f: string, rest: string)
    requires NoSpace(f)
    ensures FirstSpace(f + " " + rest) == Some(|f|)
    decreases |f|
  {
    if |f| > 0 {
      assert (f + " " + rest)[1..] == f[1..] + " " + rest;
      FirstSpaceAfterField(f[1..], rest);
    }
  }

  /** A field, one space and text starting with a non-space split into the
      field and the splitting of that text. */
  lemma {:induction false} SplitStep(f: string, tail: string)
    requires NoSpace(f) && |tail| > 0 && !IsSpace(tail[0])
    ensures SplitSpace(f + " " + tail) == [f] + SplitSpace(tail)
  {
    var s := f + " " + tail;
    FirstSpaceAfterField(f, tail);
    assert s[..|f|] == f;
    assert s[|f|..] == " " + tail;
    SkipOneSpace(tail);
  }

  /** Splitting single-space-joined fields gives the fields back. */
  lemma {:induction false} SplitJoinSpace(fs: seq<string>)
    requires |fs| >= 1 && Fields(fs)
    ensures SplitSpace(JoinSpace(fs)) == fs
    decreases |fs|
  {
    if |fs| > 1 {
      var tail := JoinSpace(fs[1..]);
      assert Fields(fs[1..]) by {
        forall k | 0 <= k < |fs| - 1 ensures fs[1..][k] == fs[k + 1] { }
      }
      assert |tail| > 0 && !IsSpace(tail[0]) by {
        JoinSpaceHead(fs[1..]);
        assert !IsSpace(fs[1][0]);
      }
      assert NoSpace(fs[0]);
      SplitStep(fs[0], tail);
      SplitJoinSpace(fs[1..]);
      assert fs == [fs[0]] + fs[1..];
    }
  }

  /** A joined line starts with its first field. */
  lemma {:induction false} JoinSpaceHead(fs: seq<string>)
    requires |fs| >= 1 && |fs[0]| > 0
    ensures |JoinSpace(fs)| > 0 && JoinSpace(fs)[0] == fs[0][0]
  {
  }

  /** Skipping whitespace past one space lands on text that starts with
      something else. */
  lemma {:induction false} SkipOneSpace(t: string)
    requires |t| > 0 && !IsSpace(t[0])
    ensures SkipSpace(" " + t) == t
  {
    assert (" " + t)[1..] == t;
    assert SkipSpace(t) == t;
  }

  // ---- parse_manifest_entry ---------------------------------------------------

  /** One manifest line: the drawing's file name and the sizes wanted. */
  datatype Entry = Entry(file: string, vers: seq<string>)

  /** `parse_manifest_entry`: the first field is the file name, the rest are
      versions; a line with a single field (a blank line too) has no
      versions and is an error. */
  function ParseEntry(entry: string): (r: Result<Entry>)
    ensures r.Err? <==> |SplitSpace(entry)| == 1
    ensures r.Err? ==> r.error == NoVersions(SplitSpace(entry)[0])
    ensures r.Ok? ==> |r.value.vers| > 0 && [r.value.file] + r.value.vers == SplitSpace(entry)
  {
    var fields := SplitSpace(entry);
    if |fields| == 1 then Err(NoVersions(fields[0]))
    else
      assert fields == [fields[0]] + fields[1..];
      Ok(Entry(fields[0], fields[1..]))
  }

  /** A line written as a name and its versions separated by single spaces
      parses back to them. */
  lemma {:induction false} ParseEntryRoundTrip(file: string, vers: seq<string>)
    requires |vers| > 0 && Fields([file] + vers)
    ensures ParseEntry(JoinSpace([file] + vers)) == Ok(Entry(file, vers))
  {
    SplitJoinSpace([file] + vers);
    assert ([file] + vers)[1..] == vers;
  }

  /** A line without whitespace is only a file name: no versions. */
  lemma {:induction false} ParseEntryNameOnly(entry: string)
    requires NoSpace(entry)
    ensures ParseEntry(entry) == Err(NoVersions(entry))
  {
  }

  // ---- parse_manifest_ver -----------------------------------------------------

  /** Rendered width and height; `None` leaves the dimension to Inkscape. */
  datatype Size = Size(width: Option<nat>, height: Option<nat>)

  /** `int()` of a matched digit group: an empty group is `None`. */
  function GroupValue(d: string): (r: Option<nat>)
    requires AllDigits(d)
    ensures r.None? <==> |d| == 0
  {
    if |d| == 0 then None else Some(DigitsValue(d))
  }

  /** After its leading digits a version has an `x`. */
  predicate VersionShaped(ver: string) {
    var d := DigitPrefix(ver);
    |d| < |ver| && ver[|d|] == 'x'
  }

  /** `parse_manifest_ver`: the two digit groups of the prefix
      `[0-9]*x[0-9]*`; whatever follows is ignored. */
  function ParseVer(ver: string): (r: Result<Size>)
    ensures r.Err? <==> !VersionShaped(ver)
    ensures r.Err? ==> r.error == UnusableVersion(ver)
  {
    var d1 := DigitPrefix(ver);
    if |d1| < |ver| && ver[|d1|] == 'x' then
      var d2 := DigitPrefix(ver[|d1| + 1..]);
      Ok(Size(GroupValue(d1), GroupValue(d2)))
    else Err(UnusableVersion(ver))
  }

  /** The text of a size: each known dimension in decimal around an `x`. */
  function SizeText(sz: Size): (r: string)
    ensures VersionShaped(r)
  {
    var w := DimText(sz.width);
    var h := DimText(sz.height);
    DimTextRoundTrip(sz.width);
    var r := w + ("x" + h);
    DigitPrefixOf(w, "x" + h);
    r
  }

  /** The digit prefix of digits followed by a non-digit is those digits. */
  lemma {:induction false} DigitPrefixOf(d: string, t: string)
    requires AllDigits(d)
    requires |t| == 0 || !IsDigit(t[0])
    ensures DigitPrefix(d + t) == d
    decreases |d|
  {
    if |d| > 0 {
      assert (d + t)[1..] == d[1..] + t;
      DigitPrefixOf(d[1..], t);
    } else {
      assert d + t == t;
    }
  }

  /** Two digit groups around an `x`, followed by text that does not
      start with a digit, parse to the groups' values. */
  lemma {:induction false} ParseVerGroups(w: string, h: string, tail: string)
    requires AllDigits(w) && AllDigits(h)
    requires |tail| == 0 || !IsDigit(tail[0])
    ensures ParseVer(w + ("x" + (h + tail))) == Ok(Size(GroupValue(w), GroupValue(h)))
  {
    var v := w + ("x" + (h + tail));
    DigitPrefixOf(w, "x" + (h + tail));
    assert v[|w|] == 'x';
    assert v[|w| + 1..] == h + tail;
    DigitPrefixOf(h, tail);
  }

  /** One dimension of a size as text: its decimal digits, or nothing. */
  function DimText(d: Option<nat>): string {
    if d.Some? then NatToString(d.value) else ""
  }

  /** The text of a dimension is a digit group of that value. */
  lemma {:induction false} DimTextRoundTrip(d: Option<nat>)
    ensures AllDigits(DimText(d)) && GroupValue(DimText(d)) == d
  {
    if d.Some? {
      NatToStringRoundTrip(d.value);
    }
  }

  /** The text of a size followed by more text, regrouped around the `x`. */
  lemma SizeTextThen(sz: Size, tail: string)
    ensures SizeText(sz) + tail == DimText(sz.width) + ("x" + (DimText(sz.height) + tail))
  {
    assert SizeText(sz) == DimText(sz.width) + ("x" + DimText(sz.height));
  }

  /** A size written out reads back, whatever non-digit text follows it. */
  lemma {:induction false} ParseVerRoundTrip(sz: Size, tail: string)
    requires |tail| == 0 || !IsDigit(tail[0])
    ensures ParseVer(SizeText(sz) + tail) == Ok(sz)
  {
    SizeTextThen(sz, tail);
    DimTextRoundTrip(sz.width);
    DimTextRoundTrip(sz.height);
    ParseVerGroups(DimText(sz.width), DimText(sz.height), tail);
  }

  /** A version without any `x` is unusable. */
  lemma {:induction false} ParseVerNeedsX(ver: string)
    requires forall i :: 0 <= i < |ver| ==> ver[i] != 'x'
    ensures ParseVer(ver) == Err(UnusableVersion(ver))
  {
  }

  // ---- the output name --------------------------------------------------------

  /** The suffix the substitution looks for, in any letter case. */
  const SvgSuffix: string := ".svg"

  /** `s` ends with `.svg` in any letter case. */
  predicate EndsSvg(s: string) {
    |s| >= 4 && ToLower(s[|s| - 4..]) == SvgSuffix
  }

  /** `re.sub(r'\.svg$', f'-{ver}.png', name, flags=re.I)`: `$` matches at
      the end of the text and in front of a final newline; any other name
      comes back unchanged. */
  function SubstituteSvg(name: string, ver: string): (r: string)
    ensures !Renamable(name) ==> r == name
    ensures Renamable(name) ==> |r| == |name| + |ver| + 1
    ensures EndsSvg(name) ==> r[..|name| - 4] == name[..|name| - 4] && r[|name| - 4..] == "-" + ver + ".png"
  {
    if EndsSvg(name) then name[..|name| - 4] + "-" + ver + ".png"
    else if |name| >= 1 && name[|name| - 1] == '\n' && EndsSvg(name[..|name| - 1]) then
      name[..|name| - 5] + "-" + ver + ".png" + "\n"
    else name
  }

  /** The drawing's name with a `.svg` suffix, possibly before a newline. */
  predicate Renamable(name: string) {
    EndsSvg(name) || (|name| >= 1 && name[|name| - 1] == '\n' && EndsSvg(name[..|name| - 1]))
  }

  /** The PNG name for one version, with the assert of `maybe_make_image`
      that the substitution changed the name. */
  function PngName(name: string, ver: string): (r: Result<string>)
    ensures r.Err? <==> !Renamable(name)
    ensures r.Err? ==> r.error == NameUnchanged(name)
  {
    var out := SubstituteSvg(name, ver);
    if out != name then Ok(out)
    else
      assert !Renamable(name) by { SubstituteChanges(name, ver); }
      Err(NameUnchanged(name))
  }

  /** A name with the suffix is always changed by the substitution, which
      lengthens it, so the assert only stops names without it. */
  lemma {:induction false} SubstituteChanges(name: string, ver: string)
    ensures Renamable(name) <==> SubstituteSvg(name, ver) != name
    ensures Renamable(name) ==> |SubstituteSvg(name, ver)| == |name| + |ver| + 1
  {
  }

  /** The PNG name keeps the drawing's stem and ends with the version and
      `.png`; the version can be read back off it. */
  lemma {:induction false} PngNameShape(name: string, ver: string)
    requires EndsSvg(name)
    ensures PngName(name, ver).Ok?
    ensures var r := PngName(name, ver).value;
      && r[..|name| - 4] == name[..|name| - 4]
      && r[|name| - 4..] == "-" + ver + ".png"
      && r[|name| - 3..|r| - 4] == ver
  {
    SubstituteChanges(name, ver);
  }

  /** Upper-case letters in the suffix do not matter. */
  lemma {:induction false} PngNameIgnoresCase(stem: string, suffix: string, ver: string)
    requires |suffix| == 4 && ToLower(suffix) == SvgSuffix
    ensures PngName(stem + suffix, ver) == Ok(stem + "-" + ver + ".png")
  {
    var name := stem + suffix;
    assert name[|name| - 4..] == suffix;
    assert name[..|name| - 4] == stem;
    SubstituteChanges(name, ver);
  }

  /** The file `clean` removes for one version: the same substitution
      without the assert, so it is the PNG `make` writes for a drawing with
      the suffix, and the unchanged name for any other. */
  function CleanTarget(name: string, ver: string): (r: string)
    ensures Renamable(name) ==> PngName(name, ver) == Ok(r)
    ensures !Renamable(name) ==> r == name
  {
    SubstituteChanges(name, ver);
    SubstituteSvg(name, ver)
  }
}

=== FILE: mapdecoder.dfy ===
/** Map decoder (scripts/datalib/map.py): one header, `num_actors` actor
    records and an opaque tile payload per map file; one summary row per map
    and five cross-reference indices from an attribute value to the maps
    that show it. */
module MapDecoder {
  import opened Wrappers
  import opened Bytes
  import opened Defs
  import SortedKeys

  /** An attribute value mapped to the distinct map names showing it, in
      first-seen order. */
  type Index = map<u16, seq<string>>

  datatype MapRow = MapRow(
    mapName: string,
    backdropId: nat,
    backdropHscrollFlag: nat,
    backdropVscrollFlag: nat,
    widthTiles: nat,
    heightTiles: nat,
    musicId: nat,
    paletteAnimationId: nat,
    rainFlag: nat,
    actorCount: nat,
    fountainCount: nat,
    lightCount: nat,
    platformCount: nat,
    playerCount: nat,
    tileSizeBytes: nat)

  datatype MapDB = MapDB(
    table: seq<MapRow>,
    indexActor: Index,
    indexBackdrop: Index,
    indexMusic: Index,
    indexPaletteAnimation: Index,
    indexSpecialActor: Index)

  const EmptyDB := MapDB([], map[], map[], map[], map[], map[])

  predicate NoDuplicates(s: seq<string>) {
    forall i, j :: 0 <= i < j < |s| ==> s[i] != s[j]
  }

  /** Every key present has a non-empty list without duplicates. */
  predicate IndexOk(idx: Index) {
    forall k :: k in idx ==> |idx[k]| > 0 && NoDuplicates(idx[k])
  }

  /** `after` keeps every key of `before`, each old list as a prefix. */
  predicate Extends(before: Index, after: Index) {
    forall k :: k in before ==> k in after && before[k] <= after[k]
  }

  predicate DBOk(db: MapDB) {
    && IndexOk(db.indexActor) && IndexOk(db.indexBackdrop) && IndexOk(db.indexMusic)
    && IndexOk(db.indexPaletteAnimation) && IndexOk(db.indexSpecialActor)
  }

  /** `if name not in idx[key]: idx[key].append(name)` on a defaultdict. */
  function AddName(idx: Index, key: u16, name: string): (r: Index)
    ensures key in r && name in r[key]
    ensures key in idx && name in idx[key] ==> r == idx
    ensures key in idx && name !in idx[key] ==> r[key] == idx[key] + [name]
    ensures key !in idx ==> r[key] == [name]
    ensures forall k :: k != key ==> (k in r <==> k in idx) && (k in idx ==> r[k] == idx[k])
    ensures Extends(idx, r)
    ensures IndexOk(idx) ==> IndexOk(r)
  {
    if key in idx && name in idx[key] then idx
    else idx[key := (if key in idx then idx[key] else []) + [name]]
  }

  /** Adding a name twice is the same as adding it once. */
  lemma AddNameIdempotent(idx: Index, key: u16, name: string)
    ensures AddName(AddName(idx, key, name), key, name) == AddName(idx, key, name)
  {
  }

  // ---- counts --------------------------------------------------------------

  function CountWhere(actors: seq<ActorRecord>, p: ActorRecord -> bool): (n: nat)
    ensures n <= |actors|
  {
    if |actors| == 0 then 0
    else (if p(actors[0]) then 1 else 0) + CountWhere(actors[1..], p)
  }

  /** The four category counts never exceed the actor count, because no
      actor falls in two categories. */
  lemma {:induction false} CategoryCountsBounded(actors: seq<ActorRecord>)
    ensures CountWhere(actors, IsFountain) + CountWhere(actors, IsLight)
          + CountWhere(actors, IsPlatform) + CountWhere(actors, IsPlayer) <= |actors|
  {
    if |actors| > 0 {
      CategoriesDisjoint(actors[0]);
      CategoryCountsBounded(actors[1..]);
    }
  }

  // ---- actor indexing ------------------------------------------------------

  /** The keys an actor list files the map under in the actor index (the
      real types) and in the special-actor index (the raw types below the
      bias). */
  function RealKeys(actors: seq<ActorRecord>): set<u16> {
    set i | 0 <= i < |actors| && actors[i].actorType >= RealActorBias :: actors[i].actorType - RealActorBias
  }

  function SpecialKeys(actors: seq<ActorRecord>): set<u16> {
    set i | 0 <= i < |actors| && actors[i].actorType < RealActorBias :: actors[i].actorType
  }

  /** The first actor's key, and the keys of the rest. */
  lemma KeysCons(actors: seq<ActorRecord>)
    requires |actors| > 0
    ensures actors[0].actorType >= RealActorBias ==>
      RealKeys(actors) == {actors[0].actorType - RealActorBias} + RealKeys(actors[1..])
        && SpecialKeys(actors) == SpecialKeys(actors[1..])
    ensures actors[0].actorType < RealActorBias ==>
      SpecialKeys(actors) == {actors[0].actorType} + SpecialKeys(actors[1..])
        && RealKeys(actors) == RealKeys(actors[1..])
  {
    var rest := actors[1..];
    forall i | 0 <= i < |rest| ensures rest[i] == actors[i + 1] { }
    forall k | k in RealKeys(actors) ensures k in RealKeys(rest) || (actors[0].actorType >= RealActorBias && k == actors[0].actorType - RealActorBias) {
      var i :| 0 <= i < |actors| && actors[i].actorType >= RealActorBias && k == actors[i].actorType - RealActorBias;
      if i > 0 { assert rest[i - 1] == actors[i]; }
    }
    forall k | k in SpecialKeys(actors) ensures k in SpecialKeys(rest) || (actors[0].actorType < RealActorBias && k == actors[0].actorType) {
      var i :| 0 <= i < |actors| && actors[i].actorType < RealActorBias && k == actors[i].actorType;
      if i > 0 { assert rest[i - 1] == actors[i]; }
    }
  }

  /** The actor loop of `insert`: real actors go to the actor index under
      their real type, all others to the special-actor index under their
      raw type, one actor after another. Exactly those names are added. */
  function IndexActors(ia: Index, sa: Index, name: string, actors: seq<ActorRecord>): (r: (Index, Index))
    ensures Extends(ia, r.0) && Extends(sa, r.1)
    ensures IndexOk(ia) ==> IndexOk(r.0)
    ensures IndexOk(sa) ==> IndexOk(r.1)
    ensures forall k :: k in RealKeys(actors) ==> k in r.0 && name in r.0[k]
    ensures forall k :: k in SpecialKeys(actors) ==> k in r.1 && name in r.1[k]
    decreases |actors|
  {
    if |actors| == 0 then (ia, sa)
    else
      KeysCons(actors);
      match RealType(actors[0])
      case Some(t) => IndexActors(AddName(ia, t, name), sa, name, actors[1..])
      case None => IndexActors(ia, AddName(sa, actors[0].actorType, name), name, actors[1..])
  }

  /** Every name `after` lists under a key was listed there in `before`, or
      is `name` under one of `keys`. */
  predicate Filed(before: Index, after: Index, name: string, keys: set<u16>) {
    forall k, n :: k in after && n in after[k] ==> (k in before && n in before[k]) || (n == name && k in keys)
  }

  /** `AddName` files nothing but `name` under `key`. */
  lemma AddNameFiled(idx: Index, key: u16, name: string)
    ensures Filed(idx, AddName(idx, key, name), name, {key})
  {
  }

  lemma FiledTrans(a: Index, b: Index, c: Index, name: string, k1: set<u16>, k2: set<u16>)
    requires Filed(a, b, name, k1) && Filed(b, c, name, k2)
    ensures Filed(a, c, name, k1 + k2)
  {
  }

  /** Nothing else is filed: a name under a key was there before, or is this
      map's name under the key of one of its actors. */
  lemma {:induction false} IndexActorsExact(ia: Index, sa: Index, name: string, actors: seq<ActorRecord>)
    ensures var r := IndexActors(ia, sa, name, actors);
      Filed(ia, r.0, name, RealKeys(actors)) && Filed(sa, r.1, name, SpecialKeys(actors))
    decreases |actors|
  {
    var r := IndexActors(ia, sa, name, actors);
    if |actors| == 0 {
      assert r == (ia, sa);
    } else {
      var a, rest := actors[0], actors[1..];
      if a.actorType >= RealActorBias {
        var key: u16 := a.actorType - RealActorBias;
        var ia' := AddName(ia, key, name);
        assert r == IndexActors(ia', sa, name, rest);
        KeysCons(actors);
        IndexActorsExact(ia', sa, name, rest);
        AddNameFiled(ia, key, name);
        FiledTrans(ia, ia', r.0, name, {key}, RealKeys(rest));
      } else {
        var sa' := AddName(sa, a.actorType, name);
        assert r == IndexActors(ia, sa', name, rest);
        KeysCons(actors);
        IndexActorsExact(ia, sa', name, rest);
        AddNameFiled(sa, a.actorType, name);
        FiledTrans(sa, sa', r.1, name, {a.actorType}, SpecialKeys(rest));
      }
    }
  }

  // ---- insert --------------------------------------------------------------

  /** The summary row `insert` appends for this map. */
  predicate RowDescribes(row: MapRow, name: string, header: MapHeader, actors: seq<ActorRecord>, tiles: seq<byte>) {
    && row.mapName == name
    && row.backdropId == header.backdropId
    && row.backdropHscrollFlag == header.hscrollFlag
    && row.backdropVscrollFlag == header.vscrollFlag
    && row.widthTiles == header.widthTiles
    && HeightTiles(header) == Ok(row.heightTiles)
    && row.musicId == header.musicId
    && row.paletteAnimationId == header.paletteAnimationId
    && row.rainFlag == header.rainFlag
    && row.actorCount == |actors|
    && row.fountainCount == CountWhere(actors, IsFountain)
    && row.lightCount == CountWhere(actors, IsLight)
    && row.platformCount == CountWhere(actors, IsPlatform)
    && row.playerCount == CountWhere(actors, IsPlayer)
    && row.fountainCount + row.lightCount + row.platformCount + row.playerCount <= row.actorCount
    && row.tileSizeBytes == |tiles|
  }

  /** `after` is `before` with `name` appended under `key` unless it is
      already there; every other key is untouched. */
  ghost predicate AddedUnder(before: Index, after: Index, key: u16, name: string) {
    && key in after && name in after[key]
    && (key in before && name in before[key] ==> after[key] == before[key])
    && (key in before && name !in before[key] ==> after[key] == before[key] + [name])
    && (key !in before ==> after[key] == [name])
    && forall k :: k != key ==> (k in after <==> k in before) && (k in before ==> after[k] == before[k])
  }

  /** `after` keeps everything `before` filed, files `name` under the map's
      backdrop, music and palette animation (and changes nothing else
      there), and under every actor's key and nowhere else. */
  ghost predicate FiledUnder(before: MapDB, after: MapDB, name: string, header: MapHeader, actors: seq<ActorRecord>) {
    && Extends(before.indexActor, after.indexActor)
    && Extends(before.indexBackdrop, after.indexBackdrop)
    && Extends(before.indexMusic, after.indexMusic)
    && Extends(before.indexPaletteAnimation, after.indexPaletteAnimation)
    && Extends(before.indexSpecialActor, after.indexSpecialActor)
    && (forall k :: k in RealKeys(actors) ==> k in after.indexActor && name in after.indexActor[k])
    && (forall k :: k in SpecialKeys(actors) ==> k in after.indexSpecialActor && name in after.indexSpecialActor[k])
    && header.backdropId in after.indexBackdrop && name in after.indexBackdrop[header.backdropId]
    && header.musicId in after.indexMusic && name in after.indexMusic[header.musicId]
    && header.paletteAnimationId in after.indexPaletteAnimation
    && name in after.indexPaletteAnimation[header.paletteAnimationId]
    && AddedUnder(before.indexBackdrop, after.indexBackdrop, header.backdropId, name)
    && AddedUnder(before.indexMusic, after.indexMusic, header.musicId, name)
    && AddedUnder(before.indexPaletteAnimation, after.indexPaletteAnimation, header.paletteAnimationId, name)
    && Filed(before.indexActor, after.indexActor, name, RealKeys(actors))
    && Filed(before.indexSpecialActor, after.indexSpecialActor, name, SpecialKeys(actors))
  }

  /** `MapDB.insert`: one summary row, then the five indices. Fails when the
      height cannot be computed (zero width). */
  function Insert(db: MapDB, name: string, header: MapHeader, actors: seq<ActorRecord>, tiles: seq<byte>): (r: Result<MapDB>)
    ensures r.Err? <==> header.widthTiles == 0
    ensures r.Ok? ==> |r.value.table| == |db.table| + 1 && r.value.table[..|db.table|] == db.table
    ensures r.Ok? ==> RowDescribes(r.value.table[|db.table|], name, header, actors, tiles)
    ensures r.Ok? ==> FiledUnder(db, r.value, name, header, actors)
    ensures r.Ok? && DBOk(db) ==> DBOk(r.value)
  {
    var height :- HeightTiles(header);
    var fountains := CountWhere(actors, IsFountain);
    var lights := CountWhere(actors, IsLight);
    var platforms := CountWhere(actors, IsPlatform);
    var players := CountWhere(actors, IsPlayer);
    CategoryCountsBounded(actors);
    var row := MapRow(
      name, header.backdropId, header.hscrollFlag, header.vscrollFlag,
      header.widthTiles, height, header.musicId, header.paletteAnimationId,
      header.rainFlag, |actors|, fountains, lights, platforms, players, |tiles|);
    var (ia, sa) := IndexActors(db.indexActor, db.indexSpecialActor, name, actors);
    IndexActorsExact(db.indexActor, db.indexSpecialActor, name, actors);
    Ok(MapDB(
      db.table + [row], ia,
      AddName(db.indexBackdrop, header.backdropId, name),
      AddName(db.indexMusic, header.musicId, name),
      AddName(db.indexPaletteAnimation, header.paletteAnimationId, name),
      sa))
  }

  // ---- to_dict -------------------------------------------------------------

  datatype IndexSet<T> = IndexSet(
    actor: T, backdrop: T, music: T, paletteAnimation: T, specialActor: T)

  datatype MapDict = MapDict(table: seq<MapRow>, index: IndexSet<Index>, sort: IndexSet<seq<int>>)

  function SortedKeysOf(idx: Index): (r: seq<int>)
    ensures SortedKeys.StrictlyAscending(r)
    ensures forall x :: x in r <==> 0 <= x < 0x1_0000 && x as u16 in idx
  {
    SortedKeys.SortedBetween(set k | k in idx :: k as int, 0, 0x1_0000)
  }

  /** `MapDB.to_dict`: the table, the indices, and each index's keys in
      ascending order. */
  function ToDict(db: MapDB): (d: MapDict)
    ensures d.table == db.table
    ensures d.index == IndexSet(db.indexActor, db.indexBackdrop, db.indexMusic,
                                db.indexPaletteAnimation, db.indexSpecialActor)
    ensures var s := d.sort;
      && SortedKeys.StrictlyAscending(s.actor) && SortedKeys.StrictlyAscending(s.backdrop)
      && SortedKeys.StrictlyAscending(s.music) && SortedKeys.StrictlyAscending(s.paletteAnimation)
      && SortedKeys.StrictlyAscending(s.specialActor)
    ensures forall k: u16 :: (k as int in d.sort.actor <==> k in db.indexActor)
                          && (k as int in d.sort.backdrop <==> k in db.indexBackdrop)
                          && (k as int in d.sort.music <==> k in db.indexMusic)
                          && (k as int in d.sort.paletteAnimation <==> k in db.indexPaletteAnimation)
                          && (k as int in d.sort.specialActor <==> k in db.indexSpecialActor)
  {
    MapDict(
      db.table,
      IndexSet(db.indexActor, db.indexBackdrop, db.indexMusic,
               db.indexPaletteAnimation, db.indexSpecialActor),
      IndexSet(SortedKeysOf(db.indexActor), SortedKeysOf(db.indexBackdrop),
               SortedKeysOf(db.indexMusic), SortedKeysOf(db.indexPaletteAnimation),
               SortedKeysOf(db.indexSpecialActor)))
  }

  // ---- reading one map file ------------------------------------------------

  datatype MapFile = MapFile(header: MapHeader, actors: seq<ActorRecord>, tiles: seq<byte>)

  /** `n` actor records read one after another from cursor `pos`. */
  function ReadActors(s: seq<byte>, pos: nat, n: nat): (r: (seq<ActorRecord>, nat))
    requires pos <= |s|
    ensures |r.0| == n && pos <= r.1 <= |s|
    ensures r.1 == if pos + ActorRecordSize * n <= |s| then pos + ActorRecordSize * n else |s|
    ensures forall j :: 0 <= j < n ==>
              r.0[j] == DecodeActor(ReadPadded(s, pos + ActorRecordSize * j, ActorRecordSize))
    decreases n
  {
    if n == 0 then ([], pos)
    else
      var a := DecodeActor(ReadPadded(s, pos, ActorRecordSize));
      var next := Advance(s, pos, ActorRecordSize);
      var rest := ReadActors(s, next, n - 1);
      ReadActorsTail(s, pos, next, n - 1, rest.0);
      ([a] + rest.0, rest.1)
  }

  /** After a short read the cursor sits at the end of the file, and every
      later record reads as zeros, exactly as if read in place. */
  lemma ReadActorsTail(s: seq<byte>, pos: nat, next: nat, m: nat, rest: seq<ActorRecord>)
    requires pos <= |s| && next == Advance(s, pos, ActorRecordSize) && |rest| == m
    requires forall j :: 0 <= j < m ==>
               rest[j] == DecodeActor(ReadPadded(s, next + ActorRecordSize * j, ActorRecordSize))
    ensures forall j :: 0 <= j < m ==>
               rest[j] == DecodeActor(ReadPadded(s, pos + ActorRecordSize * (j + 1), ActorRecordSize))
  {
    forall j | 0 <= j < m
      ensures rest[j] == DecodeActor(ReadPadded(s, pos + ActorRecordSize * (j + 1), ActorRecordSize))
    {
      if next != pos + ActorRecordSize {
        assert next == |s|;
        assert ReadPadded(s, next + ActorRecordSize * j, ActorRecordSize)
            == ReadPadded(s, pos + ActorRecordSize * (j + 1), ActorRecordSize);
      }
    }
  }

  /** `parse_map_data` on one file: header, `num_actors` records, and all
      remaining bytes as tiles. */
  function DecodeMapFile(s: seq<byte>): (m: MapFile)
    ensures m.header == DecodeMapHeader(ReadPadded(s, 0, MapHeaderSize))
    ensures |m.actors| == NumActors(m.header)
    ensures forall j :: 0 <= j < |m.actors| ==>
              m.actors[j] == DecodeActor(ReadPadded(s, MapHeaderSize + ActorRecordSize * j, ActorRecordSize))
    ensures var body := MapHeaderSize + ActorRecordSize * |m.actors|;
              |m.tiles| == if body <= |s| then |s| - body else 0
    ensures var body := MapHeaderSize + ActorRecordSize * |m.actors|;
              body <= |s| ==> m.tiles == s[body..]
  {
    var header := DecodeMapHeader(ReadPadded(s, 0, MapHeaderSize));
    ReadAfterHeader(s, NumActors(header));
    var (actors, afterActors) := ReadActors(s, Advance(s, 0, MapHeaderSize), NumActors(header));
    MapFile(header, actors, s[afterActors..])
  }

  /** The records read after the header sit where they would if the header
      had been read in full, and the cursor ends after them or at the end
      of the file. */
  lemma ReadAfterHeader(s: seq<byte>, n: nat)
    ensures var r := ReadActors(s, Advance(s, 0, MapHeaderSize), n);
      && (forall j :: 0 <= j < n ==>
            r.0[j] == DecodeActor(ReadPadded(s, MapHeaderSize + ActorRecordSize * j, ActorRecordSize)))
      && r.1 == if MapHeaderSize + ActorRecordSize * n <= |s| then MapHeaderSize + ActorRecordSize * n else |s|
  {
    var next := Advance(s, 0, MapHeaderSize);
    var r := ReadActors(s, next, n);
    ReadActorsTail(s, 0, next, n, r.0);
    forall j | 0 <= j < n
      ensures r.0[j] == DecodeActor(ReadPadded(s, MapHeaderSize + ActorRecordSize * j, ActorRecordSize))
    {
      assert 0 + ActorRecordSize * (j + 1) == MapHeaderSize + ActorRecordSize * j;
    }
  }

  // ---- parse_map_data ------------------------------------------------------

  /** Does this file decode (its width is not zero)? */
  predicate Decodable(s: seq<byte>) {
    DecodeMapHeader(ReadPadded(s, 0, MapHeaderSize)).widthTiles != 0
  }

  /** `row` is the summary row of the map in file `s`, named `name`. */
  predicate RowFromFile(row: MapRow, name: string, s: seq<byte>) {
    var m := DecodeMapFile(s);
    RowDescribes(row, name, m.header, m.actors, m.tiles)
  }

  /** `name` is listed under the map's backdrop, music and palette
      animation, and under every actor key the map shows. */
  ghost predicate ListedUnder(db: MapDB, name: string, header: MapHeader, actors: seq<ActorRecord>) {
    && (forall k :: k in RealKeys(actors) ==> k in db.indexActor && name in db.indexActor[k])
    && (forall k :: k in SpecialKeys(actors) ==> k in db.indexSpecialActor && name in db.indexSpecialActor[k])
    && header.backdropId in db.indexBackdrop && name in db.indexBackdrop[header.backdropId]
    && header.musicId in db.indexMusic && name in db.indexMusic[header.musicId]
    && header.paletteAnimationId in db.indexPaletteAnimation
    && name in db.indexPaletteAnimation[header.paletteAnimationId]
  }

  /** Row `i` of `db` describes the map in file `s`, and every index of
      `db` lists it under `name`. */
  ghost predicate Recorded(db: MapDB, i: nat, name: string, s: seq<byte>) {
    var m := DecodeMapFile(s);
    i < |db.table| && RowFromFile(db.table[i], name, s) && ListedUnder(db, name, m.header, m.actors)
  }

  /** All five indices of `after` extend those of `before`. */
  predicate ExtendsAll(before: MapDB, after: MapDB) {
    && Extends(before.indexActor, after.indexActor)
    && Extends(before.indexBackdrop, after.indexBackdrop)
    && Extends(before.indexMusic, after.indexMusic)
    && Extends(before.indexPaletteAnimation, after.indexPaletteAnimation)
    && Extends(before.indexSpecialActor, after.indexSpecialActor)
  }

  /** A name listed in `before` stays listed in any extension. */
  lemma ListedExtends(before: Index, after: Index, key: u16, name: string)
    requires Extends(before, after) && key in before && name in before[key]
    ensures key in after && name in after[key]
  {
    var i :| 0 <= i < |before[key]| && before[key][i] == name;
    assert after[key][i] == name;
  }

  /** A map recorded before an insertion stays recorded after it. */
  lemma RecordedKept(db: MapDB, db': MapDB, i: nat, name: string, s: seq<byte>)
    requires Recorded(db, i, name, s)
    requires |db.table| <= |db'.table| && db'.table[..|db.table|] == db.table
    requires ExtendsAll(db, db')
    ensures Recorded(db', i, name, s)
  {
    var m := DecodeMapFile(s);
    assert db'.table[i] == db.table[i];
    forall k | k in RealKeys(m.actors) ensures k in db'.indexActor && name in db'.indexActor[k] {
      ListedExtends(db.indexActor, db'.indexActor, k, name);
    }
    forall k | k in SpecialKeys(m.actors) ensures k in db'.indexSpecialActor && name in db'.indexSpecialActor[k] {
      ListedExtends(db.indexSpecialActor, db'.indexSpecialActor, k, name);
    }
    ListedExtends(db.indexBackdrop, db'.indexBackdrop, m.header.backdropId, name);
    ListedExtends(db.indexMusic, db'.indexMusic, m.header.musicId, name);
    ListedExtends(db.indexPaletteAnimation, db'.indexPaletteAnimation, m.header.paletteAnimationId, name);
  }

  /** The first `n` manifest names are present, and row i records the
      map of `names[i]` under its normalised name. */
  ghost predicate MapsRecorded(db: MapDB, files: map<string, seq<byte>>, names: seq<string>, n: nat) {
    n <= |names| &&
    forall i :: 0 <= i < n ==>
      names[i] in files && Recorded(db, i, NormalizeGroupentName(names[i]), files[names[i]])
  }

  /** Inserting the map of `names[n]` keeps the earlier maps recorded and
      records one more. */
  lemma MapsRecordedStep(db: MapDB, db': MapDB, files: map<string, seq<byte>>, names: seq<string>, n: nat)
    requires MapsRecorded(db, files, names, n) && n < |names| && names[n] in files
    requires |db.table| <= |db'.table| && db'.table[..|db.table|] == db.table
    requires ExtendsAll(db, db')
    requires Recorded(db', n, NormalizeGroupentName(names[n]), files[names[n]])
    ensures MapsRecorded(db', files, names, n + 1)
  {
    forall i | 0 <= i < n
      ensures Recorded(db', i, NormalizeGroupentName(names[i]), files[names[i]])
    {
      RecordedKept(db, db', i, NormalizeGroupentName(names[i]), files[names[i]]);
    }
  }

  /** The manifest loop stops at `names[k]`, the first name whose file is
      missing (FileNotFound) or does not decode (ZeroDivision). */
  ghost predicate FailsAt(files: map<string, seq<byte>>, names: seq<string>, k: nat, e: Error) {
    && k < |names|
    && (forall i :: 0 <= i < k ==> names[i] in files && Decodable(files[names[i]]))
    && (if names[k] !in files then e == FileNotFound(names[k])
        else !Decodable(files[names[k]]) && e == ZeroDivision)
  }

  // ---- index contents ------------------------------------------------------

  /** The five cross-reference indices of a map database. */
  datatype IndexKind = ActorIndex | BackdropIndex | MusicIndex | PaletteAnimationIndex | SpecialActorIndex

  function IndexAt(db: MapDB, kind: IndexKind): Index {
    match kind
    case ActorIndex => db.indexActor
    case BackdropIndex => db.indexBackdrop
    case MusicIndex => db.indexMusic
    case PaletteAnimationIndex => db.indexPaletteAnimation
    case SpecialActorIndex => db.indexSpecialActor
  }

  /** The keys a map with this header and these actors is filed under in
      one index. */
  function KeysOf(kind: IndexKind, header: MapHeader, actors: seq<ActorRecord>): set<u16> {
    match kind
    case ActorIndex => RealKeys(actors)
    case BackdropIndex => {header.backdropId}
    case MusicIndex => {header.musicId}
    case PaletteAnimationIndex => {header.paletteAnimationId}
    case SpecialActorIndex => SpecialKeys(actors)
  }

  /** The keys of the map in file `s`. */
  function FileKeys(kind: IndexKind, s: seq<byte>): set<u16> {
    var m := DecodeMapFile(s);
    KeysOf(kind, m.header, m.actors)
  }

  /** The defaultdict lookup: a missing key reads as the empty list. */
  function Lookup(idx: Index, k: u16): seq<string> {
    if k in idx then idx[k] else []
  }

  /** One map's effect on one key's list: its name is appended when the map
      shows the key and the name is not yet there. */
  function AddIf(list: seq<string>, name: string, shows: bool): (r: seq<string>)
    ensures shows && name !in list ==> r == list + [name]
    ensures !shows || name in list ==> r == list
  {
    if shows && name !in list then list + [name] else list
  }

  /** `after` is `before` with `name` added under exactly the keys `keys`. */
  ghost predicate StepsTo(before: Index, after: Index, name: string, keys: set<u16>) {
    forall k: u16 :: Lookup(after, k) == AddIf(Lookup(before, k), name, k in keys)
  }

  /** The reference index: the names of the first `n` manifest maps that
      show key `k`, in manifest order, each name once. */
  function Expected(files: map<string, seq<byte>>, names: seq<string>, n: nat, kind: IndexKind, k: u16): (r: seq<string>)
    requires n <= |names| && forall i :: 0 <= i < n ==> names[i] in files
    ensures NoDuplicates(r)
    decreases n
  {
    if n == 0 then []
    else
      var prev := Expected(files, names, n - 1, kind, k);
      AddIf(prev, NormalizeGroupentName(names[n - 1]), k in FileKeys(kind, files[names[n - 1]]))
  }

  /** A name is in the reference list exactly when one of the first `n`
      maps carries that name and shows the key. */
  lemma {:induction false} ExpectedMembers(files: map<string, seq<byte>>, names: seq<string>, n: nat, kind: IndexKind, k: u16, name: string)
    requires n <= |names| && forall i :: 0 <= i < n ==> names[i] in files
    ensures name in Expected(files, names, n, kind, k) <==>
      exists i :: 0 <= i < n && NormalizeGroupentName(names[i]) == name && k in FileKeys(kind, files[names[i]])
    decreases n
  {
    if n > 0 {
      var prev := Expected(files, names, n - 1, kind, k);
      var last := NormalizeGroupentName(names[n - 1]);
      var shows := k in FileKeys(kind, files[names[n - 1]]);
      assert Expected(files, names, n, kind, k) == AddIf(prev, last, shows);
      ExpectedMembers(files, names, n - 1, kind, k, name);
      if name in AddIf(prev, last, shows) && name !in prev {
        assert name == last && shows;
      }
    }
  }

  /** A map earlier in the manifest is listed before a later one. */
  lemma {:induction false} ExpectedOrder(files: map<string, seq<byte>>, names: seq<string>, n: nat, kind: IndexKind, k: u16, i: nat, j: nat)
    requires n <= |names| && forall i :: 0 <= i < n ==> names[i] in files
    requires var e := Expected(files, names, n, kind, k); i < j < |e|
    ensures var e := Expected(files, names, n, kind, k);
      exists a, b :: 0 <= a < b < n && NormalizeGroupentName(names[a]) == e[i] && NormalizeGroupentName(names[b]) == e[j]
    decreases n
  {
    var e := Expected(files, names, n, kind, k);
    var prev := Expected(files, names, n - 1, kind, k);
    if j < |prev| {
      ExpectedOrder(files, names, n - 1, kind, k, i, j);
      var a, b :| 0 <= a < b < n - 1 && NormalizeGroupentName(names[a]) == prev[i] && NormalizeGroupentName(names[b]) == prev[j];
      assert e[i] == prev[i] && e[j] == prev[j];
    } else {
      assert e == prev + [NormalizeGroupentName(names[n - 1])];
      assert e[i] == prev[i] && e[j] == NormalizeGroupentName(names[n - 1]);
      ExpectedMembers(files, names, n - 1, kind, k, prev[i]);
      var a :| 0 <= a < n - 1 && NormalizeGroupentName(names[a]) == prev[i] && k in FileKeys(kind, files[names[a]]);
      assert NormalizeGroupentName(names[a]) == e[i] && NormalizeGroupentName(names[n - 1]) == e[j];
    }
  }

  /** Every index of `db` is the reference index of the first `n` maps. */
  ghost predicate IndicesExpected(db: MapDB, files: map<string, seq<byte>>, names: seq<string>, n: nat)
    requires n <= |names| && forall i :: 0 <= i < n ==> names[i] in files
  {
    forall kind, k :: Lookup(IndexAt(db, kind), k) == Expected(files, names, n, kind, k)
  }

  /** Every index of `after` is that of `before` with `name` added under the
      keys of this map. */
  ghost predicate IndicesStep(before: MapDB, after: MapDB, name: string, header: MapHeader, actors: seq<ActorRecord>) {
    forall kind :: StepsTo(IndexAt(before, kind), IndexAt(after, kind), name, KeysOf(kind, header, actors))
  }

  /** `AddName` adds `name` under `key` only. */
  lemma AddedSteps(before: Index, after: Index, key: u16, name: string)
    requires AddedUnder(before, after, key, name)
    ensures StepsTo(before, after, name, {key})
  {
    forall k: u16 ensures Lookup(after, k) == AddIf(Lookup(before, k), name, k in {key}) {
      if k != key {
        assert (k in after <==> k in before) && (k in before ==> after[k] == before[k]);
      }
    }
  }

  /** An extension that files nothing but `name` under `keys`, lists it under
      each of them and keeps its lists duplicate-free appends `name` exactly
      where it shows a key and is new. */
  lemma FiledSteps(before: Index, after: Index, name: string, keys: set<u16>)
    requires Extends(before, after) && Filed(before, after, name, keys) && IndexOk(after)
    requires forall k :: k in keys ==> k in after && name in after[k]
    ensures StepsTo(before, after, name, keys)
  {
    forall k: u16 ensures Lookup(after, k) == AddIf(Lookup(before, k), name, k in keys) {
      var b, a := Lookup(before, k), Lookup(after, k);
      if k in after {
        assert b <= a;
        // every element past the old list is `name`, under a key of `keys`
        forall j | |b| <= j < |a| ensures a[j] == name && k in keys {
          assert a[j] in after[k];
          if k in before && a[j] in before[k] {
            assert false;
          }
        }
        if k in keys && name !in b {
          assert name in after[k];
        }
        AppendedOnce(b, a, name, k in keys);
      }
    }
  }

  lemma DistinctAt(s: seq<string>, i: nat, j: nat)
    requires NoDuplicates(s) && i < j < |s|
    ensures s[i] != s[j]
  {
  }

  /** A duplicate-free extension of `b` whose new elements are all `name`,
      and which holds `name` when it should, is `AddIf(b, name, shows)`. */
  lemma AppendedOnce(b: seq<string>, a: seq<string>, name: string, shows: bool)
    requires b <= a && NoDuplicates(a)
    requires forall j :: |b| <= j < |a| ==> a[j] == name && shows
    requires shows && name !in b ==> name in a
    ensures a == AddIf(b, name, shows)
  {
    if |a| == |b| {
      assert a == b;
    } else {
      assert a[|b|] == name;
      if |a| > |b| + 1 {
        DistinctAt(a, |b|, |b| + 1);
        assert false;
      }
      assert a == b + [name];
    }
  }

  /** The index updates of `insert`, key by key. */
  lemma FiledUnderSteps(before: MapDB, after: MapDB, name: string, header: MapHeader, actors: seq<ActorRecord>)
    requires FiledUnder(before, after, name, header, actors) && DBOk(after)
    ensures IndicesStep(before, after, name, header, actors)
  {
    forall kind ensures StepsTo(IndexAt(before, kind), IndexAt(after, kind), name, KeysOf(kind, header, actors)) {
      match kind
      case ActorIndex => FiledSteps(before.indexActor, after.indexActor, name, RealKeys(actors));
      case SpecialActorIndex => FiledSteps(before.indexSpecialActor, after.indexSpecialActor, name, SpecialKeys(actors));
      case BackdropIndex => AddedSteps(before.indexBackdrop, after.indexBackdrop, header.backdropId, name);
      case MusicIndex => AddedSteps(before.indexMusic, after.indexMusic, header.musicId, name);
      case PaletteAnimationIndex =>
        AddedSteps(before.indexPaletteAnimation, after.indexPaletteAnimation, header.paletteAnimationId, name);
    }
  }

  /** Inserting the map of `names[n]` keeps every index equal to the
      reference one. */
  lemma IndicesExpectedStep(db: MapDB, db': MapDB, files: map<string, seq<byte>>, names: seq<string>, n: nat)
    requires n < |names| && forall i :: 0 <= i <= n ==> names[i] in files
    requires IndicesExpected(db, files, names, n)
    requires var m := DecodeMapFile(files[names[n]]);
      IndicesStep(db, db', NormalizeGroupentName(names[n]), m.header, m.actors)
    ensures IndicesExpected(db', files, names, n + 1)
  {
    var m := DecodeMapFile(files[names[n]]);
    forall kind, k ensures Lookup(IndexAt(db', kind), k) == Expected(files, names, n + 1, kind, k) {
      assert StepsTo(IndexAt(db, kind), IndexAt(db', kind), NormalizeGroupentName(names[n]), KeysOf(kind, m.header, m.actors));
    }
  }

  /** One iteration of the manifest loop: decode the file and insert it
      under `name`. */
  method LoadMap(db: MapDB, name: string, s: seq<byte>) returns (r: Result<MapDB>)
    ensures r.Ok? <==> Decodable(s)
    ensures r.Err? ==> r.error == ZeroDivision
    ensures r.Ok? ==> |r.value.table| == |db.table| + 1 && r.value.table[..|db.table|] == db.table
    ensures r.Ok? ==> r.value.table[|db.table|].mapName == name
    ensures r.Ok? ==> var m := DecodeMapFile(s);
              && RowDescribes(r.value.table[|db.table|], name, m.header, m.actors, m.tiles)
              && FiledUnder(db, r.value, name, m.header, m.actors)
    ensures r.Ok? ==> ExtendsAll(db, r.value) && Recorded(r.value, |db.table|, name, s)
    ensures r.Ok? && DBOk(db) ==> DBOk(r.value)
    ensures r.Ok? && DBOk(db) ==> var m := DecodeMapFile(s); IndicesStep(db, r.value, name, m.header, m.actors)
  {
    var m := DecodeMapFile(s);
    r := Insert(db, name, m.header, m.actors, m.tiles);
    if r.Ok? && DBOk(db) {
      FiledUnderSteps(db, r.value, name, m.header, m.actors);
    }
  }

  /** `parse_map_data` over a list of manifest names: one row per file, in
      order, named by its normalised file name and describing that file;
      every index lists every map under its keys. Fails on the first
      missing file or zero-width map. */
  method ParseMaps(files: map<string, seq<byte>>, names: seq<string>) returns (r: Result<MapDB>)
    ensures r.Ok? <==> forall i :: 0 <= i < |names| ==> names[i] in files && Decodable(files[names[i]])
    ensures r.Err? ==> exists k :: FailsAt(files, names, k, r.error)
    ensures r.Ok? ==> |r.value.table| == |names|
    ensures r.Ok? ==> forall i :: 0 <= i < |names| ==> r.value.table[i].mapName == NormalizeGroupentName(names[i])
    ensures r.Ok? ==> MapsRecorded(r.value, files, names, |names|)
    ensures r.Ok? ==> IndicesExpected(r.value, files, names, |names|)
    ensures r.Ok? ==> DBOk(r.value)
  {
    var db := EmptyDB;
    var k := 0;
    while k < |names|
      invariant k <= |names| && |db.table| == k
      invariant forall i :: 0 <= i < k ==> db.table[i].mapName == NormalizeGroupentName(names[i])
      invariant forall i :: 0 <= i < k ==> names[i] in files && Decodable(files[names[i]])
      invariant MapsRecorded(db, files, names, k)
      invariant IndicesExpected(db, files, names, k)
      invariant DBOk(db)
    {
      if names[k] !in files {
        assert FailsAt(files, names, k, FileNotFound(names[k]));
        return Err(FileNotFound(names[k]));
      }
      var next := LoadMap(db, NormalizeGroupentName(names[k]), files[names[k]]);
      if next.Err? {
        assert FailsAt(files, names, k, next.error);
        return Err(next.error);
      }
      MapsRecordedStep(db, next.value, files, names, k);
      IndicesExpectedStep(db, next.value, files, names, k);
      db := next.value;
      k := k + 1;
    }
    return Ok(db);
  }

  /** `parse_map_data`: the maps of the fixed manifest, in manifest order,
      each row named by its file name without ".MNI" and describing that
      file, each listed in every index under its keys. */
  method ParseMapData(files: map<string, seq<byte>>) returns (r: Result<MapDB>)
    ensures r.Ok? <==> forall i :: 0 <= i < |MapFiles| ==> MapFiles[i] in files && Decodable(files[MapFiles[i]])
    ensures r.Err? ==> exists k :: FailsAt(files, MapFiles, k, r.error)
    ensures r.Ok? ==> |r.value.table| == |MapFiles|
    ensures r.Ok? ==> forall i :: 0 <= i < |MapFiles| ==>
              r.value.table[i].mapName == MapFiles[i][..|MapFiles[i]| - 4]
    ensures r.Ok? ==> MapsRecorded(r.value, files, MapFiles, |MapFiles|)
    ensures r.Ok? ==> IndicesExpected(r.value, files, MapFiles, |MapFiles|)
    ensures r.Ok? ==> DBOk(r.value)
  {
    r := ParseMaps(files, MapFiles);
    MapManifestWellFormed();
    forall i | 0 <= i < |MapFiles| ensures NormalizeGroupentName(MapFiles[i]) == MapFiles[i][..|MapFiles[i]| - 4] {
      ManifestNameNormalizes(MapFiles[i]);
    }
  }
}

=== FILE: music.dfy ===
/** Music decoder (scripts/datalib/music.py): a music file is a flat run of
    4-byte records whose bytes 2-3 hold a little-endian wait in timer
    cycles; the decoder counts the records and sums the waits. */
module MusicDecoder {
  import opened Wrappers
  import opened Bytes
  import opened Defs

  const RecordSize: nat := 4

  /** `int.from_bytes(data[pos + 2:pos + 4], 'little')`: a slice past the
      end is shortened or empty, and an empty slice reads as 0. */
  function Wait(data: seq<byte>, pos: nat): (w: nat)
    ensures w < 0x1_0000
    ensures pos + 4 <= |data| ==> w == U16(data, pos + 2)
    ensures pos + 3 == |data| ==> w == data[pos + 2] as nat
    ensures pos + 2 >= |data| ==> w == 0
  {
    if pos + 2 >= |data| then 0
    else if pos + 4 <= |data| then
      var field := data[pos + 2..pos + 4];
      assert LeValue(field) == U16(data, pos + 2) by {
        assert field[1..][1..] == [];
      }
      LeValue(field)
    else
      var field := data[pos + 2..];
      assert LeValue(field) == data[pos + 2] as nat by {
        assert field[1..] == [];
      }
      LeValue(field)
  }

  /** The reference definition: the waits of the records from `pos` on. */
  function CyclesFrom(data: seq<byte>, pos: nat): nat
    decreases |data| - pos
  {
    if pos >= |data| then 0 else Wait(data, pos) + CyclesFrom(data, pos + RecordSize)
  }

  /** The number of records from `pos` on: the remaining bytes divided by 4,
      rounded up. */
  function WritesFrom(data: seq<byte>, pos: nat): nat {
    if pos >= |data| then 0 else (|data| - pos + RecordSize - 1) / RecordSize
  }

  /** The record loop of `parse_music_data`. */
  method CountRecords(data: seq<byte>) returns (cycles: nat, writes: nat)
    ensures writes == (|data| + RecordSize - 1) / RecordSize
    ensures cycles == CyclesFrom(data, 0)
    ensures cycles <= 0xFFFF * writes
  {
    cycles, writes := 0, 0;
    var pos := 0;
    while pos < |data|
      invariant pos == RecordSize * writes
      invariant pos < |data| + RecordSize
      invariant cycles + CyclesFrom(data, pos) == CyclesFrom(data, 0)
      invariant writes + WritesFrom(data, pos) == WritesFrom(data, 0)
      invariant cycles <= 0xFFFF * writes
      decreases |data| - pos
    {
      var w := Wait(data, pos);
      cycles := cycles + w;
      writes := writes + 1;
      pos := pos + RecordSize;
    }
  }

  /** Bytes 0 and 1 of each record never matter: two files of one length
      that agree on bytes 2 and 3 of every record have the same cycles. */
  lemma {:induction false} CyclesIgnoreLowBytes(a: seq<byte>, b: seq<byte>, pos: nat)
    requires |a| == |b| && pos % RecordSize == 0
    requires forall p :: pos <= p < |a| && p % RecordSize >= 2 ==> a[p] == b[p]
    ensures CyclesFrom(a, pos) == CyclesFrom(b, pos)
    decreases |a| - pos
  {
    if pos < |a| {
      if pos + 2 < |a| {
        var hi := if pos + 4 <= |a| then pos + 4 else |a|;
        assert a[pos + 2..hi] == b[pos + 2..hi] by {
          forall p | pos + 2 <= p < hi ensures a[p] == b[p] {
            assert p % RecordSize == p - pos;
          }
        }
      }
      CyclesIgnoreLowBytes(a, b, pos + RecordSize);
    }
  }

  /** A trailing fragment of one or two bytes adds a record with no wait;
      one of three bytes adds its third byte as the wait. */
  lemma TrailingFragment(data: seq<byte>, pos: nat)
    requires pos < |data| < pos + RecordSize
    ensures CyclesFrom(data, pos) == if |data| - pos == 3 then data[pos + 2] as nat else 0
    ensures WritesFrom(data, pos) == 1
  {
  }

  /** `cycles_to_duration` without the formatting: whole minutes and the
      remaining seconds of a non-negative number of seconds. */
  function SplitSeconds(seconds: real): (r: (int, real))
    requires seconds >= 0.0
    ensures r.0 >= 0 && 0.0 <= r.1 < 60.0
    ensures r.0 as real * 60.0 + r.1 == seconds
  {
    var minutes := (seconds / 60.0).Floor;
    (minutes, seconds - minutes as real * 60.0)
  }

  /** 90.5 seconds is 1 minute and 30.5 seconds. */
  lemma SplitSecondsExample()
    ensures SplitSeconds(90.5) == (1, 30.5)
  {
    assert (90.5 / 60.0).Floor == 1;
  }

  /** The split is the only one with a remainder in [0, 60). */
  lemma SplitSecondsUnique(seconds: real, m: int, rest: real)
    requires seconds >= 0.0 && 0.0 <= rest < 60.0 && m as real * 60.0 + rest == seconds
    ensures SplitSeconds(seconds) == (m, rest)
  {
    var q := seconds / 60.0;
    assert q == m as real + rest / 60.0;
    assert 0.0 <= rest / 60.0 < 1.0;
    assert q.Floor == m;
  }

  datatype MusicRow = MusicRow(musicName: string, cycles: nat, writes: nat, duration: (int, real))

  /** The row `parse_music_data` builds for the music file `file` whose
      bytes are `data`. */
  predicate RowDescribes(row: MusicRow, file: string, data: seq<byte>) {
    && row.musicName == NormalizeGroupentName(file)
    && row.cycles == CyclesFrom(data, 0)
    && row.writes == (|data| + RecordSize - 1) / RecordSize
    && row.cycles <= 0xFFFF * row.writes
    && row.duration == CyclesToDuration(row.cycles)
  }

  /** The duration of `cycles` timer cycles at the corrected music rate. */
  function CyclesToDuration(cycles: nat): (d: (int, real))
    ensures d.0 >= 0 && 0.0 <= d.1 < 60.0
    ensures d.0 as real * 60.0 + d.1 == cycles as real / MusicRateHz
  {
    assert MusicRateHz > 0.0;
    SplitSeconds(cycles as real / MusicRateHz)
  }

  /** The loop of `parse_music_data` over the file names `names`. */
  method ParseMusic(files: map<string, seq<byte>>, names: seq<string>) returns (r: Result<seq<MusicRow>>)
    ensures r.Ok? <==> forall i :: 0 <= i < |names| ==> names[i] in files
    ensures r.Ok? ==> |r.value| == |names|
    ensures r.Ok? ==> forall i :: 0 <= i < |names| ==> RowDescribes(r.value[i], names[i], files[names[i]])
    ensures r.Err? ==> exists i :: 0 <= i < |names| && r == Err(FileNotFound(names[i]))
    ensures r.Err? ==> exists k: nat :: FirstMissing(files, names, k) && r.error == FileNotFound(names[k])
  {
    var table: seq<MusicRow> := [];
    var k := 0;
    while k < |names|
      invariant k <= |names| && |table| == k
      invariant forall i :: 0 <= i < k ==> names[i] in files
      invariant forall i :: 0 <= i < k ==> RowDescribes(table[i], names[i], files[names[i]])
    {
      var file := names[k];
      if file !in files {
        assert FirstMissing(files, names, k);
        return Err(FileNotFound(file));
      }
      var cycles, writes := CountRecords(files[file]);
      table := table + [MusicRow(NormalizeGroupentName(file), cycles, writes, CyclesToDuration(cycles))];
      k := k + 1;
    }
    return Ok(table);
  }

  /** `parse_music_data`: one row per music file, in manifest order, named
      after the file without its extension. */
  method ParseMusicData(files: map<string, seq<byte>>) returns (r: Result<seq<MusicRow>>)
    ensures r.Ok? <==> forall i :: 0 <= i < |MusicFiles| ==> MusicFiles[i] in files
    ensures r.Err? ==> exists k: nat :: FirstMissing(files, MusicFiles, k) && r.error == FileNotFound(MusicFiles[k])
    ensures r.Ok? ==> |r.value| == |MusicFiles|
    ensures r.Ok? ==> forall i :: 0 <= i < |MusicFiles| ==>
              RowDescribes(r.value[i], MusicFiles[i], files[MusicFiles[i]])
              && r.value[i].musicName == MusicFiles[i][..|MusicFiles[i]| - 4]
  {
    r := ParseMusic(files, MusicFiles);
    MusicManifestWellFormed();
    forall i | 0 <= i < |MusicFiles| ensures NormalizeGroupentName(MusicFiles[i]) == MusicFiles[i][..|MusicFiles[i]| - 4] {
      ManifestNameNormalizes(MusicFiles[i]);
    }
  }
}

=== FILE: renumber.dfy ===
/** Weight renumbering (scripts/renumber.py): each article's TOML front
    matter, fenced by `+++` lines, carries a `weight = N` line. The script
    refuses to go on while an article has no weight or two articles share
    one, and otherwise rewrites the weights as 10, 20, 30, … in the order
    of the old weights. */
module Renumber {
  import opened Wrappers
  import opened Strings
  import opened SortedKeys

  const WeightStride: nat := 10
  const Marker: string := "+++"
  const WeightKey: string := "weight"

  // ---- the weight line ------------------------------------------------------

  /** The text after the leading whitespace and the key `weight`, in any
      case. */
  function AfterKey(line: string): Option<string> {
    var s := SkipSpace(line);
    if |s| >= |WeightKey| && ToLower(s[..|WeightKey|]) == WeightKey then Some(s[|WeightKey|..]) else None
  }

  /** The text after optional whitespace and `=`. */
  function AfterEquals(s: string): Option<string> {
    var e := SkipSpace(s);
    if |e| > 0 && e[0] == '=' then Some(e[1..]) else None
  }

  /** The value of the digits after optional whitespace; what follows them
      is ignored. */
  function LeadingNumber(s: string): Option<nat> {
    var d := DigitPrefix(SkipSpace(s));
    if |d| == 0 then None else Some(DigitsValue(d))
  }

  /** `WEIGHT_RE.match(line)`: optional whitespace, `weight` in any case,
      optional whitespace, `=`, optional whitespace, then the digits whose
      value is the weight. */
  function WeightMatch(line: string): (r: Option<nat>)
    ensures r.Some? ==> var s := SkipSpace(line);
              |s| > |WeightKey| && ToLower(s[..|WeightKey|]) == WeightKey
  {
    match AfterKey(line)
    case None => None
    case Some(s) =>
      match AfterEquals(s)
      case None => None
      case Some(e) => LeadingNumber(e)
  }

  /** The line `set_weight` writes. */
  function WeightText(w: nat): string {
    "weight = " + NatToString(w)
  }

  lemma {:induction false} KeyOfWeightText(n: string)
    ensures AfterKey("weight = " + n) == Some(" = " + n)
  {
    var line := "weight = " + n;
    assert line[0] == 'w' && !IsSpace(line[0]);
    assert SkipSpace(line) == line;
    var p := line[..|WeightKey|];
    assert p == WeightKey;
    assert ToLower(p) == WeightKey by {
      forall i | 0 <= i < |p| ensures ToLower(p)[i] == WeightKey[i] {
        assert !IsUpper(p[i]);
      }
    }
    assert line[|WeightKey|..] == " = " + n;
  }

  lemma {:induction false} EqualsOfWeightText(n: string)
    ensures AfterEquals(" = " + n) == Some(" " + n)
  {
    var s := " = " + n;
    assert s[1..] == "= " + n;
    assert SkipSpace(s) == "= " + n by {
      assert IsSpace(s[0]) && !IsSpace(s[1]);
      assert SkipSpace(s[1..]) == s[1..];
    }
    assert ("= " + n)[1..] == " " + n;
  }

  lemma {:induction false} NumberOfWeightText(n: string)
    requires |n| > 0 && AllDigits(n)
    ensures LeadingNumber(" " + n) == Some(DigitsValue(n))
  {
    var s := " " + n;
    assert s[1..] == n;
    assert IsDigit(n[0]) && !IsSpace(n[0]);
    assert SkipSpace(n) == n;
    assert SkipSpace(s) == n;
    DigitPrefixAll(n);
  }

  /** The line `set_weight` writes is read back as the weight it holds. */
  lemma {:induction false} WeightTextRoundTrip(w: nat)
    ensures WeightMatch(WeightText(w)) == Some(w)
  {
    var n := NatToString(w);
    KeyOfWeightText(n);
    EqualsOfWeightText(n);
    NumberOfWeightText(n);
    NatToStringRoundTrip(w);
  }

  /** A string of digits is its own digit prefix. */
  lemma {:induction false} DigitPrefixAll(s: string)
    requires AllDigits(s)
    ensures DigitPrefix(s) == s
    decreases |s|
  {
    if |s| > 0 {
      DigitPrefixAll(s[1..]);
      assert s == [s[0]] + s[1..];
    }
  }

  /** A line whose first non-blank character is not `w` or `W` is no
      weight line; the front-matter fence is one. */
  lemma {:induction false} NoKeyNoWeight(line: string)
    requires |SkipSpace(line)| == 0 || LowerChar(SkipSpace(line)[0]) != 'w'
    ensures WeightMatch(line) == None
  {
    var s := SkipSpace(line);
    if |s| >= |WeightKey| {
      assert ToLower(s[..|WeightKey|])[0] == LowerChar(s[0]);
    }
  }

  lemma MarkerIsNoWeight()
    ensures WeightMatch(Marker) == None
  {
    assert !IsSpace(Marker[0]);
    assert SkipSpace(Marker) == Marker;
    NoKeyNoWeight(Marker);
  }

  // ---- reading an article ---------------------------------------------------

  /** What `read_weight` sees in a line: a fence, a weight line, or
      neither. The fence test comes first, as in the loop. */
  datatype LineKind = Fence | WeightAt(weight: nat) | Plain

  function Classify(line: string): (k: LineKind)
    ensures k.Fence? <==> line == Marker
    ensures k.WeightAt? ==> WeightMatch(line) == Some(k.weight)
    ensures k.Plain? ==> WeightMatch(line) == None
  {
    if line == Marker then Fence
    else
      match WeightMatch(line)
      case Some(w) => WeightAt(w)
      case None => Plain
  }

  /** The lines of an article, each classified. */
  function Kinds(lines: seq<string>): (ks: seq<LineKind>)
    ensures |ks| == |lines|
  {
    seq(|lines|, i requires 0 <= i < |lines| => Classify(lines[i]))
  }

  /** The weight found and the index of its line. */
  datatype WeightLine = WeightLine(weight: nat, index: nat)

  /** The number of fence lines before line `i`. */
  function MarkersBefore(ks: seq<LineKind>, i: nat): nat
    requires i <= |ks|
  {
    if i == 0 then 0
    else MarkersBefore(ks, i - 1) + (if ks[i - 1].Fence? then 1 else 0)
  }

  /** Line `i` lies inside front matter: an odd number of fences precede it. */
  predicate InFront(ks: seq<LineKind>, i: nat)
    requires i <= |ks|
  {
    MarkersBefore(ks, i) % 2 == 1
  }

  /** Line `k` is a weight line inside front matter. */
  predicate Candidate(ks: seq<LineKind>, k: nat) {
    k < |ks| && ks[k].WeightAt? && InFront(ks, k)
  }

  /** The loop of `read_weight` from line `i`, with the front-matter flag
      it has reached. */
  function ReadFrom(ks: seq<LineKind>, i: nat, inFront: bool): (r: Option<WeightLine>)
    ensures r.Some? ==> i <= r.value.index < |ks| && ks[r.value.index] == WeightAt(r.value.weight)
    decreases |ks| - i
  {
    if i >= |ks| then None
    else if ks[i].Fence? then ReadFrom(ks, i + 1, !inFront)
    else if inFront && ks[i].WeightAt? then Some(WeightLine(ks[i].weight, i))
    else ReadFrom(ks, i + 1, inFront)
  }

  /** `read_weight`. */
  function ReadWeight(lines: seq<string>): (r: Option<WeightLine>)
    ensures r.Some? ==> r.value.index < |lines|
    ensures r.Some? ==> lines[r.value.index] != Marker && WeightMatch(lines[r.value.index]) == Some(r.value.weight)
  {
    ReadFrom(Kinds(lines), 0, false)
  }

  /** The loop stops on the first weight line inside front matter, and
      finds nothing when there is none. */
  lemma {:induction false} ReadFromSpec(ks: seq<LineKind>, i: nat)
    requires i <= |ks|
    ensures ReadFrom(ks, i, InFront(ks, i)).None? <==>
              forall k :: i <= k < |ks| ==> !Candidate(ks, k)
    ensures ReadFrom(ks, i, InFront(ks, i)).Some? ==>
              var f := ReadFrom(ks, i, InFront(ks, i)).value;
              && Candidate(ks, f.index)
              && ks[f.index] == WeightAt(f.weight)
              && forall k :: i <= k < f.index ==> !Candidate(ks, k)
    decreases |ks| - i
  {
    if i < |ks| {
      assert MarkersBefore(ks, i + 1) == MarkersBefore(ks, i) + (if ks[i].Fence? then 1 else 0);
      if !(ks[i].WeightAt? && InFront(ks, i)) {
        assert !Candidate(ks, i);
        assert InFront(ks, i + 1) == (if ks[i].Fence? then !InFront(ks, i) else InFront(ks, i));
        ReadFromSpec(ks, i + 1);
      } else {
        assert Candidate(ks, i);
      }
    }
  }

  /** `read_weight` records the first weight line inside front matter, or
      nothing: the line is no fence, lies inside front matter, and matches
      the weight pattern with the recorded weight. */
  lemma {:induction false} ReadWeightSpec(lines: seq<string>)
    ensures ReadWeight(lines).None? <==> forall k :: 0 <= k < |lines| ==> !Candidate(Kinds(lines), k)
    ensures ReadWeight(lines).Some? ==>
              var f := ReadWeight(lines).value;
              && Candidate(Kinds(lines), f.index)
              && lines[f.index] != Marker
              && WeightMatch(lines[f.index]) == Some(f.weight)
              && forall k :: 0 <= k < f.index ==> !Candidate(Kinds(lines), k)
  {
    var ks := Kinds(lines);
    assert !InFront(ks, 0);
    ReadFromSpec(ks, 0);
  }

  /** The fences before line `i` depend only on the lines before it. */
  lemma {:induction false} MarkersPrefix(a: seq<LineKind>, b: seq<LineKind>, i: nat)
    requires i <= |a| && i <= |b|
    requires forall j :: 0 <= j < i ==> a[j] == b[j]
    ensures MarkersBefore(a, i) == MarkersBefore(b, i)
    decreases i
  {
    if i > 0 {
      MarkersPrefix(a, b, i - 1);
    }
  }

  // ---- articles -------------------------------------------------------------

  datatype ArticleData = Article(path: string, lines: seq<string>, found: Option<WeightLine>) {
    /** `has_weight`. */
    predicate HasWeight() {
      found.Some?
    }
  }

  /** An article whose recorded weight line lies within its text. */
  type Article = a: ArticleData | a.found.Some? ==> a.found.value.index < |a.lines|
    witness Article("", [], None)

  /** `Article(path)` over the file's lines. */
  function LoadArticle(path: string, lines: seq<string>): (a: Article)
    ensures a.path == path && a.lines == lines
    ensures a.HasWeight() <==> exists k :: 0 <= k < |lines| && Candidate(Kinds(lines), k)
  {
    var found := ReadWeight(lines);
    assert found.None? <==> forall k :: 0 <= k < |lines| ==> !Candidate(Kinds(lines), k) by {
      ReadWeightSpec(lines);
    }
    Article(path, lines, found)
  }

  /** The article's weight record is what reading its lines gives. */
  predicate Loaded(a: Article) {
    a.found == ReadWeight(a.lines)
  }

  /** `set_weight`: the new weight, and its text on the recorded line. */
  function SetWeight(a: Article, w: nat): (r: Article)
    requires a.HasWeight()
    ensures r.path == a.path && |r.lines| == |a.lines|
    ensures r.found == Some(WeightLine(w, a.found.value.index))
    ensures r.lines[a.found.value.index] == WeightText(w)
    ensures forall k :: 0 <= k < |a.lines| && k != a.found.value.index ==> r.lines[k] == a.lines[k]
  {
    var k := a.found.value.index;
    Article(a.path, a.lines[k := WeightText(w)], Some(WeightLine(w, k)))
  }

  /** Reading a renumbered article back finds the new weight on the same
      line. */
  lemma {:induction false} SetWeightRereads(a: Article, w: nat)
    requires Loaded(a) && a.HasWeight()
    ensures Loaded(SetWeight(a, w))
  {
    var k := a.found.value.index;
    var b := SetWeight(a, w);
    var ka, kb := Kinds(a.lines), Kinds(b.lines);
    ReadWeightSpec(a.lines);
    forall j | 0 <= j < k ensures ka[j] == kb[j] {
      assert b.lines[j] == a.lines[j];
    }
    MarkersPrefix(ka, kb, k);
    assert kb[k] == WeightAt(w) by {
      WeightTextRoundTrip(w);
      MarkerIsNoWeight();
    }
    assert Candidate(kb, k);
    forall j | 0 <= j < k ensures !Candidate(kb, j) {
      MarkersPrefix(ka, kb, j);
      assert !Candidate(ka, j);
    }
    ReadWeightSpec(b.lines);
  }

  // ---- the group --------------------------------------------------------------

  /** `ArticleGroup`: the articles in the order added, and the weight table
      listing, for each weight, the articles that carry it. */
  datatype Group = Group(articles: seq<Article>, table: map<nat, seq<Article>>)

  const EmptyGroup := Group([], map[])

  function WeightOf(a: Article): nat
    requires a.HasWeight()
  {
    a.found.value.weight
  }

  /** The weights the articles carry. */
  function Weights(articles: seq<Article>): set<nat> {
    if |articles| == 0 then {}
    else
      var last := articles[|articles| - 1];
      Weights(articles[..|articles| - 1]) + (if last.HasWeight() then {WeightOf(last)} else {})
  }

  /** The articles of weight `w`, in the order added. */
  function WithWeight(articles: seq<Article>, w: nat): (r: seq<Article>)
    ensures forall a :: a in r ==> a in articles && a.HasWeight() && WeightOf(a) == w
    decreases |articles|
  {
    if |articles| == 0 then []
    else
      var last := articles[|articles| - 1];
      WithWeight(articles[..|articles| - 1], w) + (if last.HasWeight() && WeightOf(last) == w then [last] else [])
  }

  /** A weight is carried exactly when some article is listed under it. */
  lemma {:induction false} WithWeightEmpty(articles: seq<Article>, w: nat)
    ensures w in Weights(articles) <==> |WithWeight(articles, w)| > 0
    decreases |articles|
  {
    if |articles| > 0 {
      WithWeightEmpty(articles[..|articles| - 1], w);
    }
  }

  /** An article with a weight is listed under it. */
  lemma {:induction false} WithWeightHas(articles: seq<Article>, i: nat)
    requires i < |articles| && articles[i].HasWeight()
    ensures articles[i] in WithWeight(articles, WeightOf(articles[i]))
    decreases |articles|
  {
    var init := articles[..|articles| - 1];
    if i < |init| {
      assert articles[i] == init[i];
      WithWeightHas(init, i);
    }
  }

  /** The reference weight table of a list of articles. */
  function Tabulate(articles: seq<Article>): map<nat, seq<Article>> {
    map w | w in Weights(articles) :: WithWeight(articles, w)
  }

  /** The table agrees with the articles. */
  predicate Tabulated(g: Group) {
    g.table == Tabulate(g.articles)
  }

  /** An entry of a tabulated group lists articles of the group that
      carry its weight, and at least one. */
  lemma {:induction false} TableEntry(g: Group, w: nat)
    requires Tabulated(g) && w in g.table
    ensures g.table[w] == WithWeight(g.articles, w) && |g.table[w]| > 0
  {
    WithWeightEmpty(g.articles, w);
  }

  /** `ArticleGroup.add`. */
  function Add(g: Group, a: Article): (r: Group)
    ensures r.articles == g.articles + [a]
    ensures !a.HasWeight() ==> r.table == g.table
    ensures a.HasWeight() ==> r.table.Keys == g.table.Keys + {WeightOf(a)}
  {
    if a.HasWeight() then
      var w := WeightOf(a);
      var bucket := if w in g.table then g.table[w] else [];
      Group(g.articles + [a], g.table[w := bucket + [a]])
    else Group(g.articles + [a], g.table)
  }

  /** Adding keeps the table in step with the articles. */
  lemma {:induction false} AddTabulates(g: Group, a: Article)
    requires Tabulated(g)
    ensures Tabulated(Add(g, a))
  {
    var arts := g.articles + [a];
    assert arts[..|arts| - 1] == g.articles;
    var r := Add(g, a);
    var t := Tabulate(arts);
    assert Weights(arts) == Weights(g.articles) + (if a.HasWeight() then {WeightOf(a)} else {});
    assert r.table.Keys == t.Keys;
    forall w | w in t ensures r.table[w] == t[w] {
      assert t[w] == WithWeight(g.articles, w) + (if a.HasWeight() && WeightOf(a) == w then [a] else []);
      if w !in g.table {
        WithWeightEmpty(g.articles, w);
      }
    }
  }

  /** The group after adding `articles` in order to an empty group. */
  function AddAll(articles: seq<Article>): (g: Group)
    ensures g.articles == articles
  {
    if |articles| == 0 then EmptyGroup
    else Add(AddAll(articles[..|articles| - 1]), articles[|articles| - 1])
  }

  /** Adding the articles one by one builds the reference table. */
  lemma {:induction false} AddAllTabulates(articles: seq<Article>)
    ensures Tabulated(AddAll(articles))
    decreases |articles|
  {
    if |articles| == 0 {
      assert Tabulate([]) == map[];
    } else {
      AddAllTabulates(articles[..|articles| - 1]);
      AddTabulates(AddAll(articles[..|articles| - 1]), articles[|articles| - 1]);
    }
  }

  // ---- the three reports -------------------------------------------------------

  /** `get_incompletes`: the articles without a weight, in the order added. */
  function Incompletes(articles: seq<Article>): (r: seq<Article>)
    ensures forall i :: 0 <= i < |r| ==> r[i] in articles && !r[i].HasWeight()
    ensures forall i :: 0 <= i < |articles| && !articles[i].HasWeight() ==> articles[i] in r
  {
    if |articles| == 0 then []
    else
      var last := articles[|articles| - 1];
      assert articles == articles[..|articles| - 1] + [last];
      Incompletes(articles[..|articles| - 1]) + (if last.HasWeight() then [] else [last])
  }

  /** One more article adds itself to the list when it has no weight. */
  lemma IncompletesSnoc(s: seq<Article>, x: Article)
    ensures Incompletes(s + [x]) == Incompletes(s) + (if x.HasWeight() then [] else [x])
  {
    assert (s + [x])[..|s|] == s;
  }

  /** The step of `IncompletesAppend`: appending one article to `b`. */
  lemma IncompletesAppendStep(a: seq<Article>, b0: seq<Article>, x: Article)
    requires Incompletes(a + b0) == Incompletes(a) + Incompletes(b0)
    ensures Incompletes(a + (b0 + [x])) == Incompletes(a) + Incompletes(b0 + [x])
  {
    var ia, ib0 := Incompletes(a), Incompletes(b0);
    var t := if x.HasWeight() then [] else [x];
    calc {
      Incompletes(a + (b0 + [x]));
      { assert a + (b0 + [x]) == (a + b0) + [x]; }
      Incompletes((a + b0) + [x]);
      { IncompletesSnoc(a + b0, x); }
      (ia + ib0) + t;
      ia + (ib0 + t);
      { IncompletesSnoc(b0, x); }
      ia + Incompletes(b0 + [x]);
    }
  }

  /** `incompletes` yields in order: the list of a concatenation is the
      concatenation of the lists, and one article is listed exactly when it
      has no weight. */
  lemma {:induction false} IncompletesAppend(a: seq<Article>, b: seq<Article>)
    ensures Incompletes(a + b) == Incompletes(a) + Incompletes(b)
    ensures |b| == 1 ==> Incompletes(b) == (if b[0].HasWeight() then [] else b)
    decreases |b|
  {
    if |b| == 0 {
      assert a + b == a;
    } else {
      var b0, x := b[..|b| - 1], b[|b| - 1];
      assert b == b0 + [x];
      IncompletesAppend(a, b0);
      IncompletesAppendStep(a, b0, x);
      if |b| == 1 {
        assert b0 == [];
        IncompletesSnoc(b0, x);
      }
    }
  }

  /** One more than the largest weight: an upper bound of the table's keys. */
  function WeightBound(articles: seq<Article>): (b: nat)
    ensures forall w :: w in Weights(articles) ==> w < b
  {
    if |articles| == 0 then 0
    else
      var last := articles[|articles| - 1];
      var b0 := WeightBound(articles[..|articles| - 1]);
      if last.HasWeight() && WeightOf(last) >= b0 then WeightOf(last) + 1 else b0
  }

  /** `sorted(self.weight_table)`. */
  function SortedWeights(g: Group): (ws: seq<nat>)
    requires Tabulated(g)
    ensures forall w :: w in ws <==> w in g.table
    ensures forall i, j :: 0 <= i < j < |ws| ==> ws[i] < ws[j]
  {
    var keys: set<int> := set w | w in g.table :: w as int;
    var s := SortedBetween(keys, 0, WeightBound(g.articles));
    var ws := seq(|s|, i requires 0 <= i < |s| => s[i] as nat);
    assert forall w :: w in ws <==> w in g.table by {
      forall w: nat ensures w in ws <==> w in g.table {
        if w in g.table {
          assert w as int in keys;
          var i :| 0 <= i < |s| && s[i] == w as int;
          assert ws[i] == w;
        }
        if w in ws {
          var i :| 0 <= i < |ws| && ws[i] == w;
          assert s[i] in s;
        }
      }
    }
    ws
  }

  /** The conflicting weights among `ws`, in order, each with its articles. */
  function ConflictsAmong(table: map<nat, seq<Article>>, ws: seq<nat>): (r: seq<(nat, seq<Article>)>)
    requires forall w :: w in ws ==> w in table
    ensures forall p :: p in r <==> p.0 in ws && |table[p.0]| > 1 && p.1 == table[p.0]
    ensures forall i :: 0 <= i < |r| ==> exists j :: 0 <= j < |ws| && ws[j] == r[i].0
  {
    if |ws| == 0 then []
    else
      var init := ws[..|ws| - 1];
      var w := ws[|ws| - 1];
      assert ws == init + [w];
      ConflictsAmong(table, init) + (if |table[w]| > 1 then [(w, table[w])] else [])
  }

  /** `get_conflicts`: each weight held by more than one article, with the
      articles that hold it. */
  function Conflicts(g: Group): (r: seq<(nat, seq<Article>)>)
    requires Tabulated(g)
    ensures forall p :: p in r <==> p.0 in g.table && |g.table[p.0]| > 1 && p.1 == g.table[p.0]
  {
    ConflictsAmong(g.table, SortedWeights(g))
  }

  /** The conflicts come out in ascending weight order. */
  lemma {:induction false} ConflictsAscending(table: map<nat, seq<Article>>, ws: seq<nat>)
    requires forall w :: w in ws ==> w in table
    requires forall i, j :: 0 <= i < j < |ws| ==> ws[i] < ws[j]
    ensures forall i, j :: 0 <= i < j < |ConflictsAmong(table, ws)| ==>
              ConflictsAmong(table, ws)[i].0 < ConflictsAmong(table, ws)[j].0
    decreases |ws|
  {
    if |ws| > 0 {
      var init := ws[..|ws| - 1];
      var w := ws[|ws| - 1];
      ConflictsAscending(table, init);
      var r0 := ConflictsAmong(table, init);
      forall i | 0 <= i < |r0| ensures r0[i].0 < w {
        var j :| 0 <= j < |init| && init[j] == r0[i].0;
      }
      AscendingSnoc(r0, if |table[w]| > 1 then [(w, table[w])] else [], w);
    }
  }

  /** Appending at most one entry above every key keeps the keys ascending. */
  lemma AscendingSnoc(r0: seq<(nat, seq<Article>)>, tail: seq<(nat, seq<Article>)>, w: nat)
    requires forall i, j :: 0 <= i < j < |r0| ==> r0[i].0 < r0[j].0
    requires forall i :: 0 <= i < |r0| ==> r0[i].0 < w
    requires |tail| <= 1 && forall i :: 0 <= i < |tail| ==> tail[i].0 == w
    ensures forall i, j :: 0 <= i < j < |r0 + tail| ==> (r0 + tail)[i].0 < (r0 + tail)[j].0
  {
  }

  /** No weight is shared. */
  predicate NoConflicts(g: Group) {
    forall w :: w in g.table ==> |g.table[w]| == 1
  }

  /** `get_conflicts` reports nothing exactly when no weight is shared. */
  lemma {:induction false} ConflictsEmpty(g: Group)
    requires Tabulated(g)
    ensures |Conflicts(g)| == 0 <==> NoConflicts(g)
  {
    var c := Conflicts(g);
    if |c| > 0 {
      assert c[0] in c;
    }
    forall w | w in g.table ensures |g.table[w]| > 0 {
      WithWeightEmpty(g.articles, w);
    }
    if !NoConflicts(g) {
      var w :| w in g.table && |g.table[w]| != 1;
      assert (w, g.table[w]) in c;
    }
  }

  /** `get_usable`: the one article of each weight, in ascending weight
      order; the `assert` of the source is its precondition. */
  function Usable(g: Group): (r: seq<Article>)
    requires Tabulated(g) && NoConflicts(g)
    ensures |r| == |SortedWeights(g)|
    ensures forall i :: 0 <= i < |r| ==> r[i].HasWeight() && WeightOf(r[i]) == SortedWeights(g)[i]
    ensures forall i :: 0 <= i < |r| ==> r[i] in g.articles
  {
    var ws := SortedWeights(g);
    var r := seq(|ws|, i requires 0 <= i < |ws| => g.table[ws[i]][0]);
    assert forall i :: 0 <= i < |r| ==> r[i].HasWeight() && WeightOf(r[i]) == ws[i] && r[i] in g.articles by {
      forall i | 0 <= i < |r| ensures r[i].HasWeight() && WeightOf(r[i]) == ws[i] && r[i] in g.articles {
        TableEntry(g, ws[i]);
        assert r[i] in g.table[ws[i]];
      }
    }
    r
  }

  /** Every weighted article is among the usable ones. */
  lemma {:induction false} UsableComplete(g: Group, a: Article)
    requires Tabulated(g) && NoConflicts(g) && a in g.articles && a.HasWeight()
    ensures a in Usable(g)
  {
    var w := WeightOf(a);
    var i :| 0 <= i < |g.articles| && g.articles[i] == a;
    WithWeightHas(g.articles, i);
    WithWeightEmpty(g.articles, w);
    assert w in g.table;
    var ws := SortedWeights(g);
    var j :| 0 <= j < |ws| && ws[j] == w;
    assert g.table[w] == [g.table[w][0]];
    assert Usable(g)[j] == a;
  }

  // ---- main ------------------------------------------------------------------

  /** The loaded group can be renumbered: no article lacks a weight and no
      weight is shared. */
  predicate Renumberable(g: Group)
    requires Tabulated(g)
  {
    (forall a :: a in g.articles ==> a.HasWeight()) && NoConflicts(g)
  }

  /** The renumbering loop: the k-th usable article gets weight 10·(k+1). */
  method ApplyStride(usable: seq<Article>) returns (out: seq<Article>)
    requires forall k :: 0 <= k < |usable| ==> usable[k].HasWeight()
    ensures |out| == |usable|
    ensures forall k :: 0 <= k < |out| ==> out[k] == SetWeight(usable[k], WeightStride * (k + 1))
  {
    out := [];
    var k := 0;
    while k < |usable|
      invariant k <= |usable| && |out| == k
      invariant forall m :: 0 <= m < k ==> out[m] == SetWeight(usable[m], WeightStride * (m + 1))
    {
      out := out + [SetWeight(usable[k], WeightStride * (k + 1))];
      k := k + 1;
    }
  }

  /** Every renumbered article reads back its new weight. */
  lemma {:induction false} StrideRereads(usable: seq<Article>, out: seq<Article>)
    requires forall k :: 0 <= k < |usable| ==> usable[k].HasWeight()
    requires forall k {:trigger Loaded(usable[k])} :: 0 <= k < |usable| ==> Loaded(usable[k])
    requires |out| == |usable|
    requires forall k :: 0 <= k < |out| ==> out[k] == SetWeight(usable[k], WeightStride * (k + 1))
    ensures forall k {:trigger Loaded(out[k])} :: 0 <= k < |out| ==> Loaded(out[k])
  {
    forall k | 0 <= k < |out| ensures Loaded(out[k]) {
      assert Loaded(usable[k]);
      SetWeightRereads(usable[k], WeightStride * (k + 1));
    }
  }

  /** Two lists of articles put their weights in the same order. */
  predicate SameOrder(a: seq<Article>, b: seq<Article>) {
    forall i, j ::
      (0 <= i < |a| && 0 <= j < |a| && i < |b| && j < |b|
       && a[i].HasWeight() && a[j].HasWeight() && b[i].HasWeight() && b[j].HasWeight()) ==>
      (WeightOf(a[i]) < WeightOf(a[j]) <==> WeightOf(b[i]) < WeightOf(b[j]))
  }

  /** Weights 10, 20, 30, … given to articles in ascending weight order
      keep that order. */
  lemma {:induction false} StrideKeepsOrder(usable: seq<Article>, out: seq<Article>)
    requires forall k :: 0 <= k < |usable| ==> usable[k].HasWeight()
    requires forall i, j :: 0 <= i < j < |usable| ==> WeightOf(usable[i]) < WeightOf(usable[j])
    requires |out| == |usable|
    requires forall k :: 0 <= k < |out| ==> out[k] == SetWeight(usable[k], WeightStride * (k + 1))
    ensures SameOrder(usable, out)
  {
    forall i, j | 0 <= i < |usable| && 0 <= j < |usable|
      ensures WeightOf(usable[i]) < WeightOf(usable[j]) <==> WeightOf(out[i]) < WeightOf(out[j])
    {
      assert WeightOf(out[i]) == WeightStride * (i + 1) && WeightOf(out[j]) == WeightStride * (j + 1);
      if i < j {
        assert WeightOf(usable[i]) < WeightOf(usable[j]);
      } else if j < i {
        assert WeightOf(usable[j]) < WeightOf(usable[i]);
      }
    }
  }

  /** `out` is the usable articles of `g`, the k-th with weight 10·(k+1),
      each reading back its new weight, in the old weights' order. */
  predicate Renumbered(g: Group, out: seq<Article>)
    requires Tabulated(g) && NoConflicts(g)
  {
    var usable := Usable(g);
    && |out| == |usable|
    && (forall k :: 0 <= k < |out| ==> out[k] == SetWeight(usable[k], WeightStride * (k + 1)))
    && (forall k {:trigger Loaded(out[k])} :: 0 <= k < |out| ==> Loaded(out[k]))
    && SameOrder(usable, out)
  }

  /** The checks and the renumbering loop of `main`: `SafetyStop` when an
      article lacks a weight or a weight is shared; otherwise the usable
      articles with weights 10, 20, 30, … in the order of their old
      weights. */
  method Renumber(g: Group) returns (r: Result<seq<Article>>)
    requires Tabulated(g)
    requires forall a {:trigger Loaded(a)} :: a in g.articles ==> Loaded(a)
    ensures r.Ok? <==> Renumberable(g)
    ensures r.Err? ==> r.error == SafetyStop
    ensures r.Ok? ==> Renumbered(g, r.value)
  {
    var missing := Incompletes(g.articles);
    if |missing| > 0 {
      assert missing[0] in missing;
      return Err(SafetyStop);
    }
    var conflicts := Conflicts(g);
    ConflictsEmpty(g);
    if |conflicts| > 0 {
      return Err(SafetyStop);
    }
    var usable := Usable(g);
    forall k | 0 <= k < |usable| ensures Loaded(usable[k]) {
      assert usable[k] in g.articles;
    }
    var out := ApplyStride(usable);
    StrideRereads(usable, out);
    StrideKeepsOrder(usable, out);
    return Ok(out);
  }
}

=== FILE: sortedkeys.dfy ===
/** `sorted(d.keys())` for dictionaries keyed by integers below a known
    bound: the keys listed in ascending order, each once. */
module SortedKeys {

  predicate StrictlyAscending(s: seq<int>) {
    forall i, j :: 0 <= i < j < |s| ==> s[i] < s[j]
  }

  /** The members of `s` that lie in `[lo, hi)`, ascending. */
  function SortedBetween(s: set<int>, lo: int, hi: int): (r: seq<int>)
    ensures forall x :: x in r <==> x in s && lo <= x < hi
    ensures StrictlyAscending(r)
    ensures forall i :: 0 <= i < |r| ==> lo <= r[i] < hi
    decreases hi - lo
  {
    if lo >= hi then []
    else if lo in s then [lo] + SortedBetween(s, lo + 1, hi)
    else SortedBetween(s, lo + 1, hi)
  }

  /** All keys of a map whose keys lie in `[0, bound)`, ascending. */
  function Sorted<V>(m: map<int, V>, bound: nat): (r: seq<int>)
    requires forall k :: k in m ==> 0 <= k < bound
    ensures forall x :: x in r <==> x in m
    ensures StrictlyAscending(r)
  {
    SortedBetween(m.Keys, 0, bound)
  }
}

=== FILE: sound.dfy ===
/** Sound decoder (scripts/datalib/sound.py): a 16-byte header declaring
    `num_sounds`, then one 16-byte entry per sound. Each sound's size is
    found by scanning 2-byte chunks for an FF FF terminator, and the sounds
    the game loads get consecutive game indices across all three files. */
module SoundDecoder {
  import opened Wrappers
  import opened Bytes
  import opened Defs

  // ---- data size -----------------------------------------------------------

  /** A full FF FF chunk at `p`. */
  predicate SentinelAt(s: seq<byte>, p: nat) {
    p + 2 <= |s| && s[p] == 0xFF && s[p + 1] == 0xFF
  }

  /** `find_data_size`: the bytes read in 2-byte chunks from `pos` up to
      and including an FF FF chunk, or up to a short read at the end of the
      file. */
  function FindDataSize(s: seq<byte>, pos: nat): (n: nat)
    ensures pos >= |s| ==> n == 0
    ensures pos < |s| ==> 0 < n <= |s| - pos
    ensures n % 2 == 0 || pos + n == |s|
    ensures pos < |s| ==> pos + n == |s| || (n >= 2 && SentinelAt(s, pos + n - 2))
    ensures forall k: nat :: 2 * k + 2 < n ==> !SentinelAt(s, pos + 2 * k)
    decreases |s| - pos
  {
    if pos + 2 > |s| then (if pos < |s| then |s| - pos else 0)
    else if s[pos] == 0xFF && s[pos + 1] == 0xFF then 2
    else
      var rest := FindDataSize(s, pos + 2);
      assert forall k: nat :: 2 * k + 2 < 2 + rest ==> !SentinelAt(s, pos + 2 * k) by {
        forall k: nat | 2 * k + 2 < 2 + rest ensures !SentinelAt(s, pos + 2 * k) {
          if k > 0 {
            assert pos + 2 * k == pos + 2 + 2 * (k - 1);
          }
        }
      }
      2 + rest
  }

  /** The size is the distance to the end of the first terminator chunk at
      an even distance from `pos`, or to the end of the file if there is
      none: any other candidate size disagrees with the scan. */
  lemma {:induction false} FindDataSizeUnique(s: seq<byte>, pos: nat, m: nat)
    requires pos < |s| && 0 < m <= |s| - pos
    requires pos + m == |s| || (m >= 2 && m % 2 == 0 && SentinelAt(s, pos + m - 2))
    requires forall k: nat :: 2 * k + 2 < m ==> !SentinelAt(s, pos + 2 * k)
    requires m % 2 == 0 || pos + m == |s|
    ensures FindDataSize(s, pos) == m
    decreases |s| - pos
  {
    if pos + 2 <= |s| && !(s[pos] == 0xFF && s[pos + 1] == 0xFF) && m > 2 {
      forall k: nat | 2 * k + 2 < m - 2 ensures !SentinelAt(s, pos + 2 + 2 * k) {
        assert pos + 2 + 2 * k == pos + 2 * (k + 1);
      }
      FindDataSizeUnique(s, pos + 2, m - 2);
    } else if pos + 2 <= |s| && !(s[pos] == 0xFF && s[pos + 1] == 0xFF) {
      assert FindDataSize(s, pos + 2) == 0;
    } else if pos + 2 <= |s| {
      assert !(2 * 0 + 2 < m);
    }
  }

  /** The two worked examples: 01 02 FF FF has size 4, terminator
      included; 01 02 03 has size 3, ended by a short read. */
  lemma FindDataSizeExamples()
    ensures FindDataSize([0x01, 0x02, 0xFF, 0xFF], 0) == 4
    ensures FindDataSize([0x01, 0x02, 0x03], 0) == 3
  {
    assert FindDataSize([0x01, 0x02, 0xFF, 0xFF], 2) == 2;
    assert FindDataSize([0x01, 0x02, 0x03], 2) == 1;
  }

  // ---- length --------------------------------------------------------------

  /** `length_ms` before rounding: two bytes per interrupt at the sound
      rate, less one 2-byte chunk; sounds of up to 4 bytes count as
      silence. */
  function LengthMs(size: nat): (ms: real)
    ensures size <= 4 ==> ms == 0.0
    ensures size > 4 ==> ms > 10.0
  {
    if size > 4 then
      assert SoundRateHz < 141.0;
      assert (size - 2) as real >= 3.0;
      ((size - 2) as real / (2.0 * SoundRateHz)) * 1000.0
    else 0.0
  }

  /** A longer sound never has a shorter length. */
  lemma LengthMonotone(a: nat, b: nat)
    requires a <= b
    ensures LengthMs(a) <= LengthMs(b)
  {
    if a > 4 {
      var d := 2.0 * SoundRateHz;
      assert d > 0.0;
      assert (a - 2) as real / d <= (b - 2) as real / d;
    }
  }

  // ---- database ------------------------------------------------------------

  datatype SoundRow = SoundRow(
    groupentName: string,
    groupentIndex: nat,
    gameIndex: Option<nat>,
    offsetBytes: nat,
    sizeBytes: nat,
    priority: nat,
    name: seq<byte>,
    lengthMs: real)

  /** `table` plus the running `game_index` counter. */
  datatype SoundDB = SoundDB(table: seq<SoundRow>, gameIndex: nat)

  const EmptyDB := SoundDB([], 0)

  /** Does the game load entry `index` of the file `name`? It loads 23 of
      the 24 entries in each file, and only 19 of the last file. */
  predicate Visible(name: string, index: nat): (b: bool)
    ensures name == "SOUNDS3" ==> (b <==> index <= 18)
    ensures name != "SOUNDS3" ==> (b <==> index <= 22)
  {
    !(index > 22 || (name == "SOUNDS3" && index > 18))
  }

  /** The game indices handed out, in table order. */
  function GameIndices(table: seq<SoundRow>): seq<nat> {
    if |table| == 0 then []
    else
      var last := table[|table| - 1];
      GameIndices(table[..|table| - 1]) + (if last.gameIndex.Some? then [last.gameIndex.value] else [])
  }

  /** The counter matches the table: the indices handed out are 1, 2, …,
      `gameIndex`, in order. */
  predicate Counted(db: SoundDB) {
    GameIndices(db.table) == seq(db.gameIndex, i requires 0 <= i < db.gameIndex => i + 1)
  }

  /** The row fields that do not depend on the counter. */
  predicate RowFor(row: SoundRow, fileName: string, index: nat, e: SoundEntry, s: seq<byte>) {
    && row.groupentName == NormalizeGroupentName(fileName)
    && row.groupentIndex == index
    && row.offsetBytes == e.offsetBytes
    && row.sizeBytes == FindDataSize(s, e.offsetBytes)
    && row.priority == e.priority
    && row.name == e.name
    && row.lengthMs == LengthMs(row.sizeBytes)
  }

  /** `SoundDB.insert`: one row for entry `index` of file `fileName` (whose
      bytes are `s`); a loaded entry takes the next game index. */
  function Insert(db: SoundDB, fileName: string, index: nat, e: SoundEntry, s: seq<byte>): (r: SoundDB)
    ensures |r.table| == |db.table| + 1 && r.table[..|db.table|] == db.table
    ensures RowFor(r.table[|db.table|], fileName, index, e, s)
    ensures Visible(NormalizeGroupentName(fileName), index) ==>
              r.gameIndex == db.gameIndex + 1 && r.table[|db.table|].gameIndex == Some(r.gameIndex)
    ensures !Visible(NormalizeGroupentName(fileName), index) ==>
              r.gameIndex == db.gameIndex && r.table[|db.table|].gameIndex == None
  {
    var name := NormalizeGroupentName(fileName);
    var shown := Visible(name, index);
    var counter := if shown then db.gameIndex + 1 else db.gameIndex;
    var size := FindDataSize(s, e.offsetBytes);
    var row := SoundRow(name, index, if shown then Some(counter) else None,
                        e.offsetBytes, size, e.priority, e.name, LengthMs(size));
    SoundDB(db.table + [row], counter)
  }

  /** Inserting keeps the counter in step with the table. */
  lemma InsertCounted(db: SoundDB, fileName: string, index: nat, e: SoundEntry, s: seq<byte>)
    requires Counted(db)
    ensures Counted(Insert(db, fileName, index, e, s))
  {
    var r := Insert(db, fileName, index, e, s);
    assert r.table[..|r.table| - 1] == db.table;
  }

  // ---- parsing -------------------------------------------------------------

  /** `num_sounds` from the header of the file `s`. */
  function NumSounds(s: seq<byte>): nat {
    DecodeSoundHeader(ReadPadded(s, 0, SoundHeaderSize)).numSounds
  }

  /** Entry `j` of the file `s`: the `j`-th 16-byte record after the header. */
  function EntryAt(s: seq<byte>, j: nat): SoundEntry {
    DecodeSoundEntry(ReadPadded(s, SoundHeaderSize + SoundEntrySize * j, SoundEntrySize))
  }

  /** Entry `i` read at the cursor is entry `i` of the table, and the read
      moves the cursor to entry `i + 1`. */
  lemma EntryAtCursor(s: seq<byte>, i: nat)
    ensures var start := Advance(s, 0, SoundHeaderSize);
      && DecodeSoundEntry(ReadPadded(s, RecordCursor(s, start, SoundEntrySize, i), SoundEntrySize)) == EntryAt(s, i)
      && Advance(s, RecordCursor(s, start, SoundEntrySize, i), SoundEntrySize) == RecordCursor(s, start, SoundEntrySize, i + 1)
  {
    var start := Advance(s, 0, SoundHeaderSize);
    RecordStep(s, start, SoundEntrySize, i);
    if start != SoundHeaderSize {
      assert start == |s|;
      assert ReadPadded(s, start + SoundEntrySize * i, SoundEntrySize)
          == ReadPadded(s, SoundHeaderSize + SoundEntrySize * i, SoundEntrySize);
    }
  }

  /** The row for entry `j` of the file `fileName` (whose bytes are `s`):
      its fields, and a game index exactly when the game loads the entry. */
  predicate EntryRow(row: SoundRow, fileName: string, s: seq<byte>, j: nat) {
    && RowFor(row, fileName, j, EntryAt(s, j), s)
    && (row.gameIndex.Some? <==> Visible(NormalizeGroupentName(fileName), j))
  }

  /** Rows `start`, `start + 1`, … of `table` are those of the first `n`
      entries of `fileName`, in entry order. */
  predicate RowsAt(table: seq<SoundRow>, start: nat, fileName: string, s: seq<byte>, n: nat) {
    && start + n <= |table|
    && forall i :: start <= i < start + n ==> EntryRow(table[i], fileName, s, i - start)
  }

  /** The block of all `NumSounds(s)` entries of the file. */
  predicate BlockAt(table: seq<SoundRow>, start: nat, fileName: string, s: seq<byte>) {
    RowsAt(table, start, fileName, s, NumSounds(s))
  }

  /** Rows in a prefix stay where they are when the table grows. */
  lemma RowsKept(t1: seq<SoundRow>, t2: seq<SoundRow>, start: nat, fileName: string, s: seq<byte>, n: nat)
    requires |t1| <= |t2| && t2[..|t1|] == t1 && RowsAt(t1, start, fileName, s, n)
    ensures RowsAt(t2, start, fileName, s, n)
  {
    forall i | start <= i < start + n ensures EntryRow(t2[i], fileName, s, i - start) {
      assert t2[i] == t2[..|t1|][i];
    }
  }

  /** The rows of `fileName` appended so far after the rows of `db`. */
  predicate RowsSoFar(db: SoundDB, r: SoundDB, fileName: string, s: seq<byte>, i: nat) {
    && |r.table| == |db.table| + i && r.table[..|db.table|] == db.table
    && RowsAt(r.table, |db.table|, fileName, s, i)
  }

  /** Inserting entry `i` extends the rows by one. */
  lemma InsertStep(db: SoundDB, r: SoundDB, fileName: string, s: seq<byte>, i: nat)
    requires RowsSoFar(db, r, fileName, s, i)
    ensures RowsSoFar(db, Insert(r, fileName, i, EntryAt(s, i), s), fileName, s, i + 1)
  {
    var next := Insert(r, fileName, i, EntryAt(s, i), s);
    assert next.table[..|db.table|] == r.table[..|db.table|];
    RowsKept(r.table, next.table, |db.table|, fileName, s, i);
    assert EntryRow(next.table[|r.table|], fileName, s, i);
  }

  /** The body of `parse_sound_data` for one file: the header, then
      `num_sounds` entries inserted with indices 0, 1, 2, …. */
  method ParseSoundFile(db: SoundDB, fileName: string, s: seq<byte>) returns (r: SoundDB)
    ensures |r.table| == |db.table| + NumSounds(s) && r.table[..|db.table|] == db.table
    ensures BlockAt(r.table, |db.table|, fileName, s)
    ensures Counted(db) ==> Counted(r)
  {
    var header := DecodeSoundHeader(ReadPadded(s, 0, SoundHeaderSize));
    var pos := Advance(s, 0, SoundHeaderSize);
    r := db;
    var i := 0;
    while i < header.numSounds
      invariant i <= header.numSounds
      invariant pos == RecordCursor(s, Advance(s, 0, SoundHeaderSize), SoundEntrySize, i)
      invariant RowsSoFar(db, r, fileName, s, i)
      invariant Counted(db) ==> Counted(r)
    {
      EntryAtCursor(s, i);
      var entry := DecodeSoundEntry(ReadPadded(s, pos, SoundEntrySize));
      if Counted(r) {
        InsertCounted(r, fileName, i, entry, s);
      }
      InsertStep(db, r, fileName, s, i);
      r := Insert(r, fileName, i, entry, s);
      pos := Advance(s, pos, SoundEntrySize);
      i := i + 1;
    }
  }

  /** The first `n` sound files lie in `table` one block after another:
      the rows of file `k` start after the entries of the files before it. */
  predicate FileBlocks(table: seq<SoundRow>, files: map<string, seq<byte>>, n: nat)
    requires n <= |SoundFiles| && forall i :: 0 <= i < n ==> SoundFiles[i] in files
  {
    forall k :: 0 <= k < n ==>
      BlockAt(table, TotalSounds(files, SoundFiles[..k]), SoundFiles[k], files[SoundFiles[k]])
  }

  /** Parsing file `k` after the blocks of the files before it adds its
      block and keeps theirs. */
  lemma FileBlocksStep(t1: seq<SoundRow>, t2: seq<SoundRow>, files: map<string, seq<byte>>, k: nat)
    requires k < |SoundFiles| && forall i :: 0 <= i <= k ==> SoundFiles[i] in files
    requires FileBlocks(t1, files, k) && |t1| == TotalSounds(files, SoundFiles[..k])
    requires |t1| <= |t2| && t2[..|t1|] == t1
    requires BlockAt(t2, |t1|, SoundFiles[k], files[SoundFiles[k]])
    ensures FileBlocks(t2, files, k + 1)
  {
    forall k' | 0 <= k' < k
      ensures BlockAt(t2, TotalSounds(files, SoundFiles[..k']), SoundFiles[k'], files[SoundFiles[k']])
    {
      var s := files[SoundFiles[k']];
      RowsKept(t1, t2, TotalSounds(files, SoundFiles[..k']), SoundFiles[k'], s, NumSounds(s));
    }
  }

  /** `parse_sound_data`: the three sound files in manifest order, with one
      game-index counter shared by all of them. */
  method ParseSoundData(files: map<string, seq<byte>>) returns (r: Result<SoundDB>)
    ensures r.Ok? <==> forall i :: 0 <= i < |SoundFiles| ==> SoundFiles[i] in files
    ensures r.Err? ==> exists k: nat :: FirstMissing(files, SoundFiles, k) && r.error == FileNotFound(SoundFiles[k])
    ensures r.Ok? ==> |r.value.table| == TotalSounds(files, SoundFiles)
    ensures r.Ok? ==> FileBlocks(r.value.table, files, |SoundFiles|)
    ensures r.Ok? ==> Counted(r.value)
  {
    var db := EmptyDB;
    var k := 0;
    while k < |SoundFiles|
      invariant k <= |SoundFiles|
      invariant forall i :: 0 <= i < k ==> SoundFiles[i] in files
      invariant |db.table| == TotalSounds(files, SoundFiles[..k])
      invariant FileBlocks(db.table, files, k)
      invariant Counted(db)
    {
      var name := SoundFiles[k];
      if name !in files {
        assert FirstMissing(files, SoundFiles, k);
        return Err(FileNotFound(name));
      }
      assert SoundFiles[..k + 1] == SoundFiles[..k] + [name];
      var db' := ParseSoundFile(db, name, files[name]);
      FileBlocksStep(db.table, db'.table, files, k);
      db := db';
      k := k + 1;
    }
    assert SoundFiles[..k] == SoundFiles;
    return Ok(db);
  }

  /** The number of entries the files `names` declare together. */
  function TotalSounds(files: map<string, seq<byte>>, names: seq<string>): nat
    requires forall i :: 0 <= i < |names| ==> names[i] in files
  {
    if |names| == 0 then 0
    else TotalSounds(files, names[..|names| - 1]) + NumSounds(files[names[|names| - 1]])
  }
}

=== FILE: sprite.dfy ===
/** Sprite decoder (scripts/datalib/sprite.py): a header table of 16-bit
    word offsets, one per sprite type, ends where the read cursor reaches an
    offset already recorded; each type's frame entries then run from its
    offset up to the next larger recorded offset, or to the end of the
    file. */
module SpriteDecoder {
  import opened Wrappers
  import opened Bytes
  import opened Defs

  // ---- header table --------------------------------------------------------

  /** The byte offset recorded by the `j`-th header read. */
  function HeaderOffset(s: seq<byte>, j: nat): nat {
    InfoOffsetBytes(ReadPadded(s, InfoHeaderSize * j, InfoHeaderSize))
  }

  /** The offsets recorded by the first `k` header reads. */
  function HeaderOffsets(s: seq<byte>, k: nat): (r: seq<nat>)
    ensures |r| == k
  {
    seq(k, j requires 0 <= j < k => HeaderOffset(s, j))
  }

  /** `f.tell()` after `k` header reads: two bytes each, never past the end. */
  function Cursor(s: seq<byte>, k: nat): nat {
    if InfoHeaderSize * k <= |s| then InfoHeaderSize * k else |s|
  }

  /** The scan stops before read `k` when the cursor is a recorded offset. */
  predicate Stops(s: seq<byte>, k: nat) {
    Cursor(s, k) in HeaderOffsets(s, k)
  }

  /** `k` reads is where the scan ends: it stops there and nowhere before. */
  predicate FirstStop(s: seq<byte>, k: nat) {
    Stops(s, k) && forall j :: 0 <= j < k ==> !Stops(s, j)
  }

  /** Two header reads at positions that are both at or past the end of the
      file read the same zero bytes. */
  lemma ReadPaddedPastEnd(s: seq<byte>, p: nat, q: nat, n: nat)
    requires p >= |s| && q >= |s|
    ensures ReadPadded(s, p, n) == ReadPadded(s, q, n)
  {
  }

  /** The header-table loop of `parse_sprite_data`. */
  method ScanHeaders(s: seq<byte>) returns (offsets: seq<nat>)
    requires exists k: nat :: Stops(s, k)
    ensures offsets == HeaderOffsets(s, |offsets|)
    ensures FirstStop(s, |offsets|)
  {
    ghost var bound: nat :| Stops(s, bound);
    offsets := [];
    var pos := 0;
    while pos !in offsets
      invariant pos == Cursor(s, |offsets|)
      invariant offsets == HeaderOffsets(s, |offsets|)
      invariant forall j :: 0 <= j < |offsets| ==> !Stops(s, j)
      invariant |offsets| <= bound
      decreases bound - |offsets|
    {
      var k := |offsets|;
      assert !Stops(s, k);
      assert k != bound;
      var header := ReadPadded(s, pos, InfoHeaderSize);
      if pos != InfoHeaderSize * k {
        ReadPaddedPastEnd(s, pos, InfoHeaderSize * k, InfoHeaderSize);
      }
      assert InfoOffsetBytes(header) == HeaderOffset(s, k);
      offsets := offsets + [InfoOffsetBytes(header)];
      assert offsets == HeaderOffsets(s, k + 1);
      pos := Advance(s, pos, InfoHeaderSize);
    }
  }

  /** The bytes 03 00 03 00 02 00: offsets 6, 6 and 4 are recorded before
      the cursor, at 6, meets one of them. The repeated value 6 at the second
      read does not end the scan; only the cursor position does. */
  lemma ScanStopsOnCursorNotOnRepeat()
    ensures var s: seq<byte> := [3, 0, 3, 0, 2, 0];
      && HeaderOffsets(s, 3) == [6, 6, 4]
      && FirstStop(s, 3)
  {
    var s: seq<byte> := [3, 0, 3, 0, 2, 0];
    assert ReadPadded(s, 0, 2) == [3, 0];
    assert ReadPadded(s, 2, 2) == [3, 0];
    assert ReadPadded(s, 4, 2) == [2, 0];
    assert HeaderOffsets(s, 0) == [];
    assert HeaderOffsets(s, 1) == [6];
    assert HeaderOffsets(s, 2) == [6, 6];
    assert HeaderOffsets(s, 3) == [6, 6, 4];
  }

  // ---- spans ---------------------------------------------------------------

  /** `min([o for o in offsets if o > offset])`, None when no offset is
      larger. */
  function NextAbove(offsets: seq<nat>, o: nat): (r: Option<nat>)
    ensures r.Some? ==> r.value in offsets && r.value > o
    ensures r.Some? ==> forall x :: x in offsets && x > o ==> r.value <= x
    ensures r.None? <==> forall x :: x in offsets ==> x <= o
  {
    if |offsets| == 0 then None
    else
      var rest := NextAbove(offsets[1..], o);
      assert forall x :: x in offsets ==> x == offsets[0] || x in offsets[1..];
      if offsets[0] <= o then rest
      else if rest.Some? && rest.value < offsets[0] then rest
      else Some(offsets[0])
  }

  /** Where the span starting at `o` ends: the next larger offset, or the
      file size for the largest. */
  function SpanStop(s: seq<byte>, offsets: seq<nat>, o: nat): nat {
    match NextAbove(offsets, o)
    case None => |s|
    case Some(v) => v
  }

  /** The frame loop ends: a non-empty span never reaches past the file,
      since a read at the end of the file does not move the cursor. */
  predicate SpansInFile(s: seq<byte>, offsets: seq<nat>) {
    forall t :: 0 <= t < |offsets| ==>
      offsets[t] < SpanStop(s, offsets, offsets[t]) ==> SpanStop(s, offsets, offsets[t]) <= |s|
  }

  /** The number of 8-byte entries read from `pos` while the cursor is below
      `stop`: the span length divided by 8, rounded up. */
  function FrameCount(pos: nat, stop: nat): (n: nat)
    ensures pos >= stop ==> n == 0
    ensures pos < stop ==> n > 0 && InfoEntrySize * (n - 1) < stop - pos <= InfoEntrySize * n
  {
    if pos >= stop then 0 else (stop - pos + InfoEntrySize - 1) / InfoEntrySize
  }

  /** The `while f.tell() < stop` loop: one entry per 8 bytes from `pos`. */
  function ReadFrames(s: seq<byte>, pos: nat, stop: nat): (r: seq<InfoEntry>)
    requires pos < stop ==> stop <= |s|
    ensures |r| == FrameCount(pos, stop)
    ensures forall j :: 0 <= j < |r| ==>
              r[j] == DecodeInfoEntry(ReadPadded(s, pos + InfoEntrySize * j, InfoEntrySize))
    decreases stop - pos
  {
    if pos >= stop then []
    else
      var next := Advance(s, pos, InfoEntrySize);
      var rest := ReadFrames(s, next, stop);
      assert next < stop ==> next == pos + InfoEntrySize;
      [DecodeInfoEntry(ReadPadded(s, pos, InfoEntrySize))] + rest
  }

  // ---- database ------------------------------------------------------------

  datatype SpriteRow = SpriteRow(
    spriteType: nat, spriteFrame: nat, widthTiles: nat, heightTiles: nat, frameOffsetBytes: nat)

  /** `SpriteDB.insert`: the row for one frame entry, its offset corrected
      for segmented addressing. */
  function MakeRow(t: nat, frame: nat, e: InfoEntry): (row: SpriteRow)
    ensures row.spriteType == t && row.spriteFrame == frame
    ensures row.widthTiles == e.widthTiles && row.heightTiles == e.heightTiles
    ensures row.frameOffsetBytes <= e.frameOffsetBytes
    ensures row.frameOffsetBytes == e.frameOffsetBytes <==> e.frameOffsetBytes < 0x1_0000
  {
    SpriteRow(t, frame, e.widthTiles, e.heightTiles, FixedOffset(e.frameOffsetBytes))
  }

  /** The rows of type `t`, frames numbered from 0. */
  function TypeRows(t: nat, frames: seq<InfoEntry>): (rows: seq<SpriteRow>)
    ensures |rows| == |frames|
    ensures forall j :: 0 <= j < |rows| ==> rows[j].spriteType == t && rows[j].spriteFrame == j
  {
    seq(|frames|, j requires 0 <= j < |frames| => MakeRow(t, j, frames[j]))
  }

  /** The table of a `SpriteDB`, by sprite type; a type with no frames has an
      empty list, which the dictionary of the source never creates. */
  datatype SpriteDB = SpriteDB(table: seq<seq<SpriteRow>>)

  /** Every row is filed under its own type, frames numbered from 0. */
  predicate WellTyped(db: SpriteDB) {
    forall t, j :: 0 <= t < |db.table| && 0 <= j < |db.table[t]| ==>
      db.table[t][j].spriteType == t && db.table[t][j].spriteFrame == j
  }

  /** The groups of type `t` and up that have frames, in type order. */
  function GroupsFrom(table: seq<seq<SpriteRow>>, t: nat): (r: seq<seq<SpriteRow>>)
    requires t <= |table|
    ensures forall g :: g in r <==> exists u :: t <= u < |table| && table[u] == g && g != []
    ensures forall i :: 0 <= i < |r| ==> r[i] != []
    ensures |r| <= |table| - t
    decreases |table| - t
  {
    if t == |table| then []
    else
      var rest := GroupsFrom(table, t + 1);
      if table[t] == [] then rest else [table[t]] + rest
  }

  /** `SpriteDB.to_dict`: the non-empty groups in ascending type order. */
  function ToDict(db: SpriteDB): (groups: seq<seq<SpriteRow>>)
    ensures forall g :: g in groups <==> g in db.table && g != []
    ensures forall i :: 0 <= i < |groups| ==> groups[i] != []
    ensures WellTyped(db) ==> forall i, j :: 0 <= i < j < |groups| ==> groups[i][0].spriteType < groups[j][0].spriteType
  {
    GroupsAscending(db, 0);
    assert forall g :: g in db.table <==> exists u :: 0 <= u < |db.table| && db.table[u] == g;
    GroupsFrom(db.table, 0)
  }

  /** Non-empty groups whose types lie in `[lo, hi)` and strictly ascend. */
  predicate AscendingTypes(r: seq<seq<SpriteRow>>, lo: nat, hi: nat) {
    && (forall i :: 0 <= i < |r| ==> |r[i]| > 0 && lo <= r[i][0].spriteType < hi)
    && (forall i, j :: 0 <= i < j < |r| ==> |r[i]| > 0 && |r[j]| > 0 && r[i][0].spriteType < r[j][0].spriteType)
  }

  /** Groups come out in strictly ascending type order, each at or above `t`. */
  lemma {:induction false} GroupsAscending(db: SpriteDB, t: nat)
    requires t <= |db.table|
    ensures WellTyped(db) ==> AscendingTypes(GroupsFrom(db.table, t), t, |db.table|)
    decreases |db.table| - t
  {
    if t < |db.table| && WellTyped(db) {
      GroupsAscending(db, t + 1);
      var rest := GroupsFrom(db.table, t + 1);
      var r := GroupsFrom(db.table, t);
      assert AscendingTypes(rest, t + 1, |db.table|);
      if db.table[t] != [] {
        assert r == [db.table[t]] + rest;
        assert r[0][0] == db.table[t][0];
        assert r[0][0].spriteType == t;
        forall i | 1 <= i < |r|
          ensures r[i] == rest[i - 1] && t < r[i][0].spriteType < |db.table|
        {
        }
      } else {
        assert r == rest;
      }
    }
  }

  /** The frame rows of type `t` in a file with header offsets `offsets`. */
  function TypeGroup(s: seq<byte>, offsets: seq<nat>, t: nat): (rows: seq<SpriteRow>)
    requires t < |offsets| && SpansInFile(s, offsets)
    ensures |rows| == FrameCount(offsets[t], SpanStop(s, offsets, offsets[t]))
    ensures forall j :: 0 <= j < |rows| ==> rows[j] == MakeRow(t, j,
              DecodeInfoEntry(ReadPadded(s, offsets[t] + InfoEntrySize * j, InfoEntrySize)))
  {
    TypeRows(t, ReadFrames(s, offsets[t], SpanStop(s, offsets, offsets[t])))
  }

  /** The sprite-type loop of `parse_sprite_data`: one group per header entry,
      in header order. */
  method BuildTable(s: seq<byte>, offsets: seq<nat>) returns (db: SpriteDB)
    requires SpansInFile(s, offsets)
    ensures |db.table| == |offsets|
    ensures forall t :: 0 <= t < |offsets| ==> db.table[t] == TypeGroup(s, offsets, t)
    ensures WellTyped(db)
  {
    var table: seq<seq<SpriteRow>> := [];
    var t := 0;
    while t < |offsets|
      invariant t <= |offsets| && |table| == t
      invariant forall u :: 0 <= u < t ==> table[u] == TypeGroup(s, offsets, u)
      invariant WellTyped(SpriteDB(table))
    {
      table := table + [TypeGroup(s, offsets, t)];
      t := t + 1;
    }
    db := SpriteDB(table);
  }

  /** `parse_sprite_data` on a well-formed file: the header scan ends and
      every non-empty span lies within the file. */
  method ParseSpriteData(s: seq<byte>) returns (db: SpriteDB)
    requires exists k: nat :: Stops(s, k)
    requires forall k: nat :: FirstStop(s, k) ==> SpansInFile(s, HeaderOffsets(s, k))
    ensures FirstStop(s, |db.table|)
    ensures WellTyped(db)
    ensures var offsets := HeaderOffsets(s, |db.table|);
      forall t :: 0 <= t < |db.table| ==>
        |db.table[t]| == FrameCount(offsets[t], SpanStop(s, offsets, offsets[t]))
    ensures var offsets := HeaderOffsets(s, |db.table|);
      forall t, j :: 0 <= t < |db.table| && 0 <= j < |db.table[t]| ==>
        db.table[t][j] == MakeRow(t, j, DecodeInfoEntry(ReadPadded(s, offsets[t] + InfoEntrySize * j, InfoEntrySize)))
  {
    var offsets := ScanHeaders(s);
    db := BuildTable(s, offsets);
  }
}

=== FILE: strings.dfy ===
/** The string operations the scripts take from Python's `str`: ASCII case
    mapping, substring search, `replace`, decimal digits. */
module Strings {
  import opened Wrappers

  predicate IsUpper(c: char) { 'A' <= c <= 'Z' }
  predicate IsLower(c: char) { 'a' <= c <= 'z' }
  predicate IsDigit(c: char) { '0' <= c <= '9' }

  /** The ASCII characters `str.isspace()` accepts, and so `\s`,
      `str.strip()` and `int()`: blank, tab, the line breaks \n, \v, \f,
      \r and the separators \x1c to \x1f. */
  predicate IsSpace(c: char) {
    c == ' ' || c == '\t' || c == '\n' || c == '\r' || c == '\U{0B}' || c == '\U{0C}'
    || '\U{1C}' <= c <= '\U{1F}'
  }

  function LowerChar(c: char): (d: char)
    ensures !IsUpper(d)
    ensures !IsUpper(c) ==> d == c
  {
    if IsUpper(c) then (c as int + 32) as char else c
  }

  function UpperChar(c: char): (d: char)
    ensures !IsLower(d)
    ensures !IsLower(c) ==> d == c
  {
    if IsLower(c) then (c as int - 32) as char else c
  }

  /** `str.lower()` on ASCII letters. */
  function ToLower(s: string): (r: string)
    ensures |r| == |s|
    ensures forall i :: 0 <= i < |s| ==> r[i] == LowerChar(s[i])
  {
    seq(|s|, i requires 0 <= i < |s| => LowerChar(s[i]))
  }

  /** `str.upper()` on ASCII letters. */
  function ToUpper(s: string): (r: string)
    ensures |r| == |s|
    ensures forall i :: 0 <= i < |s| ==> r[i] == UpperChar(s[i])
  {
    seq(|s|, i requires 0 <= i < |s| => UpperChar(s[i]))
  }

  predicate OccursAt(s: string, p: string, i: nat) {
    i + |p| <= |s| && s[i..i + |p|] == p
  }

  /** Index of the first occurrence of `p` in `s` at or after `from`. */
  function FindFrom(s: string, p: string, from: nat): (r: Option<nat>)
    ensures r.Some? ==> from <= r.value && OccursAt(s, p, r.value)
    ensures r.Some? ==> forall j :: from <= j < r.value ==> !OccursAt(s, p, j)
    ensures r.None? ==> forall j :: from <= j ==> !OccursAt(s, p, j)
    decreases |s| - from
  {
    if from + |p| > |s| then None
    else if s[from..from + |p|] == p then Some(from)
    else FindFrom(s, p, from + 1)
  }

  /** Python's `p in s`. */
  predicate Contains(s: string, p: string) {
    FindFrom(s, p, 0).Some?
  }

  lemma ContainsIff(s: string, p: string)
    ensures Contains(s, p) <==> exists i :: OccursAt(s, p, i)
  {
    var f := FindFrom(s, p, 0);
    if f.Some? {
      assert OccursAt(s, p, f.value);
    }
  }

  /** A string no longer than the pattern holds it only by being it. */
  lemma {:induction false} NotContainsShort(s: string, p: string)
    requires |s| <= |p| && s != p
    ensures !Contains(s, p)
  {
    if |s| == |p| {
      assert s[0..|p|] == s;
      assert FindFrom(s, p, 1) == None;
    }
  }

  /** Python's `s.replace(p, q)`: every non-overlapping occurrence of `p`,
      scanning left to right, becomes `q`. */
  function ReplaceAll(s: string, p: string, q: string): (r: string)
    requires |p| > 0
    ensures p == q ==> r == s
    ensures |q| == |p| ==> |r| == |s|
    decreases |s|
  {
    if |s| < |p| then s
    else if s[..|p|] == p then q + ReplaceAll(s[|p|..], p, q)
    else [s[0]] + ReplaceAll(s[1..], p, q)
  }

  /** Replacing a pattern by itself changes nothing. */
  lemma {:induction false} ReplaceAllSelf(s: string, p: string)
    requires |p| > 0
    ensures ReplaceAll(s, p, p) == s
    decreases |s|
  {
    if |s| < |p| {
    } else if s[..|p|] == p {
      ReplaceAllSelf(s[|p|..], p);
      assert s == s[..|p|] + s[|p|..];
    } else {
      ReplaceAllSelf(s[1..], p);
      assert s == [s[0]] + s[1..];
    }
  }

  /** A string without the pattern comes back unchanged. */
  lemma {:induction false} ReplaceAllAbsent(s: string, p: string, q: string)
    requires |p| > 0
    requires forall i :: !OccursAt(s, p, i)
    ensures ReplaceAll(s, p, q) == s
    decreases |s|
  {
    if |s| < |p| {
    } else {
      assert !OccursAt(s, p, 0);
      assert s[..|p|] == s[0..0 + |p|];
      forall i: nat | true
        ensures !OccursAt(s[1..], p, i)
      {
        assert !OccursAt(s, p, i + 1);
        if i + |p| <= |s| - 1 {
          assert s[1..][i..i + |p|] == s[i + 1..i + 1 + |p|];
        }
      }
      ReplaceAllAbsent(s[1..], p, q);
      assert s == [s[0]] + s[1..];
    }
  }

  /** Every character of the result comes from the text or from the
      replacement. */
  lemma {:induction false} ReplaceAllChars(s: string, p: string, q: string, c: char)
    requires |p| > 0 && c in ReplaceAll(s, p, q)
    ensures c in s || c in q
    decreases |s|
  {
    if |s| < |p| {
    } else if s[..|p|] == p {
      if c !in q {
        ReplaceAllChars(s[|p|..], p, q, c);
      }
    } else if c != s[0] {
      ReplaceAllChars(s[1..], p, q, c);
    }
  }

  /** A replacement no longer than the pattern never lengthens the text. */
  lemma {:induction false} ReplaceAllShortens(s: string, p: string, q: string)
    requires |p| > 0 && |q| <= |p|
    ensures |ReplaceAll(s, p, q)| <= |s|
    decreases |s|
  {
    if |s| < |p| {
    } else if s[..|p|] == p {
      ReplaceAllShortens(s[|p|..], p, q);
    } else {
      ReplaceAllShortens(s[1..], p, q);
    }
  }

  /** No occurrence of `p` in `a + b` starts in `a` and ends in `b`. */
  predicate NoStraddle(a: string, b: string, p: string) {
    forall i: nat :: i < |a| < i + |p| ==> !OccursAt(a + b, p, i)
  }

  /** Dropping the first `k` characters of `a` keeps the join clear. */
  lemma StraddleShift(a: string, b: string, p: string, k: nat)
    requires k <= |a| && NoStraddle(a, b, p)
    ensures NoStraddle(a[k..], b, p)
  {
    forall i: nat | i < |a| - k < i + |p|
      ensures !OccursAt(a[k..] + b, p, i)
    {
      assert !OccursAt(a + b, p, i + k);
      if i + |p| <= |a| - k + |b| {
        assert (a[k..] + b)[i..i + |p|] == (a + b)[i + k..i + k + |p|];
      }
    }
  }

  /** With no occurrence straddling the join, replacing in a concatenation
      replaces in each part. */
  lemma {:induction false} ReplaceAllConcat(a: string, b: string, p: string, q: string)
    requires |p| > 0 && NoStraddle(a, b, p)
    ensures ReplaceAll(a + b, p, q) == ReplaceAll(a, p, q) + ReplaceAll(b, p, q)
    decreases |a|, 1
  {
    var s := a + b;
    if |a| == 0 {
      assert s == b;
    } else if |s| < |p| {
      assert ReplaceAll(a, p, q) == a && ReplaceAll(b, p, q) == b;
    } else if s[..|p|] == p {
      ConcatMatchStep(a, b, p, q);
    } else {
      ConcatSkipStep(a, b, p, q);
    }
  }

  /** `ReplaceAllConcat` when the text starts with the pattern. */
  lemma {:induction false} ConcatMatchStep(a: string, b: string, p: string, q: string)
    requires |p| > 0 && NoStraddle(a, b, p) && |a| > 0
    requires |a + b| >= |p| && (a + b)[..|p|] == p
    ensures ReplaceAll(a + b, p, q) == ReplaceAll(a, p, q) + ReplaceAll(b, p, q)
    decreases |a|, 0
  {
    var s := a + b;
    assert OccursAt(s, p, 0);
    assert |p| <= |a|;
    assert a[..|p|] == p;
    assert s[|p|..] == a[|p|..] + b;
    StraddleShift(a, b, p, |p|);
    ReplaceAllConcat(a[|p|..], b, p, q);
  }

  /** `ReplaceAllConcat` when the text does not start with the pattern. */
  lemma {:induction false} ConcatSkipStep(a: string, b: string, p: string, q: string)
    requires |p| > 0 && NoStraddle(a, b, p) && |a| > 0
    requires |a + b| >= |p| && (a + b)[..|p|] != p
    ensures ReplaceAll(a + b, p, q) == ReplaceAll(a, p, q) + ReplaceAll(b, p, q)
    decreases |a|, 0
  {
    var s := a + b;
    var r1 := ReplaceAll(a[1..], p, q);
    var rb := ReplaceAll(b, p, q);
    assert s[1..] == a[1..] + b;
    assert ReplaceAll(s, p, q) == [a[0]] + ReplaceAll(a[1..] + b, p, q);
    assert ReplaceAll(a[1..] + b, p, q) == r1 + rb by {
      StraddleShift(a, b, p, 1);
      ReplaceAllConcat(a[1..], b, p, q);
    }
    assert ReplaceAll(a, p, q) == [a[0]] + r1 by {
      if |a| < |p| {
        assert a == [a[0]] + a[1..];
      } else {
        assert a[..|p|] == s[..|p|];
      }
    }
  }

  /** An occurrence stays an occurrence when text is added after it. */
  lemma OccursInLonger(s: string, t: string, p: string, i: nat)
    requires OccursAt(s, p, i)
    ensures OccursAt(s + t, p, i)
  {
    assert (s + t)[i..i + |p|] == s[i..i + |p|];
  }

  /** An occurrence moves right by the length of text added before it. */
  lemma OccursAfter(t: string, s: string, p: string, j: nat)
    requires OccursAt(s, p, j)
    ensures OccursAt(t + s, p, |t| + j)
  {
    assert (t + s)[|t| + j..|t| + j + |p|] == s[j..j + |p|];
  }

  /** A pattern occurring once, between `a` and `b`, is replaced there and
      nowhere else. */
  lemma ReplaceOnce(a: string, p: string, b: string, q: string)
    requires |p| > 0
    requires forall i: nat :: OccursAt(a + p + b, p, i) ==> i == |a|
    ensures ReplaceAll(a + p + b, p, q) == a + q + b
  {
    var t := p + b;
    assert a + p + b == a + t;
    assert NoStraddle(a, t, p);
    ReplaceAllConcat(a, t, p, q);
    forall i: nat ensures !OccursAt(a, p, i) {
      if OccursAt(a, p, i) {
        OccursInLonger(a, t, p, i);
      }
    }
    ReplaceAllAbsent(a, p, q);
    forall j: nat ensures !OccursAt(b, p, j) {
      if OccursAt(b, p, j) {
        OccursAfter(a + p, b, p, j);
      }
    }
    ReplaceAllAbsent(b, p, q);
    assert t[..|p|] == p && t[|p|..] == b;
    assert ReplaceAll(t, p, q) == q + b;
  }

  /** Deleting a single character removes every copy of it and keeps the
      rest in order. */
  lemma {:induction false} DeleteCharRemovesAll(s: string, c: char)
    ensures c !in ReplaceAll(s, [c], "")
    ensures forall d :: d != c ==> (d in ReplaceAll(s, [c], "") <==> d in s)
    decreases |s|
  {
    if |s| == 0 {
    } else {
      DeleteCharRemovesAll(s[1..], c);
      assert s == [s[0]] + s[1..];
      if s[..1] == [c] {
        assert s[0] == c;
      } else {
        assert s[0] != c;
      }
    }
  }

  predicate NoUpper(s: string) {
    forall i :: 0 <= i < |s| ==> !IsUpper(s[i])
  }

  /** Replacing or deleting a pattern with lower-case text never introduces
      an upper-case letter. */
  lemma {:induction false} ReplaceAllKeepsLower(s: string, p: string, q: string)
    requires |p| > 0
    requires NoUpper(s) && NoUpper(q)
    ensures NoUpper(ReplaceAll(s, p, q))
    decreases |s|
  {
    if |s| < |p| {
    } else if s[..|p|] == p {
      assert NoUpper(s[|p|..]) by {
        assert forall i :: 0 <= i < |s[|p|..]| ==> s[|p|..][i] == s[i + |p|];
      }
      ReplaceAllKeepsLower(s[|p|..], p, q);
      var rest := ReplaceAll(s[|p|..], p, q);
      assert forall i :: 0 <= i < |q + rest| ==> (q + rest)[i] == if i < |q| then q[i] else rest[i - |q|];
    } else {
      assert NoUpper(s[1..]) by {
        assert forall i :: 0 <= i < |s[1..]| ==> s[1..][i] == s[i + 1];
      }
      ReplaceAllKeepsLower(s[1..], p, q);
    }
  }

  // ---- decimal numbers ---------------------------------------------------

  predicate AllDigits(s: string) {
    forall i :: 0 <= i < |s| ==> IsDigit(s[i])
  }

  /** Decimal value of a digit string, as `int()` reads it. */
  function DigitsValue(s: string): (r: nat)
    requires AllDigits(s)
    decreases |s|
  {
    if |s| == 0 then 0
    else 10 * DigitsValue(s[..|s| - 1]) + (s[|s| - 1] as int - '0' as int)
  }

  /** Decimal text of `n`, as an f-string prints it. */
  function NatToString(n: nat): (r: string)
    ensures |r| > 0 && AllDigits(r)
    ensures |r| > 1 ==> r[0] != '0'
    decreases n
  {
    if n < 10 then [('0' as int + n) as char]
    else NatToString(n / 10) + [('0' as int + n % 10) as char]
  }

  /** Printing a number and reading it back gives the number. */
  lemma {:induction false} NatToStringRoundTrip(n: nat)
    ensures DigitsValue(NatToString(n)) == n
    decreases n
  {
    var r := NatToString(n);
    if n >= 10 {
      NatToStringRoundTrip(n / 10);
      assert r[..|r| - 1] == NatToString(n / 10);
    }
  }

  /** Longest prefix of decimal digits. */
  function DigitPrefix(s: string): (r: string)
    ensures |r| <= |s| && AllDigits(r) && r == s[..|r|]
    ensures |r| < |s| ==> !IsDigit(s[|r|])
  {
    if |s| == 0 || !IsDigit(s[0]) then [] else [s[0]] + DigitPrefix(s[1..])
  }

  /** Text after the leading whitespace. */
  function SkipSpace(s: string): (r: string)
    ensures |r| <= |s| && r == s[|s| - |r|..]
    ensures |r| > 0 ==> !IsSpace(r[0])
    ensures forall i :: 0 <= i < |s| - |r| ==> IsSpace(s[i])
  {
    if |s| == 0 || !IsSpace(s[0]) then s else SkipSpace(s[1..])
  }

  /** Text before the trailing whitespace. */
  function StripEnd(s: string): (r: string)
    ensures |r| <= |s| && r == s[..|r|]
    ensures |r| > 0 ==> !IsSpace(r[|r| - 1])
    ensures forall i :: |r| <= i < |s| ==> IsSpace(s[i])
  {
    if |s| == 0 || !IsSpace(s[|s| - 1]) then s else StripEnd(s[..|s| - 1])
  }

  /** `str.strip()`: without leading and trailing whitespace. */
  function Strip(s: string): (r: string)
    ensures |r| > 0 ==> !IsSpace(r[0]) && !IsSpace(r[|r| - 1])
  {
    StripEnd(SkipSpace(s))
  }

  /** Python's `int(s)` on decimal text: surrounding whitespace, an
      optional sign and at least one digit; anything else is a
      `ValueError`. */
  function ParseInt(s: string): (r: Result<int>)
    ensures r.Err? ==> r.error == ValueError(s)
  {
    var t := Strip(s);
    var signed := |t| > 0 && (t[0] == '-' || t[0] == '+');
    var digits := if signed then t[1..] else t;
    if |digits| > 0 && AllDigits(digits) then
      Ok(if signed && t[0] == '-' then -(DigitsValue(digits) as int) else DigitsValue(digits))
    else Err(ValueError(s))
  }

  /** What `int()` accepts: after stripping, a sign or digit and then
      digits only; a negative result has a minus sign. */
  lemma ParseIntShape(s: string)
    ensures ParseInt(s).Ok? ==> |Strip(s)| > 0
    ensures ParseInt(s).Ok? ==> forall i :: 0 < i < |Strip(s)| ==> IsDigit(Strip(s)[i])
    ensures ParseInt(s).Ok? ==> IsDigit(Strip(s)[0]) || Strip(s)[0] == '-' || Strip(s)[0] == '+'
    ensures ParseInt(s).Ok? && ParseInt(s).value < 0 ==> Strip(s)[0] == '-'
  {
    var t := Strip(s);
    if ParseInt(s).Ok? && |t| > 0 {
      if t[0] == '-' || t[0] == '+' {
        assert forall i :: 0 < i < |t| ==> t[i] == t[1..][i - 1];
      }
    }
  }

  /** A string that starts and ends with non-blanks is its own strip. */
  lemma {:induction false} StripUnchanged(m: string)
    requires |m| > 0 && !IsSpace(m[0]) && !IsSpace(m[|m| - 1])
    ensures Strip(m) == m
  {
    assert SkipSpace(m) == m;
    assert StripEnd(m) == m;
  }

  /** `int()` of a bare digit string is its decimal value. */
  lemma {:induction false} ParseIntDigits(d: string)
    requires |d| > 0 && AllDigits(d)
    ensures ParseInt(d) == Ok(DigitsValue(d))
  {
    assert IsDigit(d[0]) && IsDigit(d[|d| - 1]);
    StripUnchanged(d);
    assert d[0] != '-' && d[0] != '+';
  }

  /** `int()` of a minus sign and a digit string is its negated value. */
  lemma {:induction false} ParseIntNegativeDigits(d: string)
    requires |d| > 0 && AllDigits(d)
    ensures ParseInt("-" + d) == Ok(-(DigitsValue(d) as int))
  {
    var m := "-" + d;
    assert m[|m| - 1] == d[|d| - 1];
    assert IsDigit(d[|d| - 1]);
    StripUnchanged(m);
    assert m[0] == '-' && m[1..] == d;
  }

  /** `int()` reads back the decimal text of a number. */
  lemma {:induction false} ParseIntRoundTrip(n: nat)
    ensures ParseInt(NatToString(n)) == Ok(n)
  {
    NatToStringRoundTrip(n);
    ParseIntDigits(NatToString(n));
  }

  /** Where a non-whitespace character of `s` lands in `Strip(s)`. */
  lemma {:induction false} StripIndex(s: string, i: nat) returns (k: nat)
    requires i < |s| && !IsSpace(s[i])
    ensures k < |Strip(s)| && Strip(s)[k] == s[i]
  {
    var u := SkipSpace(s);
    assert i >= |s| - |u|;
    k := i - (|s| - |u|);
    assert u[k] == s[i];
    assert k < |StripEnd(u)|;
  }

  /** A string with a character that is neither a digit, a sign nor
      whitespace is never a number. */
  lemma {:induction false} ParseIntRejects(s: string, i: nat)
    requires i < |s| && !IsDigit(s[i]) && !IsSpace(s[i]) && s[i] != '-' && s[i] != '+'
    ensures ParseInt(s).Err?
  {
    var k := StripIndex(s, i);
    var t := Strip(s);
    var signed := t[0] == '-' || t[0] == '+';
    var digits := if signed then t[1..] else t;
    if signed {
      assert k > 0 && digits[k - 1] == s[i];
    } else {
      assert digits[k] == s[i];
    }
    assert !AllDigits(digits);
  }
}

=== FILE: wrappers.dfy ===
/** Failure-compatible result types shared by every decoder.
    An exception raised by the original program becomes an `Err` carrying
    the exception's kind; the caller sees no partial output. */
module Wrappers {

  datatype Option<+T> = None | Some(value: T)

  /** The exceptions the decoders can raise. */
  datatype Error =
    | FileNotFound(name: string)      // open() of a manifest file that is absent
    | ZeroDivision                    // 0x8000 / width with width 0
    | IndexOutOfRange                 // lines[i] past the end of the line list
    | ValueError(text: string)        // int() of a string that is not a number
    | NoVersions(entry: string)       // image manifest entry without versions
    | UnusableVersion(ver: string)    // image version without the 'x' shape
    | NameUnchanged(name: string)     // the '.svg' substitution changed nothing
    | SafetyStop                      // renumbering refused: missing or duplicate weights
    | RuntimeError(text: string)      // a branch the author marked as impossible

  datatype Result<+T> = Ok(value: T) | Err(error: Error) {

    predicate IsFailure() {
      Err?
    }

    function PropagateFailure<U>(): Result<U>
      requires Err?
    {
      Err(error)
    }

    function Extract(): T
      requires Ok?
    {
      value
    }
  }
}
